=== FILE: README.md ===
# YouTube video analyzer — a Dafny model of its core

The system is a desktop tool. A user types search criteria into a form. The
tool validates them and pages through the YouTube Data API search endpoint,
collecting video ids. It fetches the details of those ids in batches of 50
and normalises every raw item into a `VideoInfo`. It then filters the videos
by view range and by type (short or normal). The results appear in a
sortable table and can be exported to Google Sheets or to an Excel workbook.
Presets (named criteria) and the search history are kept in SQLite tables.

This project models that core as pure functions and short methods on
immutable data:

- `Models`: the video type, the duration rendering, `SearchCriteria` with its
  defaults, and `validate` with its fixed rule order.
- `ValueObjects`: the view-count range with its `contains`, and the video and
  channel ids with their URLs.
- `YouTubeClient`: the bounded pagination loop, the detail batches, the
  parsing of one raw item, the filter, `search_videos` and `get_video_by_id`.
  The remote service and the two foreign parsers are parameters.
- `VideoSearchService`: validation before the client call, the two filters,
  the two stable sorts, and the history record.
- `CriteriaColumns`: the criteria as the columns of a preset or history row,
  and decoding them back.
- `PresetService` and `HistoryService`: the two tables. A table is a map
  keyed by the unique preset name, or a sequence of history rows in
  insertion order. Each table keeps an id counter and a clock. Every
  operation returns the new table together with its result.
- `ExportLayout`, `SheetsExporter` and `ExcelExporter`: the 14 columns, the
  rows the two exporters write, and the Excel column widths.
- `ResultPanel`: how the table renders and re-parses numbers and durations,
  and how its sort direction toggles.
- `SearchPanel`: reading the form into criteria, writing criteria into the
  form, and clearing the form.

Python behaviour that matters is written out explicitly:

- `str.strip` follows Python's whitespace set.
- `int(s)` strips, then accepts an optional sign followed by digits.
- `f"{n:02d}"` and `f"{n:,}"` are modelled as written.
- `sorted(..., reverse=True)` is stable.
- SQLite's `LIKE` ignores the case of ASCII letters.

Each time `datetime.now()` is read, the store's clock moves one tick forward.

## Model

| member | source | states |
|---|---|---|
| Models.TypeFromCode | src/domain/models.py:12-16 | only the three enum values decode, and a decoded value encodes back to its code |
| Models.TypeCodeRoundTrip | src/domain/models.py:12-16 | every video type decodes from its own code |
| Models.DurationParts | src/domain/models.py:63-65 | hours, minutes and seconds recombine to the duration, with minutes and seconds below 60; hours are positive exactly from 3600 seconds |
| Models.DurationFormatted | src/domain/models.py:56-70 | "MM:SS" below one hour, "HH:MM:SS" from one hour up to 100 hours: every field is at least two digits, fields are separated by colons, and the text ends in two digits after a colon |
| Models.DurationExamples | tests/test_models.py:42-76 | 125 and 3665 seconds render as "02:05" and "01:01:05", as the tests check, and 0 seconds as "00:00" |
| Models.DefaultCriteria | src/domain/models.py:90-99 | the dataclass defaults: all types, no bounds, no dates, 50 results, order viewCount, region JP, language ja |
| Models.Validate | src/domain/models.py:101-129 | a reported error names a rule the criteria break |
| Models.ValidateFirstBroken | src/domain/models.py:108-129 | validation passes exactly when all six rules hold; otherwise it reports the first broken rule in source order |
| Models.PassedCountInRange | src/domain/models.py:110-111 | criteria that pass validation ask for 1 to 500 results |
| Models.NegativeMaxPasses | src/domain/models.py:114-120 | a negative maximum view count alone passes validation, since only the minimum is checked for sign |
| Models.DefaultValidates | src/domain/models.py:90-99 | the defaults with a non-blank keyword pass validation |
| ValueObjects.MakeViewCountRange | src/domain/value_objects.py:22-33 | construction succeeds exactly for non-negative, ordered bounds, and reports a negative minimum first, then a negative maximum |
| ValueObjects.ContainsMeansBetween | src/domain/value_objects.py:35-49 | contains is inclusive on both ends, and a missing bound does not constrain |
| ValueObjects.ContainsBounds | src/domain/value_objects.py:45-49 | a well-formed range contains both of its bounds |
| ValueObjects.UnboundedContainsAll | src/domain/value_objects.py:45-49 | the range with no bounds contains every count |
| ValueObjects.ContainsExamples | src/domain/value_objects.py:35-49 | 1000..10000 holds 1000 and 10000 but not 500 or 15000; 10000..1000 is refused |
| ValueObjects.MakeVideoId | src/domain/value_objects.py:64-75 | an id is accepted exactly when it has 11 characters from the id alphabet; emptiness, a wrong length and a bad character are each reported exactly when they are the first fault |
| ValueObjects.MakeChannelId | src/domain/value_objects.py:97-104 | a channel id is accepted exactly when it has 24 characters starting with "UC"; the empty id and a bad format are each reported exactly in their case |
| ValueObjects.VideoUrl | src/domain/value_objects.py:77-84 | the URL is the watch prefix followed by the id |
| ValueObjects.VideoUrlInjective | src/domain/value_objects.py:77-84 | distinct ids give distinct URLs |
| ValueObjects.ChannelUrl | src/domain/value_objects.py:106-113 | the URL is the channel prefix followed by the id |
| YouTubeClient.RequestFor | src/infrastructure/youtube_client.py:112-133 | a page asks for min(max_results, 50) items of the keyword, and only the page token differs between pages |
| YouTubeClient.ItemIds | src/infrastructure/youtube_client.py:137-141 | only non-empty video ids are collected, at most one per item |
| YouTubeClient.SearchVideoIds | src/infrastructure/youtube_client.py:97-148 | 1 to 10 requests; each carries the previous page's token, and every answered page except the last had a next token and left fewer than max_results ids; stops at 10 requests, at a missing token or at max_results ids, and returns the first max_results ids collected; a provider failure or a missing id object aborts |
| YouTubeClient.CountField | src/infrastructure/youtube_client.py:212-214 | a missing count reads as 0, a present one through int() |
| YouTubeClient.ParseVideoItem | src/infrastructure/youtube_client.py:179-225 | an item parses exactly when every required field is present and parsable; every present field is copied, the counts through int() and the duration and time through their parsers; missing counts, thumbnail, tags and description default to 0, "", [] and ""; the video is short exactly when it lasts at most 60 seconds; the URL is the watch URL |
| YouTubeClient.ParsedUrlIsVideoUrl | src/infrastructure/youtube_client.py:209 | the parsed URL is the value object's to_url of the id |
| YouTubeClient.ParseItemsFromItems | src/infrastructure/youtube_client.py:172-175 | every parsed video comes from some raw item |
| YouTubeClient.ParseItemsKeeps | src/infrastructure/youtube_client.py:172-175 | every parsable raw item yields a video in the output |
| YouTubeClient.BatchAt | src/infrastructure/youtube_client.py:165-166 | each detail batch holds 1 to 50 ids |
| YouTubeClient.GetVideoDetails | src/infrastructure/youtube_client.py:150-177 | the batches are consecutive 50-id slices that together give the ids; on success the videos are the parsed answers in batch order; the first failed batch aborts |
| YouTubeClient.InViewBoundsIsContains | src/infrastructure/youtube_client.py:242-245 | the client's view test agrees with the range's contains |
| YouTubeClient.KeepMeans | src/infrastructure/youtube_client.py:240-255 | a video is kept exactly when its count is in range and its type is the one asked for |
| YouTubeClient.FilterVideos | src/infrastructure/youtube_client.py:227-255 | the kept videos, in input order |
| YouTubeClient.SearchVideos | src/infrastructure/youtube_client.py:53-95 | invalid criteria fail before any request; otherwise the id search runs as SearchVideoIds describes, its failure becomes an API error, no ids give the empty list without a details request, the first failed detail batch (every earlier one answered) becomes an API error with its fault, and success is the first max_results of the filtered details of exactly the ids found |
| YouTubeClient.SearchValidated | src/infrastructure/youtube_client.py:68-95 | after validation: the requests are chained, each asks for min(max_results, 50), the ids are the first max_results collected, and every failure is reported as an API error with the provider's fault, for the details that of the first failing batch |
| YouTubeClient.RequestsSized | src/infrastructure/youtube_client.py:111-120 | every search request asks for min(max_results, 50) items |
| YouTubeClient.FetchAndFilter | src/infrastructure/youtube_client.py:78-88 | the detail batches slice the ids; success exactly when every batch is answered, giving the first max_results filtered videos; otherwise the failure of the first unanswered batch, the last one sent, as an API error |
| YouTubeClient.BatchVideosFromItems | src/infrastructure/youtube_client.py:150-177 | every detail video is the parse of an item of one batch's answer |
| YouTubeClient.SearchResultMeans | src/infrastructure/youtube_client.py:78-88 | every video returned has a view count in range, is short (at most 60 seconds) or normal as asked, and is the parse of an item the details endpoint sent |
| YouTubeClient.GetVideoById | src/infrastructure/youtube_client.py:257-285 | no item gives None, otherwise the parse of the first item; it fails exactly when the request fails, and only an HTTP failure is wrapped as an API error |
| YouTubeClient.GetVideoByIdMeans | src/infrastructure/youtube_client.py:257-285 | a video is found exactly when the answer's first item parses, and then it has that item's id, the watch URL and the 60-second short rule; None exactly when the answer is empty or its first item does not parse |
| VideoSearchService.Search | src/application/video_search_service.py:33-60 | invalid criteria are refused with a broken rule and the client is not consulted; valid criteria give the client's answer |
| VideoSearchService.CreateSearchHistory | src/application/video_search_service.py:89-106 | the record carries the criteria, the count and the current time, and has no id |
| VideoSearchService.CreatedHistoryReadsBack | src/application/video_search_service.py:89-106 | a created record, once logged, gets the next id and the logging time, and looking up that id gives it back with region and language at their defaults |
| VideoSearchService.FilterByViewCount | src/application/video_search_service.py:108-135 | the videos whose count is within the bounds, in input order |
| VideoSearchService.FilterByViewCountMembers | src/application/video_search_service.py:125-135 | a video survives exactly when it was in the input and the range contains its count |
| VideoSearchService.FilterByViewCountIdempotent | src/application/video_search_service.py:125-135 | filtering twice changes nothing |
| VideoSearchService.FilterShorts | src/application/video_search_service.py:137-150 | every kept video has the requested short flag |
| VideoSearchService.FilterShortsMembers | src/application/video_search_service.py:148 | a video survives exactly when it was in the input with that flag |
| VideoSearchService.FilterShortsPartition | src/application/video_search_service.py:148 | the shorts and the non-shorts together are the input, as a multiset |
| VideoSearchService.FilterShortsIdempotent | src/application/video_search_service.py:148 | filtering twice changes nothing |
| VideoSearchService.SortByViewCount | src/application/video_search_service.py:152-165 | a permutation of the input, ordered by view count in the requested direction |
| VideoSearchService.SortByViewCountStable | src/application/video_search_service.py:163 | videos with equal counts keep their input order |
| VideoSearchService.SortByPublishedDate | src/application/video_search_service.py:167-180 | a permutation of the input, ordered by publication time in the requested direction |
| VideoSearchService.SortByPublishedDateStable | src/application/video_search_service.py:178 | videos with equal times keep their input order |
| CriteriaColumns.ToColumns | src/application/preset_service.py:105-123 | the stored type column is always a non-empty code |
| CriteriaColumns.FromColumns | src/application/preset_service.py:262-275 | a row decodes exactly when its type column is a known code; the region and language come back as the defaults |
| CriteriaColumns.ColumnsRoundTrip | src/application/preset_service.py:262-275 | storing and decoding criteria gives them back, with region and language reset to the defaults |
| CriteriaColumns.ColumnsRoundTripExact | src/application/preset_service.py:262-275 | the round trip is exact exactly when region and language already are the defaults |
| CriteriaColumns.DecodeThenEncode | src/application/preset_service.py:262-275 | a decodable row re-encodes to itself |
| CriteriaColumns.DecodeAll | src/application/preset_service.py:208 | the list comprehension succeeds exactly when every row decodes, keeps order, and otherwise raises the first row's error |
| PresetService.RowToPreset | src/application/preset_service.py:250-286 | a row decodes exactly when its columns do, with its name, id and both timestamps |
| PresetService.SavePreset | src/application/preset_service.py:41-143 | a blank name is refused; invalid criteria are refused; otherwise the stripped name is upserted (an update keeps the id and creation time, an insert takes the next id) and nothing else changes |
| PresetService.SavePreservesValid | src/application/preset_service.py:72-124 | saving keeps ids unique and below the counter, timestamps ordered and not in the future, and every row decodable |
| PresetService.SaveThenLoad | src/application/preset_service.py:41-143 | after a save, loading the stripped name gives the saved criteria and id |
| PresetService.SaveLeavesOthers | src/application/preset_service.py:77-100 | a save leaves every other name's load unchanged |
| PresetService.LoadPreset | src/application/preset_service.py:145-182 | None exactly for an unknown name, otherwise the decoded row; a valid store always decodes |
| PresetService.DeletePreset | src/application/preset_service.py:217-248 | reports whether the name existed and removes exactly that row |
| PresetService.DeleteThenLoad | src/application/preset_service.py:233-244 | after a delete the name loads as None, other names are unaffected, and validity is kept |
| PresetService.TableRows | src/application/preset_service.py:197-205 | the rows read are the table's rows, each exactly once |
| PresetService.ListPresets | src/application/preset_service.py:184-215 | every preset once, newest update first; a valid store always decodes |
| HistoryService.RowToHistory | src/application/history_service.py:273-308 | a row decodes exactly when its columns do, with its id, count and time |
| HistoryService.AddHistory | src/application/history_service.py:41-97 | appends one row and leaves the old rows as they were; the returned record has the new id and the current time and reads back from the stored row |
| HistoryService.AddPreservesValid | src/application/history_service.py:54-82 | adding keeps rows in increasing id and time, ids below the counter, no time in the future, and every row decodable |
| HistoryService.Listing | src/application/history_service.py:115-122 | at most limit rows (all for a negative limit), newest first, and none left out is newer than one kept |
| HistoryService.NewestPrefix | src/application/history_service.py:119-121 | a prefix of a newest-first order is itself newest-first and newer than the rest |
| HistoryService.Newest | src/application/history_service.py:115-134 | the decoded newest-first listing: it decodes when every row does, and then holds the newest records |
| HistoryService.DecodedListingIsNewest | src/application/history_service.py:115-134 | a decoded listing has one record per listed row, newest first, each from a stored row |
| HistoryService.DecodedRecords | src/application/history_service.py:115-127 | the records decoded from a newest-first list of stored rows keep its length, order and rows |
| HistoryService.DecodedFromRows | src/application/history_service.py:124-127 | every record decoded from stored rows is the decoding of some stored row |
| HistoryService.GetRecentHistory | src/application/history_service.py:99-134 | record i is row i of the newest-first listing, decoded: as many records as the limit allows (all for a negative limit), newest first, each from a stored row; a valid store always decodes |
| HistoryService.LikeIgnoresCase | src/application/history_service.py:158-161 | LIKE matches every exact substring and ignores ASCII letter case on both sides |
| HistoryService.SearchByKeyword | src/application/history_service.py:136-173 | the newest records among the rows whose keyword matches (LIKE), as many as the limit allows, newest first, each from a stored row with a matching keyword; a valid store always decodes |
| HistoryService.MatchesContain | src/application/history_service.py:150-165 | every record found by keyword was stored with a matching keyword, and a valid store always decodes the matches |
| HistoryService.RecentIsReverse | src/application/history_service.py:115-121 | in a valid store the unlimited newest-first listing is the rows in reverse insertion order |
| HistoryService.ListingFromEnd | src/application/history_service.py:115-121 | on rows in insertion order, listed row i is the i-th row from the end, whatever the limit |
| HistoryService.ListedRecordsFromEnd | src/application/history_service.py:115-134 | on rows in insertion order the newest records are the last rows, with strictly decreasing ids |
| HistoryService.RecentAreLatest | src/application/history_service.py:99-134 | in a valid store the recent records are the last rows inserted, newest first, so distinct rows with decreasing ids |
| HistoryService.SearchFindsLatestMatches | src/application/history_service.py:136-173 | in a valid store the records found are the last matching rows inserted, newest first, with decreasing ids |
| HistoryService.ThreeSearches | src/application/history_service.py:41-97 | three searches logged in a row give a valid store of three rows with the keywords in insertion order |
| HistoryService.RecentExample | tests/test_integration.py:172-192 | a store of searches for "Python", "JavaScript" and "Go", in that order, read with limit 10 gives three records: Go, JavaScript, Python |
| HistoryService.GetHistoryById | src/application/history_service.py:175-212 | None exactly when no row has the id; otherwise a stored row with that id |
| HistoryService.DeleteHistory | src/application/history_service.py:214-245 | reports whether the id existed and removes exactly the rows with it |
| HistoryService.DeleteThenGet | src/application/history_service.py:230-241 | after a delete the id reads as None, other ids are unaffected, and validity is kept |
| HistoryService.ClearAllHistory | src/application/history_service.py:247-271 | empties the table and reports how many rows there were |
| HistoryService.ClearThenRecent | src/application/history_service.py:260-267 | after clearing, the recent list is empty and the store is valid |
| ExportLayout.TypeLabel | src/infrastructure/sheets_exporter.py:223 | the label is "ショート" exactly for shorts and "通常" exactly for the rest |
| ExportLayout.TagsText | src/infrastructure/sheets_exporter.py:220 | no tags give "", one tag gives itself |
| ExportLayout.TagsTextIsJoin | src/infrastructure/sheets_exporter.py:220 | the tag cell is the ", " join of the tags |
| SheetsExporter.CreateVideoRow | src/infrastructure/sheets_exporter.py:208-243 | 14 cells; the type cell is the short label exactly for shorts, and the duration cell is the formatted duration |
| SheetsExporter.Grid | src/infrastructure/sheets_exporter.py:112-121 | the header, then row k numbered k for the k-th video, every row 14 cells wide |
| SheetsExporter.VideoRowParsesBack | src/infrastructure/sheets_exporter.py:228-236 | the number and the three count cells read back with int() as the integers they came from |
| SheetsExporter.Export | src/infrastructure/sheets_exporter.py:77-137 | an empty list is refused before writing; otherwise the export succeeds exactly when the service accepts the grid (header plus one row per video in order), and a refused write is the export error |
| SheetsExporter.ExportNumbering | src/infrastructure/sheets_exporter.py:116-117 | the k-th data row is numbered k |
| ExcelExporter.DisplayLength | src/infrastructure/excel_exporter.py:194 | each character counts 1 or 2, so the length lies between the string's length and twice it |
| ExcelExporter.HeaderCells | src/infrastructure/excel_exporter.py:72-106 | the header row is the 14 headers |
| ExcelExporter.VideoCells | src/infrastructure/excel_exporter.py:108-176 | 14 cells numbered as given; the thumbnail cell is left unwritten exactly when the URL is empty |
| ExcelExporter.CellsMatchSheetsRow | src/infrastructure/excel_exporter.py:108-176 | apart from the date, each workbook cell renders as the spreadsheet row's cell |
| ExcelExporter.Worksheet | src/infrastructure/excel_exporter.py:53-58 | the header on row 1 and video i on row i + 1, numbered i |
| ExcelExporter.ColumnMaxIsMax | src/infrastructure/excel_exporter.py:185-195 | the column maximum bounds every non-empty cell and, when positive, is attained |
| ExcelExporter.Clamp | src/infrastructure/excel_exporter.py:200 | widths lie in 20..80 and are the length plus 2 in between |
| ExcelExporter.ColumnWidth | src/infrastructure/excel_exporter.py:178-201 | the loop computes the clamped column maximum |
| ExcelExporter.WidthsFitCells | src/infrastructure/excel_exporter.py:185-201 | every non-empty cell fits its column with two units to spare unless the column hit 80, and no column is below 20 |
| ExcelExporter.ColumnWidths | src/infrastructure/excel_exporter.py:178-201 | every one of the 14 columns gets its clamped maximum, between 20 and 80 |
| ExcelExporter.Export | src/infrastructure/excel_exporter.py:30-70 | an empty list is refused; otherwise the export succeeds exactly when the save accepts the book of the worksheet and its clamped widths, and a failed save is the I/O error |
| ResultPanel.ParseTwoFields | src/ui/result_panel.py:217-220 | "a:b" reads as a * 60 + b |
| ResultPanel.ParseThreeFields | src/ui/result_panel.py:221-222 | "a:b:c" reads as a * 3600 + b * 60 + c |
| ResultPanel.ParseDurationRoundTrip | src/ui/result_panel.py:216-222 | a formatted duration parses back to its seconds |
| ResultPanel.ParseGroupedRoundTrip | src/ui/result_panel.py:215-223 | a comma-grouped view count parses back to the count |
| ResultPanel.ParseWordIsZero | src/ui/result_panel.py:223-225 | a word that is not a number reads as 0 |
| ResultPanel.ParseBadFieldIsZero | src/ui/result_panel.py:217-225 | a two-field value with a non-numeric field reads as 0 |
| ResultPanel.ParseOtherFieldCountIsZero | src/ui/result_panel.py:216-225 | a value with colons but neither two nor three fields ("1:2:3:4") reads as 0, because int() of the whole string fails |
| ResultPanel.ToggleSort | src/ui/result_panel.py:180-182 | a column's first click sorts ascending, each click flips the stored direction, and other columns keep theirs |
| ResultPanel.ClicksState | src/ui/result_panel.py:180-182 | after a run of clicks, a column's stored flag is set exactly when it was clicked an odd number of times |
| ResultPanel.ClicksAlternate | src/ui/result_panel.py:180-182 | a click sorts descending exactly when that column was clicked an odd number of times before |
| ResultPanel.SortNumericColumn | src/ui/result_panel.py:188-193 | a permutation of the lines, ordered by the parsed cell |
| ResultPanel.ViewLines | src/ui/result_panel.py:135-137 | one line per video holding its grouped view count |
| ResultPanel.SortViewsByCount | src/ui/result_panel.py:188-193 | sorting the views column orders the videos by their actual counts |
| SearchPanel.FormType | src/ui/search_panel.py:214-219 | "short" and "normal" select those types and anything else means all |
| SearchPanel.ReadBound | src/ui/search_panel.py:192-211 | a blank field is no bound; a non-numeric or negative one is refused; otherwise the number |
| SearchPanel.GetSearchCriteria | src/ui/search_panel.py:177-242 | the refusals come in panel order: blank keyword, bad minimum, bad maximum, non-integer result count, then the first rule validation breaks (never the keyword or minimum rule); an accepted form gives valid criteria built from the stripped keyword, the read bounds, type, count and order |
| SearchPanel.PanelCheckedRules | src/ui/search_panel.py:224-242 | once the panel has checked the keyword and the minimum, validation can only fail on a later rule, and passing means all rules hold |
| SearchPanel.BoundText | src/ui/search_panel.py:294-295 | a missing or zero bound is written as the empty field |
| SearchPanel.BoundRoundTrip | src/ui/search_panel.py:294-295 | a written bound reads back as itself, zero as no bound, and a negative one is refused |
| SearchPanel.SetSearchCriteria | src/ui/search_panel.py:286-308 | the form shows the keyword, the type code (which reads back as the type), the count (which parses back), the bounds as written, and the order, which is never empty: the criteria's own order, or "viewCount" when that is empty |
| SearchPanel.ShownFieldsRead | src/ui/search_panel.py:297-305 | the shown type code reads back as the type, and the shown count parses back as the count |
| SearchPanel.FormRoundTrip | src/ui/search_panel.py:286-306 | valid criteria the form can show read back unchanged, except that zero bounds become none |
| SearchPanel.GetSetGet | src/ui/search_panel.py:177-242 | criteria read from a form, written back and read again are the same, except zero bounds |
| SearchPanel.NegativeMaxNotShowable | src/ui/search_panel.py:204-211 | criteria with a negative maximum pass validation but cannot be read back from the form |
| SearchPanel.ClearedFieldsRead | src/ui/search_panel.py:276-283 | the cleared fields read as no bounds, all types, viewCount and 50 results |
| SearchPanel.ClearedResultsText | src/ui/search_panel.py:282 | the cleared result count field is "50" |
| SearchPanel.ClearedFormReads | src/ui/search_panel.py:276-283 | a cleared form with a keyword reads as the default criteria, and one without a keyword is refused |
| Text.Strip | src/ui/search_panel.py:187 | the result is empty exactly for blank input and neither starts nor ends with whitespace |
| Text.StripIdempotent | src/ui/search_panel.py:187 | stripping twice is stripping once |
| Text.ParseInt | src/ui/search_panel.py:198 | int() succeeds exactly on an optionally signed run of digits, once stripped |
| Text.ParseStripped | src/ui/search_panel.py:198 | int() of a stripped string is int() of the string |
| Text.ParseIntToDecimal | src/infrastructure/sheets_exporter.py:234 | int(str(n)) == n |
| Text.SplitJoin | src/ui/result_panel.py:218 | splitting a join of separator-free fields gives them back |
| Text.ContainsLowered | src/application/history_service.py:158 | a substring stays a substring once both sides are lower-cased |
| StableSort.SortBy | src/application/video_search_service.py:163 | a permutation ordered by the key in the requested direction |
| StableSort.SortStable | src/application/video_search_service.py:163 | elements with equal keys keep their relative order |
| Seqs.FilterPartition | src/application/video_search_service.py:148 | filtering by a test and by its negation splits the input as a multiset |
| Seqs.Take | src/infrastructure/youtube_client.py:88 | the slice is the prefix of length min(n, len) |

## Left out

- Widgets, threads and message boxes are not modelled. Neither are `set_enabled` and the preset handlers of the search panel (`_load_preset`, `_save_preset`, `_delete_preset`, `_refresh_preset_list`). Only the logic they call is modelled.
- The history panel, the main window and the program entry point lie outside the core.
- SQLite itself is not modelled. A table is a map or a sequence. `ORDER BY` is modelled as a stable sort of the rows in table order, so rows with equal keys may come out in a different order than SQLite would give.
- HistoryService.Like: the `%` and `_` wildcards inside the keyword itself are not interpreted. Only the case-insensitive substring test is modelled.
- Parsing ISO 8601 durations and timestamps, `fromisoformat`, `isoformat` and `strftime` are parameters. A date is an integer tick.
- The Google and openpyxl APIs, saving the file and the spreadsheet write are parameters that accept or reject the finished grid or workbook. Header styling, hyperlinks, number formats and the spreadsheet's column widths are not modelled.
- Logging and the client's API-key setup are not modelled.
- Text.ParseInt: underscores between digits and non-ASCII digits, both of which Python's `int()` accepts, are not modelled.
- ResultPanel.SortNumericColumn: only the numeric columns are modelled. The string sort of the other columns is not.
- CriteriaColumns.FromColumns: a NULL or unknown `video_type` column is a decode error. NULL `max_results` and `sort_order` columns are not modelled, because the rows are always written with them.
- YouTubeClient.ParseVideoItem: the nested `thumbnails.high.url` lookup is collapsed into one optional field.
- YouTubeClient.SearchVideoIds: a page without `items` is modelled as an empty page.
- SheetsExporter.Export and ExcelExporter.Export: an exception thrown while a row is built is not modelled. Only the write or save can fail.
- YouTubeClient.SearchVideoIds: requires `1 <= max_results`. Its only caller validates the criteria first, and validation guarantees this.
- VideoSearchService.get_video_by_id only passes the call through to the client, which is modelled as YouTubeClient.GetVideoById.
- ResultPanel.ToggleSort: the column key is generic rather than the panel's column names.
- ResultPanel.ParseGroupedRoundTrip: stated only for non-negative values, which is what view counts are.
- ResultPanel.ParseDurationRoundTrip: stated only for non-negative values, which is what durations are.
- PresetService.SavePreset: when an existing preset is updated, the returned preset carries the current time as its creation time rather than the stored one. The model keeps this behaviour as written. Loading the preset again gives the stored creation time.

=== FILE: base.dfy ===
/** Failure-carrying datatypes shared by every module of the model.
    Python code in the analyser signals failure by returning `None` or by
    raising; the model makes both explicit in the result type. */
module Base {

  /** A value that may be absent (Python's `Optional[T]`). */
  datatype Option<+T> = None | Some(value: T) {
    function GetOr(default: T): T {
      match this
      case Some(v) => v
      case None => default
    }
  }

  /** Either a value or the error that would have been raised. */
  datatype Result<+T, +E> = Ok(value: T) | Err(error: E)

  /** The outcome of a check that returns nothing on success. */
  datatype Outcome<+E> = Pass | Fail(error: E)

  function Min(a: int, b: int): int {
    if a <= b then a else b
  }

  function Max(a: int, b: int): int {
    if a >= b then a else b
  }
}

=== FILE: criteria_columns.dfy ===
/** The eight criteria columns that the preset and history tables share,
    the serialiser that fills them from a `SearchCriteria`, and the row
    decoder both services use.  Region and language are not stored, so
    decoding gives back the defaults for them. */
module CriteriaColumns {
  import opened Base
  import opened Models

  /** The stored form of a criteria: dates as clock values, the video type
      as its code (`None` for SQL NULL). */
  datatype Columns = Columns(
    keyword: string,
    minViewCount: Option<int>,
    maxViewCount: Option<int>,
    videoType: Option<string>,
    publishedAfter: Option<int>,
    publishedBefore: Option<int>,
    maxResults: int,
    sortOrder: string)

  /** Why a stored row could not be turned back into a criteria:
      `VideoType(code)` raising, or a NULL/empty code that the domain
      cannot represent. */
  datatype DecodeError = UnknownVideoType(code: string) | MissingVideoType

  /** The values bound to the criteria columns of an INSERT or UPDATE. */
  function ToColumns(c: SearchCriteria): (cols: Columns)
    ensures cols.videoType.Some? && cols.videoType.value != []
  {
    Columns(c.keyword, c.minViewCount, c.maxViewCount, Some(TypeCode(c.videoType)),
            c.publishedAfter, c.publishedBefore, c.maxResults, c.order)
  }

  /** The criteria part of `_row_to_preset` and `_row_to_history`. */
  function FromColumns(cols: Columns): (r: Result<SearchCriteria, DecodeError>)
    ensures r.Ok? <==> cols.videoType.Some? && TypeFromCode(cols.videoType.value).Some?
    ensures r.Ok? ==> r.value.regionCode == DefaultRegion && r.value.language == DefaultLanguage
    ensures r.Ok? ==> r.value.keyword == cols.keyword && r.value.order == cols.sortOrder
  {
    if cols.videoType.None? || cols.videoType.value == [] then Err(MissingVideoType)
    else match TypeFromCode(cols.videoType.value)
      case None => Err(UnknownVideoType(cols.videoType.value))
      case Some(t) =>
        Ok(SearchCriteria(cols.keyword, cols.minViewCount, cols.maxViewCount, t,
                          cols.publishedAfter, cols.publishedBefore, cols.maxResults,
                          cols.sortOrder, DefaultRegion, DefaultLanguage))
  }

  /** Storing and reading back restores every stored field; only region
      and language are replaced by their defaults. */
  lemma ColumnsRoundTrip(c: SearchCriteria)
    ensures FromColumns(ToColumns(c)) == Ok(c.(regionCode := DefaultRegion, language := DefaultLanguage))
  {
    TypeCodeRoundTrip(c.videoType);
  }

  /** The round trip is the identity exactly on criteria whose region and
      language are the defaults, so it is lossy everywhere else. */
  lemma ColumnsRoundTripExact(c: SearchCriteria)
    ensures FromColumns(ToColumns(c)) == Ok(c) <==>
              c.regionCode == DefaultRegion && c.language == DefaultLanguage
  {
    ColumnsRoundTrip(c);
  }

  /** A row that decodes is exactly what the serialiser writes for the
      decoded criteria. */
  lemma DecodeThenEncode(cols: Columns)
    requires FromColumns(cols).Ok?
    ensures ToColumns(FromColumns(cols).value) == cols
  {
  }

  /** A list comprehension over rows: every row decodes, or the first row
      that does not decide the error. */
  function DecodeAll<R, T>(rows: seq<R>, f: R -> Result<T, DecodeError>): (r: Result<seq<T>, DecodeError>)
    ensures r.Ok? <==> forall i :: 0 <= i < |rows| ==> f(rows[i]).Ok?
    ensures r.Ok? ==> |r.value| == |rows| && forall i :: 0 <= i < |rows| ==> r.value[i] == f(rows[i]).value
    ensures r.Err? ==> exists i :: 0 <= i < |rows| && f(rows[i]) == Err(r.error) &&
                                    forall j :: 0 <= j < i ==> f(rows[j]).Ok?
  {
    if rows == [] then Ok([])
    else match f(rows[0])
      case Err(e) => Err(e)
      case Ok(x) =>
        var rest := DecodeAll(rows[1..], f);
        if rest.Err? then
          assert forall i :: 1 <= i < |rows| ==> rows[1..][i - 1] == rows[i];
          Err(rest.error)
        else Ok([x] + rest.value)
  }
}

=== FILE: excel_exporter.dfy ===
/** The Excel exporter's data: a worksheet of typed cells (header on row 1,
    video i on row i + 1) and the width of every column, computed from the
    display length of its non-empty cells and clamped to 20..80.  Saving the
    file is a parameter; so is `str()` of a date cell. */
module ExcelExporter {
  import opened Base
  import opened Text
  import opened Models
  import opened ExportLayout
  import SheetsExporter

  /** A worksheet cell: never written, a string, an integer or a date. */
  datatype Cell = Blank | Text(s: string) | Number(n: int) | Date(t: int)

  /** Python truthiness of the cell's value: `None`, "" and 0 are false. */
  predicate Truthy(c: Cell) {
    match c
    case Blank => false
    case Text(s) => s != []
    case Number(n) => n != 0
    case Date(_) => true
  }

  /** `str(cell.value)`; `showDate` is `str` of a datetime. */
  function CellString(c: Cell, showDate: int -> string): string {
    match c
    case Blank => ""
    case Text(s) => s
    case Number(n) => IntToDecimal(n)
    case Date(t) => showDate(t)
  }

  /** Width units of a string: 2 for a character above code 127, else 1. */
  function DisplayLength(s: string): (n: nat)
    ensures |s| <= n <= 2 * |s|
  {
    if s == [] then 0 else DisplayLength(s[..|s| - 1]) + (if s[|s| - 1] as int > 127 then 2 else 1)
  }

  /** The header row, as cells. */
  function HeaderCells(): (row: seq<Cell>)
    ensures |row| == ColumnCount
    ensures forall j :: 0 <= j < |row| ==> row[j] == Text(Headers[j])
  {
    seq(|Headers|, j requires 0 <= j < |Headers| => Text(Headers[j]))
  }

  /** `_add_video_row` for the video numbered `no`; the thumbnail cell is
      left unwritten when the URL is empty. */
  function VideoCells(no: int, v: VideoInfo): (row: seq<Cell>)
    ensures |row| == ColumnCount
    ensures row[NoColumn] == Number(no)
    ensures row[ThumbnailColumn].Blank? <==> v.thumbnailUrl == []
  {
    [Number(no), Text(v.title), Text(v.url), Text(v.channelName), Text(v.channelId),
     Number(v.viewCount), Number(v.likeCount), Number(v.commentCount), Date(v.publishedAt),
     Text(DurationFormatted(v.durationSeconds)), Text(TypeLabel(v.isShort)), Text(v.description),
     Text(TagsText(v.tags)), if v.thumbnailUrl != [] then Text(v.thumbnailUrl) else Blank]
  }

  /** Cell by cell, the workbook row says what the spreadsheet row says,
      apart from the date, which each renders in its own way. */
  lemma CellsMatchSheetsRow(no: int, v: VideoInfo, showDate: int -> string, formatDate: int -> string)
    ensures var cells := VideoCells(no, v);
            var row := SheetsExporter.CreateVideoRow(no, v, formatDate);
            forall j :: 0 <= j < ColumnCount && j != PublishedColumn ==> CellString(cells[j], showDate) == row[j]
  {
  }

  /** The worksheet `export` fills: header on row 1, then video i (from 1)
      on row i + 1 with i in its "No" cell. */
  function Worksheet(videos: seq<VideoInfo>): (sheet: seq<seq<Cell>>)
    ensures |sheet| == |videos| + 1 && sheet[0] == HeaderCells()
    ensures forall i :: 1 <= i < |sheet| ==> sheet[i] == VideoCells(i, videos[i - 1])
    ensures forall i :: 0 <= i < |sheet| ==> |sheet[i]| == ColumnCount
  {
    [HeaderCells()] + seq(|videos|, i requires 0 <= i < |videos| => VideoCells(i + 1, videos[i]))
  }

  // ---------------------------------------------------------------------------
  // Column widths
  // ---------------------------------------------------------------------------

  function CellAt(row: seq<Cell>, col: nat): Cell {
    if col < |row| then row[col] else Blank
  }

  /** The length a truthy cell contributes to its column; 0 otherwise. */
  function CellLength(c: Cell, showDate: int -> string): nat {
    if Truthy(c) then DisplayLength(CellString(c, showDate)) else 0
  }

  /** The reference maximum: the largest display length among the truthy
      cells of column `col`, 0 when there is none. */
  function ColumnMax(sheet: seq<seq<Cell>>, col: nat, showDate: int -> string): nat {
    if sheet == [] then 0
    else Max(ColumnMax(sheet[..|sheet| - 1], col, showDate), CellLength(CellAt(sheet[|sheet| - 1], col), showDate))
  }

  /** The reference maximum bounds every truthy cell of the column and, when
      positive, is the length of one of them. */
  lemma {:induction false} ColumnMaxIsMax(sheet: seq<seq<Cell>>, col: nat, showDate: int -> string)
    ensures forall r :: 0 <= r < |sheet| ==> CellLength(CellAt(sheet[r], col), showDate) <= ColumnMax(sheet, col, showDate)
    ensures ColumnMax(sheet, col, showDate) > 0 ==>
              exists r :: 0 <= r < |sheet| && Truthy(CellAt(sheet[r], col)) &&
                          DisplayLength(CellString(CellAt(sheet[r], col), showDate)) == ColumnMax(sheet, col, showDate)
    decreases |sheet|
  {
    if sheet != [] {
      var init := sheet[..|sheet| - 1];
      ColumnMaxIsMax(init, col, showDate);
      assert forall r :: 0 <= r < |init| ==> init[r] == sheet[r];
    }
  }

  /** `min(max(L + 2, 20), 80)`. */
  function Clamp(maxLength: int): (w: int)
    ensures 20 <= w <= 80
    ensures 18 <= maxLength <= 78 ==> w == maxLength + 2
  {
    Min(Max(maxLength + 2, 20), 80)
  }

  /** `_auto_adjust_column_width` for one column. */
  method ColumnWidth(sheet: seq<seq<Cell>>, col: nat, showDate: int -> string) returns (w: int)
    ensures w == Clamp(ColumnMax(sheet, col, showDate))
    ensures 20 <= w <= 80
  {
    var maxLength := 0;
    var i := 0;
    while i < |sheet|
      invariant 0 <= i <= |sheet|
      invariant maxLength == ColumnMax(sheet[..i], col, showDate)
    {
      assert sheet[..i + 1][..i] == sheet[..i];
      var c := CellAt(sheet[i], col);
      if Truthy(c) {
        var length := DisplayLength(CellString(c, showDate));
        maxLength := Max(maxLength, length);
      }
      i := i + 1;
    }
    assert sheet[..i] == sheet;
    w := Min(Max(maxLength + 2, 20), 80);
  }

  /** The reference widths: column `j` gets `Clamp` of its maximum. */
  function Widths(sheet: seq<seq<Cell>>, showDate: int -> string): seq<int> {
    seq(ColumnCount, j requires 0 <= j < ColumnCount => Clamp(ColumnMax(sheet, j, showDate)))
  }

  /** Every truthy cell fits its column with two units to spare, unless the
      column hit the 80-unit cap; no column is narrower than 20. */
  lemma WidthsFitCells(sheet: seq<seq<Cell>>, showDate: int -> string)
    ensures |Widths(sheet, showDate)| == ColumnCount
    ensures forall j :: 0 <= j < ColumnCount ==> 20 <= Widths(sheet, showDate)[j] <= 80
    ensures forall r, j :: 0 <= r < |sheet| && 0 <= j < ColumnCount ==>
              || CellLength(CellAt(sheet[r], j), showDate) + 2 <= Widths(sheet, showDate)[j]
              || Widths(sheet, showDate)[j] == 80
  {
    forall j | 0 <= j < ColumnCount
      ensures forall r :: 0 <= r < |sheet| ==> CellLength(CellAt(sheet[r], j), showDate) <= ColumnMax(sheet, j, showDate)
    {
      ColumnMaxIsMax(sheet, j, showDate);
    }
  }

  /** The width of every column, left to right. */
  method ColumnWidths(sheet: seq<seq<Cell>>, showDate: int -> string) returns (widths: seq<int>)
    ensures widths == Widths(sheet, showDate)
    ensures |widths| == ColumnCount
    ensures forall j :: 0 <= j < ColumnCount ==> widths[j] == Clamp(ColumnMax(sheet, j, showDate))
    ensures forall j :: 0 <= j < ColumnCount ==> 20 <= widths[j] <= 80
  {
    widths := [];
    var j := 0;
    while j < ColumnCount
      invariant 0 <= j <= ColumnCount && |widths| == j
      invariant forall k :: 0 <= k < j ==> widths[k] == Clamp(ColumnMax(sheet, k, showDate))
    {
      var w := ColumnWidth(sheet, j, showDate);
      widths := widths + [w];
      j := j + 1;
    }
    assert widths == Widths(sheet, showDate);
  }

  datatype Workbook = Workbook(cells: seq<seq<Cell>>, widths: seq<int>)

  /** The book `export` saves: the worksheet and its column widths. */
  function Book(videos: seq<VideoInfo>, showDate: int -> string): Workbook {
    Workbook(Worksheet(videos), Widths(Worksheet(videos), showDate))
  }

  /** `export`: an empty list is refused before anything is built;
      otherwise the worksheet and its widths are handed to `save`, and the
      export succeeds exactly when the save does; a failed save is the I/O
      error. */
  method Export(videos: seq<VideoInfo>, showDate: int -> string, save: Workbook -> bool)
    returns (r: Result<Workbook, ExportError>)
    ensures r == Err(NoVideos) <==> videos == []
    ensures videos != [] ==> (r.Ok? <==> save(Book(videos, showDate)))
    ensures r.Ok? ==> r.value == Book(videos, showDate) && save(r.value)
    ensures r.Ok? ==> r.value.cells == Worksheet(videos)
    ensures r.Ok? ==> |r.value.widths| == ColumnCount &&
                      forall j :: 0 <= j < ColumnCount ==> r.value.widths[j] == Clamp(ColumnMax(r.value.cells, j, showDate))
    ensures r.Ok? ==> forall j :: 0 <= j < ColumnCount ==> 20 <= r.value.widths[j] <= 80
    ensures videos != [] && r.Err? ==> r.error == WriteFailed
  {
    if videos == [] {
      return Err(NoVideos);
    }
    var sheet := Worksheet(videos);
    var widths := ColumnWidths(sheet, showDate);
    var book := Workbook(sheet, widths);
    if save(book) {
      r := Ok(book);
    } else {
      r := Err(WriteFailed);
    }
  }
}

=== FILE: export_layout.dfy ===
/** What the spreadsheet and workbook exporters share: the fourteen column
    headers, the type label, the tag list rendering and the two ways an
    export fails. */
module ExportLayout {
  import opened Text

  /** The header row, one entry per column. */
  const Headers: seq<string> := [
    "No", "タイトル", "URL", "チャンネル名", "チャンネルID", "再生回数", "いいね数",
    "コメント数", "公開日", "動画の長さ", "種類", "概要", "タグ", "サムネイルURL"]

  const ColumnCount: nat := 14

  /** Column positions (0-based) of the cells the exporters agree on. */
  const NoColumn: nat := 0
  const PublishedColumn: nat := 8
  const DurationColumn: nat := 9
  const TypeColumn: nat := 10
  const TagsColumn: nat := 12
  const ThumbnailColumn: nat := 13

  const ShortLabel: string := "ショート"
  const NormalLabel: string := "通常"

  /** The type cell of a video. */
  function TypeLabel(isShort: bool): (r: string)
    ensures r == ShortLabel <==> isShort
    ensures r == NormalLabel <==> !isShort
  {
    if isShort then ShortLabel else NormalLabel
  }

  /** The tag cell: the tags joined with ", ", or "" when there are none. */
  function TagsText(tags: seq<string>): (r: string)
    ensures tags == [] ==> r == []
    ensures |tags| == 1 ==> r == tags[0]
  {
    if tags == [] then "" else Join(tags, ", ")
  }

  /** The emptiness guard is redundant: joining no tags already gives "". */
  lemma TagsTextIsJoin(tags: seq<string>)
    ensures TagsText(tags) == Join(tags, ", ")
  {
  }

  /** `ValueError` for an empty list (raised before anything is written),
      or the failure of the write itself. */
  datatype ExportError = NoVideos | WriteFailed
}

=== FILE: history_service.dfy ===
/** The search-history store: an append-only log of executed searches with
    newest-first listing under a limit, keyword search, lookup and deletion
    by id, and clearing.  The table is a sequence in insertion order;
    `nextId` plays the AUTOINCREMENT counter and `clock` the last value
    `datetime.now()` returned, which grows on every insert. */
module HistoryService {
  import opened Base
  import opened Text
  import opened Seqs
  import opened StableSort
  import opened Models
  import opened CriteriaColumns

  /** One row of `search_history`. */
  datatype HistoryRow = HistoryRow(id: nat, cols: Columns, resultCount: int, searchedAt: int)

  datatype HistoryStore = HistoryStore(rows: seq<HistoryRow>, nextId: nat, clock: int)

  const EmptyHistory: HistoryStore := HistoryStore([], 1, 0)

  /** `a` was inserted before `b`: smaller id and strictly earlier time. */
  predicate Earlier(a: HistoryRow, b: HistoryRow) {
    a.id < b.id && a.searchedAt < b.searchedAt
  }

  /** What every store reachable from `EmptyHistory` keeps: rows in
      insertion order, ids below the counter, no time in the future, and
      every row decodable. */
  predicate Valid(h: HistoryStore) {
    && Pairwise(h.rows, Earlier)
    && (forall row :: row in h.rows ==> row.id < h.nextId && row.searchedAt <= h.clock)
    && (forall row :: row in h.rows ==> FromColumns(row.cols).Ok?)
  }

  lemma EmptyHistoryValid()
    ensures Valid(EmptyHistory) && EmptyHistory.rows == []
  {
  }

  /** `_row_to_history`. */
  function RowToHistory(row: HistoryRow): (r: Result<SearchHistory, DecodeError>)
    ensures r.Ok? <==> FromColumns(row.cols).Ok?
    ensures r.Ok? ==> r.value.historyId == Some(row.id) && r.value.resultCount == row.resultCount
    ensures r.Ok? ==> r.value.executedAt == Some(row.searchedAt)
  {
    match FromColumns(row.cols)
    case Err(e) => Err(e)
    case Ok(c) => Ok(SearchHistory(c, row.resultCount, Some(row.id), Some(row.searchedAt)))
  }

  /** `add_history`: append one row with a fresh id and the current time;
      no validation.  The returned record carries the given criteria and
      count, and reading the new row back gives the same record with region
      and language at their defaults. */
  function AddHistory(h: HistoryStore, c: SearchCriteria, resultCount: int): (out: (HistoryStore, SearchHistory))
    ensures out.0.clock > h.clock && out.0.nextId > h.nextId
    ensures |out.0.rows| == |h.rows| + 1 && out.0.rows[..|h.rows|] == h.rows
    ensures out.1.criteria == c && out.1.resultCount == resultCount
    ensures out.1.historyId == Some(h.nextId) && out.1.executedAt == Some(out.0.clock)
    ensures RowToHistory(out.0.rows[|h.rows|]) ==
              Ok(out.1.(criteria := c.(regionCode := DefaultRegion, language := DefaultLanguage)))
  {
    ColumnsRoundTrip(c);
    var now := h.clock + 1;
    var row := HistoryRow(h.nextId, ToColumns(c), resultCount, now);
    assert (h.rows + [row])[..|h.rows|] == h.rows;
    (HistoryStore(h.rows + [row], h.nextId + 1, now), SearchHistory(c, resultCount, Some(h.nextId), Some(now)))
  }

  lemma AddPreservesValid(h: HistoryStore, c: SearchCriteria, resultCount: int)
    requires Valid(h)
    ensures Valid(AddHistory(h, c, resultCount).0)
  {
    var h' := AddHistory(h, c, resultCount).0;
    var n := |h.rows|;
    ColumnsRoundTrip(c);
    assert h'.rows == h.rows + [h'.rows[n]];
    forall i, j | 0 <= i < j < |h'.rows| ensures Earlier(h'.rows[i], h'.rows[j]) {
      assert h'.rows[i] == h.rows[i] && h'.rows[i] in h.rows;
      if j < n {
        assert h'.rows[j] == h.rows[j];
      }
    }
  }

  // ---------------------------------------------------------------------------
  // Newest-first listing
  // ---------------------------------------------------------------------------

  function SearchedKey(row: HistoryRow): int {
    row.searchedAt
  }

  /** `ORDER BY searched_at DESC LIMIT limit`; SQLite reads a negative
      limit as no limit. */
  function Listing(rows: seq<HistoryRow>, limit: int): (l: seq<HistoryRow>)
    ensures |l| == if 0 <= limit < |rows| then limit else |rows|
    ensures Sorted(l, SearchedKey, true)
    ensures multiset(l) <= multiset(rows)
    ensures |l| == |rows| ==> multiset(l) == multiset(rows)
    ensures forall a, b :: a in l && b in multiset(rows) - multiset(l) ==> a.searchedAt >= b.searchedAt
  {
    var sorted := SortBy(rows, SearchedKey, true);
    var n := if 0 <= limit < |rows| then limit else |rows|;
    NewestPrefix(sorted, n);
    assert sorted[..|rows|] == sorted;
    sorted[..n]
  }

  /** A prefix of a newest-first list is newest-first, and nothing it
      leaves out is newer than anything it keeps. */
  lemma NewestPrefix(sorted: seq<HistoryRow>, n: nat)
    requires n <= |sorted| && Sorted(sorted, SearchedKey, true)
    ensures Sorted(sorted[..n], SearchedKey, true)
    ensures multiset(sorted[..n]) <= multiset(sorted)
    ensures forall a, b :: a in sorted[..n] && b in multiset(sorted) - multiset(sorted[..n]) ==>
              a.searchedAt >= b.searchedAt
  {
    var l := sorted[..n];
    var rest := sorted[n..];
    assert sorted == l + rest;
    assert multiset(sorted) == multiset(l) + multiset(rest);
    forall i, j | 0 <= i < j < |l| ensures InOrder(SearchedKey(l[i]), SearchedKey(l[j]), true) {
      assert l[i] == sorted[i] && l[j] == sorted[j];
    }
    forall a, b | a in l && b in multiset(sorted) - multiset(l) ensures a.searchedAt >= b.searchedAt {
      assert b in rest;
      var i :| 0 <= i < |l| && l[i] == a;
      var j :| 0 <= j < |rest| && rest[j] == b;
      assert sorted[i] == a && sorted[n + j] == b;
      assert InOrder(SearchedKey(sorted[i]), SearchedKey(sorted[n + j]), true);
    }
  }

  /** A listing draws only on stored rows. */
  lemma ListedAreStored(rows: seq<HistoryRow>, limit: int)
    ensures forall row :: row in Listing(rows, limit) ==> row in rows
  {
    var l := Listing(rows, limit);
    forall row | row in l ensures row in rows {
      assert row in multiset(l);
    }
  }

  /** The decoded records of a listing keep its newest-first order. */
  lemma DecodedNewestFirst(l: seq<HistoryRow>)
    requires Sorted(l, SearchedKey, true) && DecodeAll(l, RowToHistory).Ok?
    ensures var r := DecodeAll(l, RowToHistory).value;
            forall i, j :: 0 <= i < j < |r| ==> r[i].executedAt.value >= r[j].executedAt.value
  {
    var r := DecodeAll(l, RowToHistory).value;
    forall i, j | 0 <= i < j < |r| ensures r[i].executedAt.value >= r[j].executedAt.value {
      assert InOrder(SearchedKey(l[i]), SearchedKey(l[j]), true);
    }
  }

  /** What a newest-first read of `rows` under `limit` returns: record `i`
      is the decoded row `i` of the listing, so there are as many records
      as the limit allows, they come from stored rows, and they are ordered
      newest first. */
  predicate NewestRecords(rows: seq<HistoryRow>, limit: int, r: seq<SearchHistory>) {
    && |r| == (if 0 <= limit < |rows| then limit else |rows|)
    && (forall i :: 0 <= i < |r| ==> RowToHistory(Listing(rows, limit)[i]) == Ok(r[i]))
    && (forall i :: 0 <= i < |r| ==> r[i].executedAt.Some?)
    && (forall i, j :: 0 <= i < j < |r| ==> r[i].executedAt.value >= r[j].executedAt.value)
    && (forall i :: 0 <= i < |r| ==> exists row :: row in rows && RowToHistory(row) == Ok(r[i]))
  }

  /** A decoded listing holds the newest records. */
  lemma DecodedListingIsNewest(rows: seq<HistoryRow>, limit: int, r: seq<SearchHistory>)
    requires DecodeAll(Listing(rows, limit), RowToHistory) == Ok(r)
    ensures NewestRecords(rows, limit, r)
  {
    var l := Listing(rows, limit);
    ListedAreStored(rows, limit);
    DecodedRecords(rows, l, r);
  }

  /** The records decoded from a newest-first list of stored rows: one per
      row, each from a stored row, newest first. */
  lemma DecodedRecords(rows: seq<HistoryRow>, l: seq<HistoryRow>, r: seq<SearchHistory>)
    requires Sorted(l, SearchedKey, true)
    requires forall row :: row in l ==> row in rows
    requires DecodeAll(l, RowToHistory) == Ok(r)
    ensures |r| == |l|
    ensures forall i :: 0 <= i < |r| ==> RowToHistory(l[i]) == Ok(r[i])
    ensures forall i :: 0 <= i < |r| ==> r[i].executedAt.Some?
    ensures forall i, j :: 0 <= i < j < |r| ==> r[i].executedAt.value >= r[j].executedAt.value
    ensures forall i :: 0 <= i < |r| ==> exists row :: row in rows && RowToHistory(row) == Ok(r[i])
  {
    DecodedPointwise(l, r);
    DecodedNewestFirst(l);
    DecodedFromRows(rows, l, r);
  }

  /** Record `i` of a decoded list is row `i` decoded, with its time. */
  lemma DecodedPointwise(l: seq<HistoryRow>, r: seq<SearchHistory>)
    requires DecodeAll(l, RowToHistory) == Ok(r)
    ensures |r| == |l|
    ensures forall i :: 0 <= i < |l| ==> RowToHistory(l[i]) == Ok(r[i])
    ensures forall i :: 0 <= i < |r| ==> r[i].executedAt.Some?
  {
  }

  /** The records decoded from rows that are all stored each come from a
      stored row. */
  lemma DecodedFromRows(rows: seq<HistoryRow>, l: seq<HistoryRow>, r: seq<SearchHistory>)
    requires forall row :: row in l ==> row in rows
    requires DecodeAll(l, RowToHistory) == Ok(r)
    ensures forall i :: 0 <= i < |r| ==> exists row :: row in rows && RowToHistory(row) == Ok(r[i])
  {
    DecodedPointwise(l, r);
    forall i | 0 <= i < |r| ensures exists row :: row in rows && RowToHistory(row) == Ok(r[i]) {
      assert l[i] in l && RowToHistory(l[i]) == Ok(r[i]);
    }
  }

  /** The facts Newest's contract rests on: the listing decodes when every
      row does, and then its records are the newest ones. */
  lemma NewestFacts(rows: seq<HistoryRow>, limit: int)
    ensures var r := DecodeAll(Listing(rows, limit), RowToHistory);
            && ((forall row :: row in rows ==> FromColumns(row.cols).Ok?) ==> r.Ok?)
            && (r.Ok? ==> NewestRecords(rows, limit, r.value))
  {
    var l := Listing(rows, limit);
    ListedAreStored(rows, limit);
    var r := DecodeAll(l, RowToHistory);
    if r.Ok? {
      DecodedListingIsNewest(rows, limit, r.value);
    }
  }

  /** The records of `rows`, newest first, at most `limit` of them. */
  function Newest(rows: seq<HistoryRow>, limit: int): (r: Result<seq<SearchHistory>, DecodeError>)
    ensures (forall row :: row in rows ==> FromColumns(row.cols).Ok?) ==> r.Ok?
    ensures r.Ok? ==> NewestRecords(rows, limit, r.value)
  {
    NewestFacts(rows, limit);
    DecodeAll(Listing(rows, limit), RowToHistory)
  }

  /** `get_recent_history(limit)`: at most `limit` records, newest first,
      each read from a stored row; every record when the limit is negative
      or covers the table. */
  function GetRecentHistory(h: HistoryStore, limit: int): (r: Result<seq<SearchHistory>, DecodeError>)
    ensures Valid(h) ==> r.Ok?
    ensures r.Ok? ==> NewestRecords(h.rows, limit, r.value)
  {
    Newest(h.rows, limit)
  }

  /** `s LIKE '%k%'` for a pattern without wildcards: SQLite's LIKE ignores
      the case of ASCII letters, so `k` occurs in `s` once both are folded. */
  predicate Like(s: string, k: string) {
    Contains(AsciiLower(s), AsciiLower(k))
  }

  /** Every exact occurrence matches, and the match does not depend on the
      case of ASCII letters on either side. */
  lemma LikeIgnoresCase(s: string, k: string)
    ensures Contains(s, k) ==> Like(s, k)
    ensures Like(s, k) <==> Like(AsciiLower(s), k)
    ensures Like(s, k) <==> Like(s, AsciiLower(k))
  {
    if Contains(s, k) {
      ContainsLowered(s, k);
    }
    AsciiLowerIdempotent(s);
    AsciiLowerIdempotent(k);
  }

  /** The selector of `WHERE keyword LIKE '%k%'`. */
  function KeywordHas(k: string): HistoryRow -> bool {
    (row: HistoryRow) => Like(row.cols.keyword, k)
  }

  /** `search_history(k, limit)`: the newest records whose keyword matches
      `k`, at most `limit` of them; every match when the limit is negative
      or covers the matches. */
  function SearchByKeyword(h: HistoryStore, k: string, limit: int): (r: Result<seq<SearchHistory>, DecodeError>)
    ensures Valid(h) ==> r.Ok?
    ensures r.Ok? ==> NewestRecords(Filter(h.rows, KeywordHas(k)), limit, r.value)
    ensures r.Ok? ==> forall i :: 0 <= i < |r.value| ==> Like(r.value[i].criteria.keyword, k)
    ensures r.Ok? ==> forall i :: 0 <= i < |r.value| ==>
                        exists row :: row in h.rows && RowToHistory(row) == Ok(r.value[i])
  {
    var matches := Filter(h.rows, KeywordHas(k));
    MatchesContain(h, k, limit, matches, Newest(matches, limit));
    Newest(matches, limit)
  }

  /** Every record found by keyword was stored with a keyword that matches. */
  lemma MatchesContain(h: HistoryStore, k: string, limit: int, matches: seq<HistoryRow>,
                       r: Result<seq<SearchHistory>, DecodeError>)
    requires matches == Filter(h.rows, KeywordHas(k))
    requires (forall row :: row in matches ==> FromColumns(row.cols).Ok?) ==> r.Ok?
    requires r.Ok? ==> NewestRecords(matches, limit, r.value)
    ensures Valid(h) ==> r.Ok?
    ensures r.Ok? ==> forall i :: 0 <= i < |r.value| ==> Like(r.value[i].criteria.keyword, k)
    ensures r.Ok? ==> forall i :: 0 <= i < |r.value| ==> exists row :: row in h.rows && RowToHistory(row) == Ok(r.value[i])
  {
    FilterMembers(h.rows, KeywordHas(k));
    if Valid(h) {
      assert forall row :: row in matches ==> FromColumns(row.cols).Ok?;
    }
    if r.Ok? {
      var l := Listing(matches, limit);
      ListedAreStored(matches, limit);
      forall i | 0 <= i < |r.value|
        ensures Like(r.value[i].criteria.keyword, k)
        ensures exists row :: row in h.rows && RowToHistory(row) == Ok(r.value[i])
      {
        var row := l[i];
        assert RowToHistory(row) == Ok(r.value[i]);
        assert row in l;
        assert row in matches;
      }
    }
  }

  /** With rows in insertion order, newest first is the table read back to
      front. */
  lemma RecentIsReverse(h: HistoryStore)
    requires Valid(h)
    ensures Listing(h.rows, -1) == Reverse(h.rows)
  {
    assert forall i, j :: 0 <= i < j < |h.rows| ==> Earlier(h.rows[i], h.rows[j]);
    SortIncreasingDescending(h.rows, SearchedKey);
  }

  /** Rows in insertion order list back to front: listed row `i` is the
      `i`-th row from the end, whatever the limit. */
  lemma ListingFromEnd(rows: seq<HistoryRow>, limit: int)
    requires Pairwise(rows, Earlier)
    ensures forall i :: 0 <= i < |Listing(rows, limit)| ==> Listing(rows, limit)[i] == rows[|rows| - 1 - i]
  {
    assert forall i, j :: 0 <= i < j < |rows| ==> SearchedKey(rows[i]) < SearchedKey(rows[j]) by {
      forall i, j | 0 <= i < j < |rows| ensures SearchedKey(rows[i]) < SearchedKey(rows[j]) {
        assert Earlier(rows[i], rows[j]);
      }
    }
    SortIncreasingDescending(rows, SearchedKey);
  }

  /** On rows in insertion order, the newest records are the rows read
      from the end, so they come from distinct rows with decreasing ids. */
  lemma ListedRecordsFromEnd(rows: seq<HistoryRow>, limit: int, r: seq<SearchHistory>)
    requires Pairwise(rows, Earlier) && NewestRecords(rows, limit, r)
    ensures forall i :: 0 <= i < |r| ==> RowToHistory(rows[|rows| - 1 - i]) == Ok(r[i])
    ensures forall i :: 0 <= i < |r| ==> r[i].historyId == Some(rows[|rows| - 1 - i].id)
    ensures forall i, j :: 0 <= i < j < |r| ==> r[i].historyId.value > r[j].historyId.value
  {
    ListingFromEnd(rows, limit);
    forall i, j | 0 <= i < j < |r| ensures r[i].historyId.value > r[j].historyId.value {
      assert Earlier(rows[|rows| - 1 - j], rows[|rows| - 1 - i]);
    }
  }

  /** `get_recent_history` returns the last `limit` rows inserted, newest
      first: record `i` is the `i`-th row from the end, so the records are
      distinct rows with decreasing ids. */
  lemma RecentAreLatest(h: HistoryStore, limit: int, r: seq<SearchHistory>)
    requires Valid(h) && GetRecentHistory(h, limit) == Ok(r)
    ensures forall i :: 0 <= i < |r| ==> RowToHistory(h.rows[|h.rows| - 1 - i]) == Ok(r[i])
    ensures forall i :: 0 <= i < |r| ==> r[i].historyId.Some?
    ensures forall i, j :: 0 <= i < j < |r| ==> r[i].historyId.value > r[j].historyId.value
  {
    ListedRecordsFromEnd(h.rows, limit, r);
  }

  /** `search_history` returns the last `limit` matching rows inserted,
      newest first: record `i` is the `i`-th match from the end, so the
      records are distinct rows with decreasing ids. */
  lemma SearchFindsLatestMatches(h: HistoryStore, k: string, limit: int, matches: seq<HistoryRow>, r: seq<SearchHistory>)
    requires Valid(h) && SearchByKeyword(h, k, limit) == Ok(r)
    requires matches == Filter(h.rows, KeywordHas(k))
    ensures forall i :: 0 <= i < |r| ==> RowToHistory(matches[|matches| - 1 - i]) == Ok(r[i])
    ensures forall i :: 0 <= i < |r| ==> r[i].historyId.Some?
    ensures forall i, j :: 0 <= i < j < |r| ==> r[i].historyId.value > r[j].historyId.value
  {
    FilterPairwise(h.rows, KeywordHas(k), Earlier);
    ListedRecordsFromEnd(matches, limit, r);
  }

  /** Three searches logged in a row give a valid store of three rows
      holding the three keywords in insertion order. */
  lemma ThreeSearches(a: SearchCriteria, b: SearchCriteria, c: SearchCriteria)
    ensures var h3 := AddHistory(AddHistory(AddHistory(EmptyHistory, a, 10).0, b, 20).0, c, 30).0;
            && Valid(h3) && |h3.rows| == 3
            && h3.rows[0].cols.keyword == a.keyword
            && h3.rows[1].cols.keyword == b.keyword
            && h3.rows[2].cols.keyword == c.keyword
  {
    var h1 := AddHistory(EmptyHistory, a, 10).0;
    var h2 := AddHistory(h1, b, 20).0;
    var h3 := AddHistory(h2, c, 30).0;
    AddPreservesValid(EmptyHistory, a, 10);
    AddPreservesValid(h1, b, 20);
    AddPreservesValid(h2, c, 30);
    assert h3.rows[0] == h2.rows[0] == h1.rows[0];
    assert h3.rows[1] == h2.rows[1];
  }

  /** A store holding searches for "Python", "JavaScript" and "Go", in that
      order, lists them as Go, JavaScript, Python. */
  lemma RecentExample(h: HistoryStore, r: seq<SearchHistory>)
    requires Valid(h) && |h.rows| == 3
    requires h.rows[0].cols.keyword == "Python"
    requires h.rows[1].cols.keyword == "JavaScript"
    requires h.rows[2].cols.keyword == "Go"
    requires GetRecentHistory(h, 10) == Ok(r)
    ensures |r| == 3
    ensures r[0].criteria.keyword == "Go"
    ensures r[1].criteria.keyword == "JavaScript"
    ensures r[2].criteria.keyword == "Python"
  {
    RecentAreLatest(h, 10, r);
  }

  // ---------------------------------------------------------------------------
  // Lookup and deletion by id
  // ---------------------------------------------------------------------------

  function IdIs(id: int): HistoryRow -> bool {
    (row: HistoryRow) => row.id == id
  }

  function IdIsNot(id: int): HistoryRow -> bool {
    (row: HistoryRow) => row.id != id
  }

  /** `get_history_by_id`: the record stored under `id`, `Ok(None)` when
      there is none. */
  function GetHistoryById(h: HistoryStore, id: int): (r: Result<Option<SearchHistory>, DecodeError>)
    ensures r == Ok(None) <==> forall row :: row in h.rows ==> row.id != id
    ensures r.Ok? && r.value.Some? ==>
              r.value.value.historyId == Some(id) &&
              exists row :: row in h.rows && RowToHistory(row) == Ok(r.value.value)
    ensures Valid(h) ==> r.Ok?
  {
    var m := Filter(h.rows, IdIs(id));
    FilterMembers(h.rows, IdIs(id));
    if m == [] then Ok(None)
    else
      assert m[0] in m;
      match RowToHistory(m[0])
      case Err(e) => Err(e)
      case Ok(x) => Ok(Some(x))
  }

  /** `delete_history`: remove the row with this id; true iff there was one. */
  function DeleteHistory(h: HistoryStore, id: int): (out: (HistoryStore, bool))
    ensures out.1 <==> exists row :: row in h.rows && row.id == id
    ensures forall row :: row in out.0.rows <==> row in h.rows && row.id != id
    ensures out.0.nextId == h.nextId && out.0.clock == h.clock
  {
    var kept := Filter(h.rows, IdIsNot(id));
    FilterMembers(h.rows, IdIsNot(id));
    var found := exists row :: row in h.rows && row.id == id;
    (h.(rows := kept), found)
  }

  /** After a delete the id is absent, every other id looks up as before,
      and the store stays valid. */
  lemma DeleteThenGet(h: HistoryStore, id: int, other: int)
    requires other != id
    ensures GetHistoryById(DeleteHistory(h, id).0, id) == Ok(None)
    ensures GetHistoryById(DeleteHistory(h, id).0, other) == GetHistoryById(h, other)
    ensures Valid(h) ==> Valid(DeleteHistory(h, id).0)
  {
    FilterNarrow(h.rows, IdIsNot(id), IdIs(other));
    if Valid(h) {
      FilterPairwise(h.rows, IdIsNot(id), Earlier);
    }
  }

  /** `clear_all_history`: empty the table and report how many rows it had. */
  function ClearAllHistory(h: HistoryStore): (out: (HistoryStore, nat))
    ensures out.0.rows == [] && out.1 == |h.rows|
    ensures out.0.nextId == h.nextId && out.0.clock == h.clock
  {
    (h.(rows := []), |h.rows|)
  }

  /** After clearing, nothing is listed and the store is valid. */
  lemma ClearThenRecent(h: HistoryStore, limit: int)
    ensures GetRecentHistory(ClearAllHistory(h).0, limit) == Ok([])
    ensures Valid(ClearAllHistory(h).0)
  {
  }
}

=== FILE: models.dfy ===
/** The domain records of the analyser: the video type, one video's
    details, the search criteria with their six-rule validator, a saved
    preset and a history entry.  Timestamps are whole numbers on one clock;
    their calendar rendering is not part of this model. */
module Models {
  import opened Base
  import opened Text

  // ---------------------------------------------------------------------------
  // Video type
  // ---------------------------------------------------------------------------

  /** Which videos a search keeps: every video, shorts only or non-shorts only. */
  datatype VideoType = All | Short | Normal

  /** The enum's stored value, as written to the database. */
  function TypeCode(t: VideoType): (r: string)
    ensures r != []
  {
    match t
    case All => "all"
    case Short => "short"
    case Normal => "normal"
  }

  /** `VideoType(code)`: the member whose value is `code`, or `None` for the
      `ValueError` an unknown value raises. */
  function TypeFromCode(code: string): (r: Option<VideoType>)
    ensures r.Some? ==> TypeCode(r.value) == code
  {
    if code == "all" then Some(All)
    else if code == "short" then Some(Short)
    else if code == "normal" then Some(Normal)
    else None
  }

  /** Every member is recovered from its stored value, so the stored value
      identifies the member. */
  lemma TypeCodeRoundTrip(t: VideoType)
    ensures TypeFromCode(TypeCode(t)) == Some(t)
  {
  }

  // ---------------------------------------------------------------------------
  // Video details
  // ---------------------------------------------------------------------------

  datatype VideoInfo = VideoInfo(
    videoId: string,
    title: string,
    url: string,
    channelName: string,
    channelId: string,
    viewCount: int,
    likeCount: int,
    commentCount: int,
    publishedAt: int,
    durationSeconds: int,
    isShort: bool,
    description: string,
    tags: seq<string>,
    thumbnailUrl: string)

  /** Hours, minutes and seconds of a duration, with Python's floor
      division and modulo (which agree with Dafny's for a positive divisor). */
  function DurationParts(d: int): (hms: (int, int, int))
    ensures 0 <= hms.1 < 60 && 0 <= hms.2 < 60
    ensures hms.0 * 3600 + hms.1 * 60 + hms.2 == d
    ensures hms.0 > 0 <==> d >= 3600
  {
    (d / 3600, (d % 3600) / 60, d % 60)
  }

  /** `duration_formatted`: `MM:SS` below an hour, otherwise `HH:MM:SS`,
      each field zero padded to at least two digits. */
  function DurationFormatted(d: int): (r: string)
    ensures 5 <= |r| && r[|r| - 3] == ':' && AllDigits(r[|r| - 2..])
    ensures AllDigits(r[..2]) && forall i :: 0 <= i < |r| ==> IsDigit(r[i]) || r[i] == ':'
    ensures d < 3600 ==> |r| == 5 && r[2] == ':'
    ensures 3600 <= d < 360000 ==> |r| == 8 && r[2] == ':' && AllDigits(r[3..5]) && r[5] == ':'
  {
    var hms := DurationParts(d);
    var tail := Pad2(hms.1) + ":" + Pad2(hms.2);
    if hms.0 > 0 then Pad2(hms.0) + ":" + tail else tail
  }

  /** The renderings the repository's tests check (125 and 3665 seconds,
      in tests/test_models.py), plus the empty duration. */
  lemma DurationExamples()
    ensures DurationFormatted(0) == "00:00"
    ensures DurationFormatted(125) == "02:05"
    ensures DurationFormatted(3665) == "01:01:05"
  {
    assert DurationParts(125) == (0, 2, 5);
    assert DurationParts(3665) == (1, 1, 5);
  }

  // ---------------------------------------------------------------------------
  // Search criteria
  // ---------------------------------------------------------------------------

  datatype SearchCriteria = SearchCriteria(
    keyword: string,
    minViewCount: Option<int>,
    maxViewCount: Option<int>,
    videoType: VideoType,
    publishedAfter: Option<int>,
    publishedBefore: Option<int>,
    maxResults: int,
    order: string,
    regionCode: string,
    language: string)

  const DefaultMaxResults: int := 50
  const DefaultOrder: string := "viewCount"
  const DefaultRegion: string := "JP"
  const DefaultLanguage: string := "ja"

  /** `SearchCriteria(keyword)` with every other field at its default. */
  function DefaultCriteria(keyword: string): (c: SearchCriteria)
    ensures c.keyword == keyword && c.videoType == All
    ensures c.minViewCount.None? && c.maxViewCount.None?
    ensures c.publishedAfter.None? && c.publishedBefore.None?
    ensures c.maxResults == 50 && c.order == "viewCount"
    ensures c.regionCode == "JP" && c.language == "ja"
  {
    SearchCriteria(keyword, None, None, All, None, None,
                   DefaultMaxResults, DefaultOrder, DefaultRegion, DefaultLanguage)
  }

  /** The `order` values the search endpoint accepts. */
  const ValidOrders: seq<string> := ["date", "rating", "relevance", "title", "videoCount", "viewCount"]

  /** One constructor per rule of the validator, named after what breaks it. */
  datatype ValidationError =
    | EmptyKeyword
    | MaxResultsOutOfRange
    | NegativeMinViewCount
    | MinAboveMax
    | AfterAboveBefore
    | InvalidOrder

  /** The position of a rule in the order the validator checks them. */
  function Rank(e: ValidationError): nat {
    match e
    case EmptyKeyword => 0
    case MaxResultsOutOfRange => 1
    case NegativeMinViewCount => 2
    case MinAboveMax => 3
    case AfterAboveBefore => 4
    case InvalidOrder => 5
  }

  /** Whether `c` keeps the rule whose violation is reported as `e`. */
  predicate Satisfies(c: SearchCriteria, e: ValidationError) {
    match e
    case EmptyKeyword => Strip(c.keyword) != []
    case MaxResultsOutOfRange => 1 <= c.maxResults <= 500
    case NegativeMinViewCount => c.minViewCount.Some? ==> c.minViewCount.value >= 0
    case MinAboveMax =>
      c.minViewCount.Some? && c.maxViewCount.Some? ==> c.minViewCount.value <= c.maxViewCount.value
    case AfterAboveBefore =>
      c.publishedAfter.Some? && c.publishedBefore.Some? ==> c.publishedAfter.value <= c.publishedBefore.value
    case InvalidOrder => c.order in ValidOrders
  }

  /** All six rules hold. */
  predicate IsValid(c: SearchCriteria) {
    forall e :: Satisfies(c, e)
  }

  /** `SearchCriteria.validate`: the first broken rule, in the fixed order
      keyword, result count, negative minimum, minimum above maximum, dates,
      order; `Pass` when none is broken. */
  function Validate(c: SearchCriteria): (r: Outcome<ValidationError>)
    ensures r.Fail? ==> !Satisfies(c, r.error)
  {
    if c.keyword == [] || IsBlank(c.keyword) then
      assert !Satisfies(c, EmptyKeyword);
      Fail(EmptyKeyword)
    else if c.maxResults <= 0 || c.maxResults > 500 then Fail(MaxResultsOutOfRange)
    else if c.minViewCount.Some? && c.minViewCount.value < 0 then Fail(NegativeMinViewCount)
    else if c.minViewCount.Some? && c.maxViewCount.Some? && c.minViewCount.value > c.maxViewCount.value then
      Fail(MinAboveMax)
    else if c.publishedAfter.Some? && c.publishedBefore.Some? && c.publishedAfter.value > c.publishedBefore.value then
      Fail(AfterAboveBefore)
    else if c.order !in ValidOrders then Fail(InvalidOrder)
    else
      Pass
  }

  /** Validation passes exactly when all six rules hold; when it fails, it
      reports a broken rule and every rule checked before it holds, so the
      report is the first broken rule in the fixed order. */
  lemma ValidateFirstBroken(c: SearchCriteria)
    ensures Validate(c).Pass? <==> IsValid(c)
    ensures Validate(c).Fail? ==> !Satisfies(c, Validate(c).error)
    ensures Validate(c).Fail? ==>
              forall e :: Rank(e) < Rank(Validate(c).error) ==> Satisfies(c, e)
  {
    var r := Validate(c);
    var bound := if r.Fail? then Rank(r.error) else 6;
    forall e | Rank(e) < bound ensures Satisfies(c, e) {
      match e
      case EmptyKeyword =>
      case MaxResultsOutOfRange =>
      case NegativeMinViewCount =>
      case MinAboveMax =>
      case AfterAboveBefore =>
      case InvalidOrder =>
    }
  }

  /** Criteria that pass ask for between 1 and 500 results. */
  lemma PassedCountInRange(c: SearchCriteria)
    requires Validate(c).Pass?
    ensures 1 <= c.maxResults <= 500
  {
    ValidateFirstBroken(c);
    assert Satisfies(c, MaxResultsOutOfRange);
  }

  /** The validator never looks at the sign of the maximum on its own: a
      negative maximum with no minimum passes. */
  lemma NegativeMaxPasses(keyword: string)
    requires !IsBlank(keyword)
    ensures Validate(DefaultCriteria(keyword).(maxViewCount := Some(-5))) == Pass
  {
  }

  /** The defaults break no rule, so a default criteria with any non-blank
      keyword validates. */
  lemma DefaultValidates(keyword: string)
    requires !IsBlank(keyword)
    ensures Validate(DefaultCriteria(keyword)) == Pass
  {
  }

  // ---------------------------------------------------------------------------
  // Preset and history records
  // ---------------------------------------------------------------------------

  /** A named, stored set of criteria. */
  datatype SearchPreset = SearchPreset(
    name: string,
    criteria: SearchCriteria,
    presetId: Option<int>,
    createdAt: Option<int>,
    updatedAt: Option<int>)

  /** One executed search: the criteria and how many videos it returned. */
  datatype SearchHistory = SearchHistory(
    criteria: SearchCriteria,
    resultCount: int,
    historyId: Option<int>,
    executedAt: Option<int>)
}

=== FILE: preset_service.dfy ===
/** The preset store: a table of named criteria with upsert by name,
    exact-name lookup, listing by last update and deletion.  The table is a
    map from the (unique) name column to the rest of the row; `nextId` plays
    the AUTOINCREMENT counter and `clock` the last value `datetime.now()`
    returned, which grows on every save. */
module PresetService {
  import opened Base
  import opened Text
  import opened StableSort
  import opened Models
  import opened CriteriaColumns

  /** One row of `search_presets`, minus its name. */
  datatype Stored = Stored(id: nat, cols: Columns, createdAt: int, updatedAt: int)

  datatype PresetStore = PresetStore(table: map<string, Stored>, nextId: nat, clock: int)

  /** The two `ValueError`s `save_preset` raises before touching the table. */
  datatype SaveError = BlankName | InvalidCriteria(error: ValidationError)

  const EmptyStore: PresetStore := PresetStore(map[], 1, 0)

  /** What every store reachable from `EmptyStore` keeps: ids distinct and
      below the counter, timestamps ordered and not in the future, and every
      row decodable. */
  predicate Valid(s: PresetStore) {
    && (forall n :: n in s.table ==> s.table[n].id < s.nextId)
    && (forall n :: n in s.table ==> s.table[n].createdAt <= s.table[n].updatedAt <= s.clock)
    && (forall n :: n in s.table ==> FromColumns(s.table[n].cols).Ok?)
    && (forall n, m :: n in s.table && m in s.table && n != m ==> s.table[n].id != s.table[m].id)
  }

  lemma EmptyStoreValid()
    ensures Valid(EmptyStore) && EmptyStore.table == map[]
  {
  }

  /** `_row_to_preset`. */
  function RowToPreset(name: string, row: Stored): (r: Result<SearchPreset, DecodeError>)
    ensures r.Ok? <==> FromColumns(row.cols).Ok?
    ensures r.Ok? ==> r.value.name == name && r.value.presetId == Some(row.id)
    ensures r.Ok? ==> r.value.createdAt == Some(row.createdAt) && r.value.updatedAt == Some(row.updatedAt)
  {
    match FromColumns(row.cols)
    case Err(e) => Err(e)
    case Ok(c) => Ok(SearchPreset(name, c, Some(row.id), Some(row.createdAt), Some(row.updatedAt)))
  }

  /** `save_preset`: reject a blank name, then invalid criteria; otherwise
      store under the stripped name, overwriting the criteria and update
      time of an existing row (id and creation time kept) or inserting a new
      row.  The returned preset carries the given criteria and the current
      time as both timestamps, also when an existing row was updated. */
  function SavePreset(s: PresetStore, name: string, c: SearchCriteria): (out: (PresetStore, Result<SearchPreset, SaveError>))
    ensures out.1 == Err(BlankName) <==> IsBlank(name)
    ensures out.1.Ok? <==> !IsBlank(name) && IsValid(c)
    ensures out.1.Err? ==> out.0 == s
    ensures out.1.Ok? ==>
              var n := Strip(name);
              && out.0.clock > s.clock
              && out.0.table.Keys == s.table.Keys + {n}
              && (forall k :: k in s.table && k != n ==> out.0.table[k] == s.table[k])
              && out.0.table[n].cols == ToColumns(c)
              && out.0.table[n].updatedAt == out.0.clock
              && out.1.value == SearchPreset(n, c, Some(out.0.table[n].id), Some(out.0.clock), Some(out.0.clock))
    ensures out.1.Ok? && Strip(name) in s.table ==>
              && out.0.table[Strip(name)].id == s.table[Strip(name)].id
              && out.0.table[Strip(name)].createdAt == s.table[Strip(name)].createdAt
              && out.0.nextId == s.nextId
    ensures out.1.Ok? && Strip(name) !in s.table ==>
              && out.0.table[Strip(name)].id == s.nextId
              && out.0.table[Strip(name)].createdAt == out.0.clock
              && out.0.nextId == s.nextId + 1
  {
    if name == [] || IsBlank(name) then (s, Err(BlankName))
    else
      ValidateFirstBroken(c);
      match Validate(c)
      case Fail(e) => (s, Err(InvalidCriteria(e)))
      case Pass =>
        var n := Strip(name);
        var now := s.clock + 1;
        if n in s.table then
          var prev := s.table[n];
          var s' := PresetStore(s.table[n := Stored(prev.id, ToColumns(c), prev.createdAt, now)], s.nextId, now);
          (s', Ok(SearchPreset(n, c, Some(prev.id), Some(now), Some(now))))
        else
          var s' := PresetStore(s.table[n := Stored(s.nextId, ToColumns(c), now, now)], s.nextId + 1, now);
          (s', Ok(SearchPreset(n, c, Some(s.nextId), Some(now), Some(now))))
  }

  /** Saving keeps the store valid, so names stay unique (a map key) and
      ids stay distinct. */
  lemma SavePreservesValid(s: PresetStore, name: string, c: SearchCriteria)
    requires Valid(s)
    ensures Valid(SavePreset(s, name, c).0)
  {
    var out := SavePreset(s, name, c);
    if out.1.Ok? {
      var n := Strip(name);
      ColumnsRoundTrip(c);
      var row := out.0.table[n];
      assert out.0.table == s.table[n := row];
      if n in s.table {
        assert row.id == s.table[n].id;
      }
      PutPreservesValid(s, n, row, out.0.nextId, out.0.clock);
    }
  }

  /** Writing one row keeps the store valid when the row is decodable, its
      timestamps are ordered and not in the future, and its id is new or
      the one the name already had. */
  lemma PutPreservesValid(s: PresetStore, n: string, row: Stored, nextId: nat, clock: int)
    requires Valid(s) && nextId >= s.nextId && clock >= s.clock
    requires row.id < nextId && row.createdAt <= row.updatedAt <= clock && FromColumns(row.cols).Ok?
    requires n in s.table ==> row.id == s.table[n].id
    requires n !in s.table ==> row.id == s.nextId
    ensures Valid(PresetStore(s.table[n := row], nextId, clock))
  {
    var t := s.table[n := row];
    forall k, m | k in t && m in t && k != m
      ensures t[k].id != t[m].id
    {
      if k == n {
        assert t[m] == s.table[m];
      } else if m == n {
        assert t[k] == s.table[k];
      } else {
        assert t[k] == s.table[k] && t[m] == s.table[m];
      }
    }
  }

  /** `load_preset`: exact, unstripped lookup; `Ok(None)` when absent. */
  function LoadPreset(s: PresetStore, name: string): (r: Result<Option<SearchPreset>, DecodeError>)
    ensures r == Ok(None) <==> name !in s.table
    ensures r.Ok? && r.value.Some? ==> name in s.table && Ok(r.value.value) == RowToPreset(name, s.table[name])
    ensures Valid(s) ==> r.Ok?
  {
    if name !in s.table then Ok(None)
    else match RowToPreset(name, s.table[name])
      case Err(e) => Err(e)
      case Ok(p) => Ok(Some(p))
  }

  /** Saving then loading under the stripped name gives back the saved
      criteria, with region and language at their defaults, and the id the
      save reported. */
  lemma SaveThenLoad(s: PresetStore, name: string, c: SearchCriteria)
    requires SavePreset(s, name, c).1.Ok?
    ensures var out := SavePreset(s, name, c);
            var l := LoadPreset(out.0, Strip(name));
            && l.Ok? && l.value.Some?
            && l.value.value.criteria == c.(regionCode := DefaultRegion, language := DefaultLanguage)
            && l.value.value.presetId == out.1.value.presetId
            && l.value.value.name == Strip(name)
  {
    ColumnsRoundTrip(c);
  }

  /** Saving under a name leaves every other preset as it loads. */
  lemma SaveLeavesOthers(s: PresetStore, name: string, c: SearchCriteria, other: string)
    requires other != Strip(name)
    ensures LoadPreset(SavePreset(s, name, c).0, other) == LoadPreset(s, other)
  {
    var out := SavePreset(s, name, c);
    if out.1.Ok? {
      assert other in out.0.table <==> other in s.table;
      if other in s.table {
        assert out.0.table[other] == s.table[other];
      }
    }
  }

  /** `delete_preset`: remove the row with exactly this name; true iff there
      was one. */
  function DeletePreset(s: PresetStore, name: string): (out: (PresetStore, bool))
    ensures out.1 <==> name in s.table
    ensures out.0.table.Keys == s.table.Keys - {name}
    ensures forall k :: k in out.0.table ==> out.0.table[k] == s.table[k]
    ensures out.0.nextId == s.nextId && out.0.clock == s.clock
  {
    (s.(table := s.table - {name}), name in s.table)
  }

  /** After a delete the name loads as absent and every other name loads
      as before; the store stays valid. */
  lemma DeleteThenLoad(s: PresetStore, name: string, other: string)
    requires other != name
    ensures LoadPreset(DeletePreset(s, name).0, name) == Ok(None)
    ensures LoadPreset(DeletePreset(s, name).0, other) == LoadPreset(s, other)
    ensures Valid(s) ==> Valid(DeletePreset(s, name).0)
  {
  }

  // ---------------------------------------------------------------------------
  // Listing
  // ---------------------------------------------------------------------------

  type Entry = (string, Stored)

  function UpdatedKey(e: Entry): int {
    e.1.updatedAt
  }

  function EntryToPreset(e: Entry): Result<SearchPreset, DecodeError> {
    RowToPreset(e.0, e.1)
  }

  /** The entries are exactly the table's rows, each once. */
  predicate Enumerates(s: PresetStore, entries: seq<Entry>) {
    && (forall i :: 0 <= i < |entries| ==> entries[i].0 in s.table && s.table[entries[i].0] == entries[i].1)
    && (forall n :: n in s.table ==> multiset(entries)[(n, s.table[n])] == 1)
  }

  /** `SELECT ... FROM search_presets`, in whatever order the table yields. */
  method TableRows(s: PresetStore) returns (entries: seq<Entry>)
    ensures Enumerates(s, entries) && |entries| == |s.table|
  {
    entries := [];
    var remaining := s.table.Keys;
    while remaining != {}
      invariant remaining <= s.table.Keys
      invariant |entries| + |remaining| == |s.table|
      invariant forall i :: 0 <= i < |entries| ==> entries[i].0 in s.table && s.table[entries[i].0] == entries[i].1
      invariant forall i :: 0 <= i < |entries| ==> entries[i].0 !in remaining
      invariant forall n :: n in s.table ==> multiset(entries)[(n, s.table[n])] == if n in remaining then 0 else 1
      decreases |remaining|
    {
      var n :| n in remaining;
      entries := entries + [(n, s.table[n])];
      remaining := remaining - {n};
    }
  }

  /** Reordering keeps an enumeration an enumeration. */
  lemma EnumeratesPermutation(s: PresetStore, a: seq<Entry>, b: seq<Entry>)
    requires Enumerates(s, a) && multiset(a) == multiset(b)
    ensures Enumerates(s, b)
  {
    forall i | 0 <= i < |b| ensures b[i].0 in s.table && s.table[b[i].0] == b[i].1 {
      assert b[i] in multiset(a);
      var j :| 0 <= j < |a| && a[j] == b[i];
    }
  }

  /** `list_presets`: every preset once, most recently updated first (ties
      in table order, which SQL leaves open); the first undecodable row
      aborts the listing. */
  method ListPresets(s: PresetStore) returns (r: Result<seq<SearchPreset>, DecodeError>, listed: seq<Entry>)
    ensures Enumerates(s, listed) && |listed| == |s.table|
    ensures Sorted(listed, UpdatedKey, true)
    ensures r == DecodeAll(listed, EntryToPreset)
    ensures Valid(s) ==> r.Ok? && |r.value| == |s.table|
    ensures r.Ok? ==> forall i, j :: 0 <= i < j < |r.value| ==>
                        r.value[i].updatedAt.value >= r.value[j].updatedAt.value
  {
    var entries := TableRows(s);
    listed := SortBy(entries, UpdatedKey, true);
    EnumeratesPermutation(s, entries, listed);
    r := DecodeAll(listed, EntryToPreset);
    if r.Ok? {
      forall i, j | 0 <= i < j < |r.value|
        ensures r.value[i].updatedAt.value >= r.value[j].updatedAt.value
      {
        assert InOrder(UpdatedKey(listed[i]), UpdatedKey(listed[j]), true);
      }
    }
  }
}

=== FILE: result_panel.dfy ===
/** The pure parts of the result table: reading a displayed number back
    (`_parse_number`, which undoes both the comma-grouped view count and the
    `MM:SS` / `HH:MM:SS` duration), the per-column direction toggle of
    `_sort_column`, and the numeric column sort. */
module ResultPanel {
  import opened Base
  import opened Text
  import opened StableSort
  import opened Models

  /** `int(s)`, with the `ValueError` turned into 0. */
  function IntOrZero(s: string): int {
    match ParseInt(s)
    case Some(n) => n
    case None => 0
  }

  /** `_parse_number`: drop the commas; with a colon, two fields are
      minutes and seconds and three are hours, minutes and seconds; any
      other shape is parsed whole.  Every failure gives 0. */
  function ParseNumber(value: string): int {
    ParseCleaned(RemoveChar(value, ','))
  }

  /** `_parse_number` once the commas are gone. */
  function ParseCleaned(cleaned: string): int {
    if ':' in cleaned then ParseFields(Split(cleaned, ':'), cleaned) else IntOrZero(cleaned)
  }

  /** The colon-separated fields of `cleaned`; a field that is not an
      integer gives 0, and a count other than two or three parses the
      whole string. */
  function ParseFields(parts: seq<string>, cleaned: string): int {
    if |parts| == 2 then MinutesSeconds(parts[0], parts[1])
    else if |parts| == 3 then HoursMinutesSeconds(parts[0], parts[1], parts[2])
    else IntOrZero(cleaned)
  }

  function MinutesSeconds(a: string, b: string): int {
    match ParseInt(a)
    case None => 0
    case Some(m) =>
      match ParseInt(b)
      case None => 0
      case Some(s) => m * 60 + s
  }

  function HoursMinutesSeconds(a: string, b: string, c: string): int {
    match ParseInt(a)
    case None => 0
    case Some(h) =>
      match ParseInt(b)
      case None => 0
      case Some(m) =>
        match ParseInt(c)
        case None => 0
        case Some(s) => h * 3600 + m * 60 + s
  }

  /** A string of digits holds no separator. */
  lemma DigitsLack(s: string, c: char)
    requires AllDigits(s) && !IsDigit(c)
    ensures c !in s
  {
  }

  /** A string holding a non-digit is not all digits. */
  lemma NotDigits(s: string, c: char)
    requires c in s && !IsDigit(c)
    ensures !AllDigits(s)
  {
  }

  /** A zero-padded field reads back as its value. */
  lemma Pad2Parses(n: nat)
    ensures ParseInt(Pad2(n)) == Some(n)
    ensures ':' !in Pad2(n) && ',' !in Pad2(n)
  {
    Pad2Value(n);
    ParseDigits(Pad2(n));
    DigitsLack(Pad2(n), ':');
    DigitsLack(Pad2(n), ',');
  }

  lemma CommaFree(t: string)
    requires ',' !in t
    ensures ParseNumber(t) == ParseCleaned(t)
  {
    assert RemoveChar(t, ',') == t;
  }

  lemma ColonFields(t: string)
    requires ':' in t
    ensures ParseCleaned(t) == ParseFields(Split(t, ':'), t)
  {
  }

  /** Two colon-free fields joined by a colon split back into themselves. */
  lemma SplitTwo(a: string, b: string)
    requires ':' !in a && ':' !in b
    ensures ':' in a + ":" + b && Split(a + ":" + b, ':') == [a, b]
  {
    var t := a + ":" + b;
    assert t[|a|] == ':';
    assert Join([a, b], ":") == t;
    SplitJoin([a, b], ':');
  }

  /** Three colon-free fields joined by colons split back into themselves. */
  lemma SplitThree(a: string, b: string, c: string)
    requires ':' !in a && ':' !in b && ':' !in c
    ensures ':' in a + ":" + (b + ":" + c) && Split(a + ":" + (b + ":" + c), ':') == [a, b, c]
  {
    var t := a + ":" + (b + ":" + c);
    assert t[|a|] == ':';
    assert Join([a, b, c], ":") == t by {
      assert [a, b, c][1..] == [b, c];
      assert Join([b, c], ":") == b + ":" + c;
    }
    SplitJoin([a, b, c], ':');
  }

  /** The colon-joined fields read as minutes and seconds. */
  lemma CleanTwoFields(a: string, b: string, x: int, y: int)
    requires ':' !in a && ':' !in b
    requires ParseInt(a) == Some(x) && ParseInt(b) == Some(y)
    ensures ParseCleaned(a + ":" + b) == x * 60 + y
  {
    var t := a + ":" + b;
    SplitTwo(a, b);
    ColonFields(t);
    TwoFieldsValue(a, b, t, x, y);
  }

  lemma TwoFieldsValue(a: string, b: string, t: string, x: int, y: int)
    requires ParseInt(a) == Some(x) && ParseInt(b) == Some(y)
    ensures ParseFields([a, b], t) == x * 60 + y
  {
    assert ParseFields([a, b], t) == MinutesSeconds(a, b);
  }

  /** The colon-joined fields read as hours, minutes and seconds. */
  lemma CleanThreeFields(a: string, b: string, c: string, x: int, y: int, z: int)
    requires ':' !in a && ':' !in b && ':' !in c
    requires ParseInt(a) == Some(x) && ParseInt(b) == Some(y) && ParseInt(c) == Some(z)
    ensures ParseCleaned(a + ":" + (b + ":" + c)) == x * 3600 + y * 60 + z
  {
    var t := a + ":" + (b + ":" + c);
    SplitThree(a, b, c);
    ColonFields(t);
    ThreeFieldsValue(a, b, c, t, x, y, z);
  }

  lemma ThreeFieldsValue(a: string, b: string, c: string, t: string, x: int, y: int, z: int)
    requires ParseInt(a) == Some(x) && ParseInt(b) == Some(y) && ParseInt(c) == Some(z)
    ensures ParseFields([a, b, c], t) == x * 3600 + y * 60 + z
  {
    assert ParseFields([a, b, c], t) == HoursMinutesSeconds(a, b, c);
  }

  /** ParseNumber on two numeric fields joined by a colon. */
  lemma ParseTwoFields(a: string, b: string, x: int, y: int)
    requires ',' !in a && ',' !in b && ':' !in a && ':' !in b
    requires ParseInt(a) == Some(x) && ParseInt(b) == Some(y)
    ensures ParseNumber(a + ":" + b) == x * 60 + y
  {
    CommaFree(a + ":" + b);
    CleanTwoFields(a, b, x, y);
  }

  /** ParseNumber on three numeric fields joined by colons. */
  lemma ParseThreeFields(a: string, b: string, c: string, x: int, y: int, z: int)
    requires ',' !in a && ',' !in b && ',' !in c && ':' !in a && ':' !in b && ':' !in c
    requires ParseInt(a) == Some(x) && ParseInt(b) == Some(y) && ParseInt(c) == Some(z)
    ensures ParseNumber(a + ":" + (b + ":" + c)) == x * 3600 + y * 60 + z
  {
    CommaFree(a + ":" + (b + ":" + c));
    CleanThreeFields(a, b, c, x, y, z);
  }

  /** The `MM:SS` rendering of a duration under an hour reads back as it. */
  lemma ParseShortDuration(m: nat, s: nat)
    ensures ParseNumber(Pad2(m) + ":" + Pad2(s)) == m * 60 + s
  {
    Pad2Parses(m);
    Pad2Parses(s);
    ParseTwoFields(Pad2(m), Pad2(s), m, s);
  }

  /** The `HH:MM:SS` rendering of a duration reads back as it. */
  lemma ParseLongDuration(h: nat, m: nat, s: nat)
    ensures ParseNumber(Pad2(h) + ":" + (Pad2(m) + ":" + Pad2(s))) == h * 3600 + m * 60 + s
  {
    Pad2Parses(h);
    Pad2Parses(m);
    Pad2Parses(s);
    ParseThreeFields(Pad2(h), Pad2(m), Pad2(s), h, m, s);
  }

  /** The duration column reads back as the duration, for every
      non-negative number of seconds. */
  lemma ParseDurationRoundTrip(d: int)
    requires d >= 0
    ensures ParseNumber(DurationFormatted(d)) == d
  {
    var hms := DurationParts(d);
    var h, m, sec := hms.0, hms.1, hms.2;
    assert h >= 0;
    if h > 0 {
      assert DurationFormatted(d) == Pad2(h) + ":" + (Pad2(m) + ":" + Pad2(sec));
      ParseLongDuration(h, m, sec);
    } else {
      assert DurationFormatted(d) == Pad2(m) + ":" + Pad2(sec);
      ParseShortDuration(m, sec);
    }
  }

  /** The views column reads back as the count, for every non-negative
      count. */
  lemma ParseGroupedRoundTrip(n: int)
    requires n >= 0
    ensures ParseNumber(FormatGrouped(n)) == n
  {
    var cleaned := RemoveChar(GroupThousands(n), ',');
    UngroupThousands(n);
    DigitsLack(cleaned, ':');
    ParseDigits(cleaned);
  }

  /** A cell that is neither a number nor a duration, such as a word,
      reads as 0. */
  lemma ParseWordIsZero(t: string)
    requires ',' !in t && ':' !in t
    requires t != [] && !IsSpace(t[0]) && !IsSpace(t[|t| - 1])
    requires !IsDigit(t[0]) && t[0] != '-' && t[0] != '+'
    ensures ParseNumber(t) == 0
  {
    CommaFree(t);
    StripUnpadded(t);
  }

  /** Two colon-separated fields of which one is not an integer read as 0. */
  lemma ParseBadFieldIsZero(t: string, a: string, b: string)
    requires ',' !in t && ':' in t && Split(t, ':') == [a, b]
    requires ParseInt(a).None? || ParseInt(b).None?
    ensures ParseNumber(t) == 0
  {
    CommaFree(t);
    ColonFields(t);
    assert ParseFields([a, b], t) == MinutesSeconds(a, b);
  }

  /** `int()` refuses any string with a colon in it. */
  lemma ColonNotInt(t: string)
    requires ':' in t
    ensures ParseInt(t).None?
  {
    NonSpaceSurvivesStrip(t, ':');
    var u := Strip(t);
    NotDigits(u, ':');
    if |u| >= 2 {
      assert u == [u[0]] + u[1..];
      if u[0] != ':' {
        NotDigits(u[1..], ':');
      }
    }
  }

  /** A value that contains a colon but does not split into two or three
      fields, such as "1:2:3:4", falls through to `int()` of the whole
      string, which fails on the colon: it reads as 0. */
  lemma ParseOtherFieldCountIsZero(t: string)
    requires ',' !in t && ':' in t
    requires |Split(t, ':')| != 2 && |Split(t, ':')| != 3
    ensures ParseNumber(t) == 0
  {
    CommaFree(t);
    ColonFields(t);
    var parts := Split(t, ':');
    assert ParseFields(parts, t) == IntOrZero(t);
    ColonNotInt(t);
  }

  // ---------------------------------------------------------------------------
  // Sort direction per column
  // ---------------------------------------------------------------------------

  /** One click on a column heading: the direction this sort uses (true
      for descending) and the remembered directions afterwards. */
  function ToggleSort<K(!new)>(state: map<K, bool>, col: K): (out: (bool, map<K, bool>))
    ensures col !in state ==> !out.0
    ensures col in out.1 && out.1[col] == !out.0
    ensures forall c :: c != col ==> (c in out.1 <==> c in state) && (c in state ==> out.1[c] == state[c])
  {
    var reverse := if col in state then state[col] else false;
    (reverse, state[col := !reverse])
  }

  /** A run of clicks from a fresh table: the direction each click used,
      and the remembered directions at the end. */
  function Clicks<K(!new)>(clicks: seq<K>): (out: (seq<bool>, map<K, bool>))
    ensures |out.0| == |clicks|
  {
    if clicks == [] then ([], map[])
    else
      var before := Clicks(clicks[..|clicks| - 1]);
      var step := ToggleSort(before.1, clicks[|clicks| - 1]);
      (before.0 + [step.0], step.1)
  }

  /** The direction a toggle uses on remembered directions that match the
      parity of the earlier clicks: descending exactly when the column was
      clicked an odd number of times. */
  lemma ToggleParity<K(!new)>(before: map<K, bool>, init: seq<K>, col: K)
    requires forall c :: c in before <==> c in init
    requires forall c :: c in before ==> before[c] == (multiset(init)[c] % 2 == 1)
    ensures ToggleSort(before, col).0 == (multiset(init)[col] % 2 == 1)
  {
    if col !in init {
      assert multiset(init)[col] == 0;
    }
  }

  /** One more click keeps the remembered directions matching the parity
      of the clicks so far. */
  lemma ToggleKeepsParity<K(!new)>(before: map<K, bool>, init: seq<K>, col: K)
    requires forall c :: c in before <==> c in init
    requires forall c :: c in before ==> before[c] == (multiset(init)[c] % 2 == 1)
    ensures var after := ToggleSort(before, col).1;
            && (forall c :: c in after <==> c in init + [col])
            && (forall c :: c in after ==> after[c] == (multiset(init + [col])[c] % 2 == 1))
  {
    ToggleParity(before, init, col);
    var after := ToggleSort(before, col).1;
    assert multiset(init + [col]) == multiset(init) + multiset{col};
    forall c ensures c in after <==> c in init + [col] {
      assert c in init + [col] <==> c in init || c == col;
    }
    forall c | c in after ensures after[c] == (multiset(init + [col])[c] % 2 == 1) {
      if c != col {
        assert multiset(init + [col])[c] == multiset(init)[c];
      }
    }
  }

  /** After a run of clicks, exactly the clicked columns are remembered,
      each as descending exactly when it was clicked an odd number of times. */
  lemma {:induction false} ClicksState<K(!new)>(clicks: seq<K>)
    ensures forall c :: c in Clicks(clicks).1 <==> c in clicks
    ensures forall c :: c in Clicks(clicks).1 ==> Clicks(clicks).1[c] == (multiset(clicks)[c] % 2 == 1)
    decreases |clicks|
  {
    if clicks != [] {
      var n := |clicks| - 1;
      var init, col := clicks[..n], clicks[n];
      ClicksState(init);
      ToggleKeepsParity(Clicks(init).1, init, col);
      assert Clicks(clicks).1 == ToggleSort(Clicks(init).1, col).1;
      assert clicks == init + [col];
    }
  }

  /** Click k used the direction its toggle gave on the state the
      earlier clicks left. */
  lemma {:induction false} ClicksPrefix<K(!new)>(clicks: seq<K>, k: nat)
    requires k < |clicks|
    ensures Clicks(clicks).0[k] == ToggleSort(Clicks(clicks[..k]).1, clicks[k]).0
    decreases |clicks|
  {
    var n := |clicks| - 1;
    if k < n {
      var init := clicks[..n];
      ClicksPrefix(init, k);
      assert init[..k] == clicks[..k];
    }
  }

  /** Each column starts ascending and flips on every click of it: a
      click sorts descending exactly when that column was clicked an odd
      number of times before. */
  lemma ClicksAlternate<K(!new)>(clicks: seq<K>, k: nat)
    requires k < |clicks|
    ensures Clicks(clicks).0[k] == (multiset(clicks[..k])[clicks[k]] % 2 == 1)
  {
    ClicksPrefix(clicks, k);
    ClicksState(clicks[..k]);
    ToggleParity(Clicks(clicks[..k]).1, clicks[..k], clicks[k]);
  }

  // ---------------------------------------------------------------------------
  // Numeric column sort
  // ---------------------------------------------------------------------------

  /** A table line: the cell shown in the sorted column and the line's id. */
  type Line = (string, int)

  function NumericKey(x: Line): int {
    ParseNumber(x.0)
  }

  /** `_sort_column` on the views or duration column: a stable reordering
      of the lines by the parsed cell value. */
  function SortNumericColumn(lines: seq<Line>, descending: bool): (r: seq<Line>)
    ensures Sorted(r, NumericKey, descending)
    ensures multiset(r) == multiset(lines)
  {
    SortBy(lines, NumericKey, descending)
  }

  /** The views column as the table shows it: the grouped count, tagged
      with the video's position. */
  function ViewLines(videos: seq<VideoInfo>): (lines: seq<Line>)
    ensures |lines| == |videos|
    ensures forall i :: 0 <= i < |videos| ==> lines[i] == (FormatGrouped(videos[i].viewCount), i)
  {
    seq(|videos|, i requires 0 <= i < |videos| => (FormatGrouped(videos[i].viewCount), i))
  }

  /** Sorting the views column orders the videos by their view count. */
  lemma SortViewsByCount(videos: seq<VideoInfo>, descending: bool)
    requires forall i :: 0 <= i < |videos| ==> videos[i].viewCount >= 0
    ensures var r := SortNumericColumn(ViewLines(videos), descending);
            && (forall i :: 0 <= i < |r| ==> 0 <= r[i].1 < |videos|)
            && forall i, j :: 0 <= i < j < |r| ==>
                 InOrder(videos[r[i].1].viewCount, videos[r[j].1].viewCount, descending)
  {
    var lines := ViewLines(videos);
    var r := SortNumericColumn(lines, descending);
    forall i | 0 <= i < |r| ensures 0 <= r[i].1 < |videos| && NumericKey(r[i]) == videos[r[i].1].viewCount {
      assert r[i] in multiset(lines);
      var k :| 0 <= k < |lines| && lines[k] == r[i];
      ParseGroupedRoundTrip(videos[k].viewCount);
    }
    forall i, j | 0 <= i < j < |r|
      ensures InOrder(videos[r[i].1].viewCount, videos[r[j].1].viewCount, descending)
    {
      assert InOrder(NumericKey(r[i]), NumericKey(r[j]), descending);
    }
  }
}

=== FILE: search_panel.dfy ===
/** The search form's two conversions: reading the six input fields into
    validated search criteria, refusing them with the first error the
    panel reports, and writing criteria back into the fields when a preset
    or a history entry is picked.  The widgets themselves are not modelled;
    a form is the six strings they hold. */
module SearchPanel {
  import opened Base
  import opened Text
  import opened Models

  /** The contents of the keyword, minimum views, maximum views, video type,
      maximum results and order inputs. */
  datatype Form = Form(
    keyword: string,
    minViews: string,
    maxViews: string,
    videoType: string,
    maxResults: string,
    order: string)

  /** Why the form was refused, in the order the panel checks. */
  datatype InputError =
    | BlankKeyword
    | MinNotNumeric
    | MaxNotNumeric
    | MaxResultsNotNumeric
    | Invalid(rule: ValidationError)

  /** The fields `clear` puts back; the result count field holds "50". */
  const ClearedForm: Form := Form("", "", "", "all", IntToDecimal(DefaultMaxResults), DefaultOrder)

  /** The radio button's value as a video type: anything but "short" and
      "normal" means every video. */
  function FormType(s: string): (t: VideoType)
    ensures t == Short <==> s == "short"
    ensures t == Normal <==> s == "normal"
  {
    if s == "short" then Short else if s == "normal" then Normal else All
  }

  /** A view-count bound field: blank means no bound, a non-negative
      integer is the bound, and anything else (a negative number included)
      is refused, shown as `None`. */
  function ReadBound(s: string): (r: Option<Option<int>>)
    ensures r == Some(None) <==> IsBlank(s)
    ensures r.None? <==> !IsBlank(s) && (ParseInt(s).None? || ParseInt(s).value < 0)
    ensures r.Some? && r.value.Some? ==> ParseInt(s) == r.value && r.value.value >= 0
  {
    var t := Strip(s);
    ParseStripped(s);
    if t == [] then Some(None)
    else
      match ParseInt(t)
      case None => None
      case Some(n) => if n < 0 then None else Some(Some(n))
  }

  /** The criteria a form with a readable keyword and bounds describes,
      given its result count. */
  function FormCriteria(f: Form, count: int): SearchCriteria
    requires ReadBound(f.minViews).Some? && ReadBound(f.maxViews).Some?
  {
    SearchCriteria(Strip(f.keyword), ReadBound(f.minViews).value, ReadBound(f.maxViews).value,
                   FormType(f.videoType), None, None, count, f.order, DefaultRegion, DefaultLanguage)
  }

  /** `get_search_criteria`: the keyword is stripped and must not be blank;
      the bounds are read as above, the minimum first; the result count
      must be an integer; dates stay unset and region and language take
      their defaults; the assembled criteria must pass validation. */
  function GetSearchCriteria(f: Form): (r: Result<SearchCriteria, InputError>)
    ensures r == Err(BlankKeyword) <==> IsBlank(f.keyword)
    ensures r == Err(MinNotNumeric) <==> !IsBlank(f.keyword) && ReadBound(f.minViews).None?
    ensures r.Ok? ==> IsValid(r.value) && ParseInt(f.maxResults) == Some(r.value.maxResults)
    ensures r.Ok? ==> ReadBound(f.minViews).Some? && ReadBound(f.maxViews).Some?
    ensures r.Ok? ==> r.value == SearchCriteria(Strip(f.keyword), ReadBound(f.minViews).value, ReadBound(f.maxViews).value,
                                                 FormType(f.videoType), None, None, r.value.maxResults, f.order,
                                                 DefaultRegion, DefaultLanguage)
    ensures r == Err(MaxNotNumeric) <==>
              !IsBlank(f.keyword) && ReadBound(f.minViews).Some? && ReadBound(f.maxViews).None?
    ensures r == Err(MaxResultsNotNumeric) <==>
              && !IsBlank(f.keyword) && ReadBound(f.minViews).Some? && ReadBound(f.maxViews).Some?
              && ParseInt(f.maxResults).None?
    ensures r.Err? && r.error.Invalid? ==>
              && ReadBound(f.minViews).Some? && ReadBound(f.maxViews).Some? && ParseInt(f.maxResults).Some?
              && Validate(FormCriteria(f, ParseInt(f.maxResults).value)) == Fail(r.error.rule)
    ensures r.Err? && r.error.Invalid? ==> r.error.rule != EmptyKeyword && r.error.rule != NegativeMinViewCount
  {
    var keyword := Strip(f.keyword);
    if keyword == [] then Err(BlankKeyword)
    else
      var lo := ReadBound(f.minViews);
      if lo.None? then Err(MinNotNumeric)
      else
        var hi := ReadBound(f.maxViews);
        if hi.None? then Err(MaxNotNumeric)
        else
          StripIdempotent(f.keyword);
          var r := Assemble(keyword, lo.value, hi.value, f);
          assert r.Err? ==> r.error.MaxResultsNotNumeric? || r.error.Invalid?;
          r
  }

  /** The rest of `get_search_criteria`, once the keyword and both bounds
      are read: the result count must be an integer and the criteria must
      pass validation, which can then only fail on a rule the panel has
      not already checked. */
  function Assemble(keyword: string, lo: Option<int>, hi: Option<int>, f: Form): (r: Result<SearchCriteria, InputError>)
    requires Strip(keyword) != [] && (lo.Some? ==> lo.value >= 0)
    ensures r.Ok? ==> IsValid(r.value) && ParseInt(f.maxResults) == Some(r.value.maxResults)
    ensures r.Ok? ==> r.value == SearchCriteria(keyword, lo, hi, FormType(f.videoType), None, None,
                                                 r.value.maxResults, f.order, DefaultRegion, DefaultLanguage)
    ensures r.Err? ==> || r.error == MaxResultsNotNumeric
                       || (r.error.Invalid? && r.error.rule != EmptyKeyword && r.error.rule != NegativeMinViewCount)
    ensures r == Err(MaxResultsNotNumeric) <==> ParseInt(f.maxResults).None?
    ensures r.Err? && r.error.Invalid? ==>
              && ParseInt(f.maxResults).Some?
              && Validate(SearchCriteria(keyword, lo, hi, FormType(f.videoType), None, None,
                                         ParseInt(f.maxResults).value, f.order, DefaultRegion, DefaultLanguage))
                 == Fail(r.error.rule)
  {
    match ParseInt(f.maxResults)
    case None => Err(MaxResultsNotNumeric)
    case Some(count) =>
      var c := SearchCriteria(keyword, lo, hi, FormType(f.videoType), None, None,
                              count, f.order, DefaultRegion, DefaultLanguage);
      PanelCheckedRules(c);
      match Validate(c)
      case Fail(e) => Err(Invalid(e))
      case Pass => Ok(c)
  }

  /** Criteria whose keyword survives stripping and whose minimum is not
      negative can only fail validation on a later rule. */
  lemma PanelCheckedRules(c: SearchCriteria)
    requires Strip(c.keyword) != [] && (c.minViewCount.Some? ==> c.minViewCount.value >= 0)
    ensures Validate(c).Pass? ==> IsValid(c)
    ensures Validate(c).Fail? ==> Validate(c).error != EmptyKeyword && Validate(c).error != NegativeMinViewCount
  {
    ValidateFirstBroken(c);
  }

  /** A bound field as `set_search_criteria` writes it: Python's truthiness
      sends both `None` and 0 to the empty field. */
  function BoundText(b: Option<int>): (t: string)
    ensures t == [] <==> b.None? || b.value == 0
  {
    if b.Some? && b.value != 0 then IntToDecimal(b.value) else ""
  }

  /** The combo box shows the video type's code, which reads back as the
      type; the count field shows the count's decimal text, which parses
      back. */
  lemma ShownFieldsRead(c: SearchCriteria)
    ensures FormType(TypeCode(c.videoType)) == c.videoType
    ensures ParseInt(IntToDecimal(c.maxResults)) == Some(c.maxResults)
  {
    ParseIntToDecimal(c.maxResults);
  }

  /** `set_search_criteria`: the fields that show `c`.  An empty order is
      shown as "viewCount"; dates, region and language have no field. */
  function SetSearchCriteria(c: SearchCriteria): (f: Form)
    ensures f.keyword == c.keyword
    ensures f.videoType == TypeCode(c.videoType) && FormType(f.videoType) == c.videoType
    ensures f.order != [] && (c.order != [] ==> f.order == c.order)
    ensures c.order == [] ==> f.order == DefaultOrder
    ensures ParseInt(f.maxResults) == Some(c.maxResults)
    ensures f.minViews == BoundText(c.minViewCount) && f.maxViews == BoundText(c.maxViewCount)
  {
    ShownFieldsRead(c);
    Form(c.keyword, BoundText(c.minViewCount), BoundText(c.maxViewCount), TypeCode(c.videoType),
         IntToDecimal(c.maxResults), if c.order != [] then c.order else DefaultOrder)
  }

  /** A bound of 0 is written as the empty field and so read back as no
      bound; the two mean the same to every filter. */
  function ForgetZero(b: Option<int>): Option<int> {
    if b == Some(0) then None else b
  }

  /** A written bound reads back as itself, a zero one as no bound; a
      negative one is refused. */
  lemma BoundRoundTrip(b: Option<int>)
    ensures b.Some? && b.value < 0 ==> ReadBound(BoundText(b)).None?
    ensures (b.None? || b.value >= 0) ==> ReadBound(BoundText(b)) == Some(ForgetZero(b))
  {
    if b.Some? && b.value != 0 {
      var t := IntToDecimal(b.value);
      ParseIntToDecimal(b.value);
      assert t != [] && !IsBlank(t) by {
        if b.value < 0 {
          assert t[0] == '-';
        } else {
          assert IsDigit(t[0]);
        }
      }
    }
  }

  /** Criteria the form can show: a stripped keyword, no dates, the default
      region and language, and no negative bound. */
  predicate Showable(c: SearchCriteria) {
    && Strip(c.keyword) == c.keyword
    && c.publishedAfter.None? && c.publishedBefore.None?
    && c.regionCode == DefaultRegion && c.language == DefaultLanguage
    && (c.minViewCount.Some? ==> c.minViewCount.value >= 0)
    && (c.maxViewCount.Some? ==> c.maxViewCount.value >= 0)
  }

  /** No accepted order is the empty string. */
  lemma ValidOrderNonEmpty(order: string)
    requires order in ValidOrders
    ensures order != []
  {
    var i :| 0 <= i < |ValidOrders| && ValidOrders[i] == order;
  }

  /** A form whose fields read as the fields of valid criteria `c` gives `c`. */
  lemma GetReads(f: Form, c: SearchCriteria)
    requires Validate(c) == Pass && c.keyword == Strip(f.keyword) && c.keyword != []
    requires ReadBound(f.minViews) == Some(c.minViewCount) && ReadBound(f.maxViews) == Some(c.maxViewCount)
    requires ParseInt(f.maxResults) == Some(c.maxResults)
    requires c.videoType == FormType(f.videoType) && c.order == f.order
    requires c.publishedAfter.None? && c.publishedBefore.None?
    requires c.regionCode == DefaultRegion && c.language == DefaultLanguage
    ensures GetSearchCriteria(f) == Ok(c)
  {
    ValidateFirstBroken(c);
  }

  /** Dropping a zero bound keeps valid criteria valid. */
  lemma ForgetZeroValid(c: SearchCriteria)
    requires IsValid(c)
    ensures IsValid(c.(minViewCount := ForgetZero(c.minViewCount), maxViewCount := ForgetZero(c.maxViewCount)))
  {
    var d := c.(minViewCount := ForgetZero(c.minViewCount), maxViewCount := ForgetZero(c.maxViewCount));
    forall e ensures Satisfies(d, e) {
      assert Satisfies(c, e);
    }
  }

  /** A stripped, non-blank keyword is written and read back unchanged. */
  lemma KeywordReads(c: SearchCriteria)
    requires Strip(c.keyword) == c.keyword && c.keyword != []
    ensures c.keyword == Strip(SetSearchCriteria(c).keyword)
  {
  }

  /** Non-negative bounds are written and read back, a zero one as no bound. */
  lemma BoundsRead(c: SearchCriteria)
    requires c.minViewCount.Some? ==> c.minViewCount.value >= 0
    requires c.maxViewCount.Some? ==> c.maxViewCount.value >= 0
    ensures ReadBound(SetSearchCriteria(c).minViews) == Some(ForgetZero(c.minViewCount))
    ensures ReadBound(SetSearchCriteria(c).maxViews) == Some(ForgetZero(c.maxViewCount))
  {
    BoundRoundTrip(c.minViewCount);
    BoundRoundTrip(c.maxViewCount);
  }

  /** An accepted order and the video type are written and read back unchanged. */
  lemma ChoicesRead(c: SearchCriteria)
    requires c.order in ValidOrders
    ensures c.videoType == FormType(SetSearchCriteria(c).videoType)
    ensures c.order == SetSearchCriteria(c).order
  {
    ValidOrderNonEmpty(c.order);
  }

  /** Picking valid, showable criteria fills the form so that reading it
      gives them back, except that a zero bound comes back as no bound. */
  lemma FormRoundTrip(c: SearchCriteria)
    requires IsValid(c) && Showable(c)
    ensures GetSearchCriteria(SetSearchCriteria(c)) ==
              Ok(c.(minViewCount := ForgetZero(c.minViewCount), maxViewCount := ForgetZero(c.maxViewCount)))
  {
    var d := c.(minViewCount := ForgetZero(c.minViewCount), maxViewCount := ForgetZero(c.maxViewCount));
    assert Satisfies(c, EmptyKeyword) && Satisfies(c, InvalidOrder);
    KeywordReads(c);
    BoundsRead(c);
    ChoicesRead(c);
    ForgetZeroValid(c);
    ValidateFirstBroken(d);
    GetReads(SetSearchCriteria(c), d);
  }

  /** Criteria read from a form are showable, so writing them back and
      reading again gives the same criteria up to a zero bound. */
  lemma GetSetGet(f: Form)
    requires GetSearchCriteria(f).Ok?
    ensures var c := GetSearchCriteria(f).value;
            GetSearchCriteria(SetSearchCriteria(c)) ==
              Ok(c.(minViewCount := ForgetZero(c.minViewCount), maxViewCount := ForgetZero(c.maxViewCount)))
  {
    var c := GetSearchCriteria(f).value;
    StripIdempotent(f.keyword);
    FormRoundTrip(c);
  }

  /** A negative maximum passes validation when there is no minimum, but
      the form cannot hold it: written back, it is refused on reading. */
  lemma NegativeMaxNotShowable(keyword: string, n: int)
    requires !IsBlank(keyword) && n < 0
    ensures var c := DefaultCriteria(keyword).(maxViewCount := Some(n));
            && Validate(c) == Pass
            && GetSearchCriteria(SetSearchCriteria(c)) == Err(MaxNotNumeric)
  {
    var c := DefaultCriteria(keyword).(maxViewCount := Some(n));
    BoundRoundTrip(c.maxViewCount);
    assert c.order in ValidOrders;
  }

  /** The cleared fields read as the defaults: no bounds, every video, 50
      results, by view count. */
  lemma ClearedFieldsRead()
    ensures ReadBound(ClearedForm.minViews) == Some(None) && ReadBound(ClearedForm.maxViews) == Some(None)
    ensures FormType(ClearedForm.videoType) == All && ClearedForm.order == DefaultOrder
    ensures ParseInt(ClearedForm.maxResults) == Some(DefaultMaxResults)
  {
    ParseIntToDecimal(DefaultMaxResults);
  }

  /** The result count field of the cleared form reads "50". */
  lemma ClearedResultsText()
    ensures ClearedForm.maxResults == "50"
  {
    assert NatToDecimal(5) == "5";
  }

  /** With a non-blank keyword typed in, every cleared field reads as the
      matching field of the default criteria, and those validate. */
  lemma ClearedMatchesDefault(keyword: string)
    requires !IsBlank(keyword)
    ensures var f := ClearedForm.(keyword := keyword);
            var c := DefaultCriteria(Strip(keyword));
            && Validate(c) == Pass && c.keyword == Strip(f.keyword) && c.keyword != []
            && ReadBound(f.minViews) == Some(c.minViewCount) && ReadBound(f.maxViews) == Some(c.maxViewCount)
            && ParseInt(f.maxResults) == Some(c.maxResults)
            && c.videoType == FormType(f.videoType) && c.order == f.order
  {
    StripIdempotent(keyword);
    DefaultValidates(Strip(keyword));
    ClearedFieldsRead();
  }

  /** The cleared form still needs a keyword; with one typed in, it reads
      as the default criteria for the stripped keyword. */
  lemma ClearedFormReads(keyword: string)
    ensures IsBlank(keyword) ==> GetSearchCriteria(ClearedForm.(keyword := keyword)) == Err(BlankKeyword)
    ensures !IsBlank(keyword) ==>
              GetSearchCriteria(ClearedForm.(keyword := keyword)) == Ok(DefaultCriteria(Strip(keyword)))
  {
    if !IsBlank(keyword) {
      ClearedMatchesDefault(keyword);
      GetReads(ClearedForm.(keyword := keyword), DefaultCriteria(Strip(keyword)));
    }
  }
}

=== FILE: seqs.dfy ===
/** Generic list operations: filtering that keeps order (a Python list
    comprehension with an `if`), prefixes (`s[:n]`), concatenation of
    batches and reversal. */
module Seqs {

  /** The elements of `s` that satisfy `p`, in their original order. */
  function Filter<T(!new)>(s: seq<T>, p: T -> bool): (r: seq<T>)
    ensures |r| <= |s|
    ensures forall i :: 0 <= i < |r| ==> p(r[i])
  {
    if s == [] then []
    else
      var last := s[|s| - 1];
      assert s == s[..|s| - 1] + [last];
      Filter(s[..|s| - 1], p) + (if p(last) then [last] else [])
  }

  /** An element survives filtering exactly when it was in the list and
      satisfies the predicate. */
  lemma {:induction false} FilterMembers<T(!new)>(s: seq<T>, p: T -> bool)
    ensures forall x :: x in Filter(s, p) <==> x in s && p(x)
    decreases |s|
  {
    if s != [] {
      FilterMembers(s[..|s| - 1], p);
      assert s == s[..|s| - 1] + [s[|s| - 1]];
    }
  }

  /** Filtering distributes over concatenation. */
  lemma {:induction false} FilterAppend<T(!new)>(a: seq<T>, b: seq<T>, p: T -> bool)
    ensures Filter(a + b, p) == Filter(a, p) + Filter(b, p)
    decreases |b|
  {
    if b == [] {
      assert a + b == a;
    } else {
      var b' := b[..|b| - 1];
      assert (a + b)[..|a + b| - 1] == a + b';
      FilterAppend(a, b', p);
    }
  }

  /** A one-element list is kept or dropped as a whole. */
  lemma FilterSingleton<T(!new)>(x: T, p: T -> bool)
    ensures Filter([x], p) == if p(x) then [x] else []
  {
    assert [x][..0] == [];
  }

  /** Filtering with a predicate every element satisfies changes nothing. */
  lemma {:induction false} FilterKeepsAll<T(!new)>(s: seq<T>, p: T -> bool)
    requires forall i :: 0 <= i < |s| ==> p(s[i])
    ensures Filter(s, p) == s
    decreases |s|
  {
    if s != [] {
      FilterKeepsAll(s[..|s| - 1], p);
      assert s == s[..|s| - 1] + [s[|s| - 1]];
    }
  }

  /** Filtering twice with the same predicate is filtering once. */
  lemma FilterIdempotent<T(!new)>(s: seq<T>, p: T -> bool)
    ensures Filter(Filter(s, p), p) == Filter(s, p)
  {
    FilterKeepsAll(Filter(s, p), p);
  }

  /** Two predicates that agree everywhere filter alike. */
  lemma {:induction false} FilterSamePredicate<T(!new)>(s: seq<T>, p: T -> bool, q: T -> bool)
    requires forall x :: p(x) == q(x)
    ensures Filter(s, p) == Filter(s, q)
    decreases |s|
  {
    if s != [] {
      FilterSamePredicate(s[..|s| - 1], p, q);
    }
  }

  /** A predicate and its negation split a list: every element lands in
      exactly one of the two filtered lists. */
  lemma {:induction false} FilterPartition<T(!new)>(s: seq<T>, p: T -> bool, q: T -> bool)
    requires forall x :: q(x) == !p(x)
    ensures multiset(Filter(s, p)) + multiset(Filter(s, q)) == multiset(s)
    ensures |Filter(s, p)| + |Filter(s, q)| == |s|
    decreases |s|
  {
    if s != [] {
      var init := s[..|s| - 1];
      var last := s[|s| - 1];
      FilterPartition(init, p, q);
      assert s == init + [last];
      var fp := Filter(init, p);
      var fq := Filter(init, q);
      assert multiset(s) == multiset(init) + multiset{last};
      if p(last) {
        assert Filter(s, p) == fp + [last];
        assert Filter(s, q) == fq;
        assert multiset(fp + [last]) == multiset(fp) + multiset{last};
      } else {
        assert Filter(s, p) == fp;
        assert Filter(s, q) == fq + [last];
        assert multiset(fq + [last]) == multiset(fq) + multiset{last};
      }
    }
  }

  /** Filtering by `q` after filtering by a weaker `p` is filtering by
      `q` alone: removing elements `q` rejects anyway changes nothing. */
  lemma {:induction false} FilterNarrow<T(!new)>(s: seq<T>, p: T -> bool, q: T -> bool)
    requires forall x :: q(x) ==> p(x)
    ensures Filter(Filter(s, p), q) == Filter(s, q)
    decreases |s|
  {
    if s != [] {
      var init := s[..|s| - 1];
      var last := s[|s| - 1];
      FilterNarrow(init, p, q);
      assert Filter(s, q) == Filter(init, q) + (if q(last) then [last] else []);
      if p(last) {
        assert Filter(s, p) == Filter(init, p) + [last];
        FilterAppend(Filter(init, p), [last], q);
        FilterSingleton(last, q);
      } else {
        assert Filter(s, p) == Filter(init, p);
      }
    }
  }

  /** A relation that holds between every element and each later one. */
  predicate Pairwise<T>(s: seq<T>, rel: (T, T) -> bool) {
    forall i, j :: 0 <= i < j < |s| ==> rel(s[i], s[j])
  }

  /** Filtering keeps a subsequence, so it keeps every pairwise relation. */
  lemma {:induction false} FilterPairwise<T(!new)>(s: seq<T>, p: T -> bool, rel: (T, T) -> bool)
    requires Pairwise(s, rel)
    ensures Pairwise(Filter(s, p), rel)
    decreases |s|
  {
    if s != [] {
      var init := s[..|s| - 1];
      var last := s[|s| - 1];
      assert Pairwise(init, rel) by {
        forall i, j | 0 <= i < j < |init| ensures rel(init[i], init[j]) {
          assert init[i] == s[i] && init[j] == s[j];
        }
      }
      FilterPairwise(init, p, rel);
      if p(last) {
        var f := Filter(init, p);
        FilterMembers(init, p);
        forall i | 0 <= i < |f| ensures rel(f[i], last) {
          assert f[i] in init;
          var k :| 0 <= k < |init| && init[k] == f[i];
          assert s[k] == f[i];
        }
        var g := f + [last];
        forall i, j | 0 <= i < j < |g| ensures rel(g[i], g[j]) {
          if j < |f| {
            assert g[i] == f[i] && g[j] == f[j];
          }
        }
      }
    }
  }

  /** The first `n` elements, or all of them when there are fewer
      (Python's `s[:n]` for n >= 0). */
  function Take<T>(s: seq<T>, n: nat): (r: seq<T>)
    ensures |r| == if n < |s| then n else |s|
    ensures r == s[..|r|]
  {
    if n < |s| then s[..n] else s
  }

  /** All batches laid end to end, in order. */
  function Flatten<T>(ss: seq<seq<T>>): seq<T> {
    if ss == [] then [] else Flatten(ss[..|ss| - 1]) + ss[|ss| - 1]
  }

  lemma FlattenSnoc<T>(ss: seq<seq<T>>, b: seq<T>)
    ensures Flatten(ss + [b]) == Flatten(ss) + b
  {
    assert (ss + [b])[..|ss|] == ss;
  }

  /** The list read back to front. */
  function Reverse<T>(s: seq<T>): (r: seq<T>)
    ensures |r| == |s|
    ensures forall i :: 0 <= i < |s| ==> r[i] == s[|s| - 1 - i]
  {
    if s == [] then [] else [s[|s| - 1]] + Reverse(s[..|s| - 1])
  }

  /** Read back to front, the first element comes last. */
  lemma ReverseFront<T>(s: seq<T>)
    requires s != []
    ensures Reverse(s) == Reverse(s[1..]) + [s[0]]
  {
    var a := Reverse(s);
    var b := Reverse(s[1..]) + [s[0]];
    forall i | 0 <= i < |a| ensures a[i] == b[i] {
      if i < |s| - 1 {
        assert b[i] == s[1..][|s| - 2 - i];
      }
    }
  }
}

=== FILE: sheets_exporter.dfy ===
/** The Google Sheets exporter's data: a header row followed by one row of
    fourteen strings per video, numbered from 1.  The spreadsheet service is
    a parameter that accepts or rejects the finished grid; the calendar
    rendering of the publication date is a parameter as well. */
module SheetsExporter {
  import opened Base
  import opened Text
  import opened Models
  import opened ExportLayout

  /** `_create_video_row(idx, video)`. */
  function CreateVideoRow(idx: int, v: VideoInfo, formatDate: int -> string): (row: seq<string>)
    ensures |row| == ColumnCount
    ensures row[TypeColumn] == ShortLabel <==> v.isShort
    ensures row[DurationColumn] == DurationFormatted(v.durationSeconds)
  {
    [IntToDecimal(idx), v.title, v.url, v.channelName, v.channelId,
     IntToDecimal(v.viewCount), IntToDecimal(v.likeCount), IntToDecimal(v.commentCount),
     formatDate(v.publishedAt), DurationFormatted(v.durationSeconds), TypeLabel(v.isShort),
     v.description, TagsText(v.tags), v.thumbnailUrl]
  }

  /** The number and the three count cells read back, with `int()`, as
      the integers they were written from. */
  lemma VideoRowParsesBack(idx: int, v: VideoInfo, formatDate: int -> string)
    ensures var row := CreateVideoRow(idx, v, formatDate);
            && ParseInt(row[NoColumn]) == Some(idx)
            && ParseInt(row[5]) == Some(v.viewCount)
            && ParseInt(row[6]) == Some(v.likeCount)
            && ParseInt(row[7]) == Some(v.commentCount)
  {
    var row := CreateVideoRow(idx, v, formatDate);
    assert row[NoColumn] == IntToDecimal(idx) && row[5] == IntToDecimal(v.viewCount);
    assert row[6] == IntToDecimal(v.likeCount) && row[7] == IntToDecimal(v.commentCount);
    ParseIntToDecimal(idx);
    ParseIntToDecimal(v.viewCount);
    ParseIntToDecimal(v.likeCount);
    ParseIntToDecimal(v.commentCount);
  }

  /** The grid `export` writes: the header, then one numbered row per
      video in input order. */
  function Grid(videos: seq<VideoInfo>, formatDate: int -> string): (grid: seq<seq<string>>)
    ensures |grid| == |videos| + 1 && grid[0] == Headers
    ensures forall k :: 0 <= k < |grid| ==> |grid[k]| == ColumnCount
    ensures forall k :: 1 <= k < |grid| ==> grid[k] == CreateVideoRow(k, videos[k - 1], formatDate)
  {
    var rows := seq(|videos|, i requires 0 <= i < |videos| => CreateVideoRow(i + 1, videos[i], formatDate));
    assert forall k :: 0 <= k < |rows| ==> |rows[k]| == ColumnCount;
    [Headers] + rows
  }

  /** `export`: an empty list is refused before the service is touched;
      otherwise the whole grid is written in one update, and the export
      succeeds exactly when the service accepts it.  `write` is the service
      accepting the grid. */
  function Export(videos: seq<VideoInfo>, formatDate: int -> string, write: seq<seq<string>> -> bool)
    : (r: Result<seq<seq<string>>, ExportError>)
    ensures r == Err(NoVideos) <==> videos == []
    ensures r == Err(WriteFailed) <==> videos != [] && !r.Ok?
    ensures videos != [] ==> (r.Ok? <==> write(Grid(videos, formatDate)))
    ensures r.Ok? ==> r.value == Grid(videos, formatDate) && write(r.value)
    ensures r.Ok? ==> |r.value| == |videos| + 1 && r.value[0] == Headers
    ensures r.Ok? ==> forall k :: 0 <= k < |r.value| ==> |r.value[k]| == ColumnCount
    ensures r.Ok? ==> forall k :: 1 <= k < |r.value| ==> r.value[k] == CreateVideoRow(k, videos[k - 1], formatDate)
  {
    if videos == [] then Err(NoVideos)
    else
      var grid := Grid(videos, formatDate);
      if write(grid) then Ok(grid) else Err(WriteFailed)
  }

  /** Rows are numbered 1, 2, ... in input order: the k-th data row's
      first cell reads back as k. */
  lemma ExportNumbering(videos: seq<VideoInfo>, formatDate: int -> string, write: seq<seq<string>> -> bool, k: int)
    requires Export(videos, formatDate, write).Ok?
    requires 1 <= k < |Export(videos, formatDate, write).value|
    ensures ParseInt(Export(videos, formatDate, write).value[k][NoColumn]) == Some(k)
  {
    VideoRowParsesBack(k, videos[k - 1], formatDate);
  }
}

=== FILE: stable_sort.dfy ===
/** A stable sort on an integer key, ascending or descending, with the
    guarantees Python's `sorted(s, key=k, reverse=desc)` gives: the result
    is a permutation of the input, ordered by key, and elements with equal
    keys keep their input order in both directions. */
module StableSort {
  import opened Seqs

  /** `a` may come before `b` in a list ordered ascending, or descending when `desc`. */
  predicate InOrder(a: int, b: int, desc: bool) {
    if desc then a >= b else a <= b
  }

  /** `a` must come strictly before `b`. */
  predicate Precedes(a: int, b: int, desc: bool) {
    if desc then a > b else a < b
  }

  predicate Sorted<T>(s: seq<T>, key: T -> int, desc: bool) {
    forall i, j :: 0 <= i < j < |s| ==> InOrder(key(s[i]), key(s[j]), desc)
  }

  /** The selector for "elements whose key is k", used to state stability. */
  function KeyIs<T>(key: T -> int, k: int): T -> bool {
    x => key(x) == k
  }

  /** A sorted list stays sorted when an element that may precede all of
      it is put in front. */
  lemma SortedCons<T>(y: T, t: seq<T>, key: T -> int, desc: bool)
    requires Sorted(t, key, desc)
    requires forall z :: z in t ==> InOrder(key(y), key(z), desc)
    ensures Sorted([y] + t, key, desc)
  {
    var u := [y] + t;
    forall i, j | 0 <= i < j < |u| ensures InOrder(key(u[i]), key(u[j]), desc) {
      assert u[j] == t[j - 1];
      if i > 0 {
        assert u[i] == t[i - 1];
      } else {
        assert t[j - 1] in t;
      }
    }
  }

  lemma SortedTail<T>(s: seq<T>, key: T -> int, desc: bool)
    requires s != [] && Sorted(s, key, desc)
    ensures Sorted(s[1..], key, desc)
  {
    forall i, j | 0 <= i < j < |s| - 1 ensures InOrder(key(s[1..][i]), key(s[1..][j]), desc) {
      assert s[1..][i] == s[i + 1] && s[1..][j] == s[j + 1];
    }
  }

  /** The step of Insert that keeps the head of `s` in front. */
  lemma InsertBehindHead<T>(x: T, s: seq<T>, rest: seq<T>, key: T -> int, desc: bool)
    requires s != [] && Sorted(s, key, desc) && Precedes(key(s[0]), key(x), desc)
    requires Sorted(rest, key, desc)
    requires multiset(rest) == multiset(s[1..]) + multiset{x}
    ensures Sorted([s[0]] + rest, key, desc)
    ensures multiset([s[0]] + rest) == multiset(s) + multiset{x}
  {
    assert s == [s[0]] + s[1..];
    assert multiset(s) == multiset{s[0]} + multiset(s[1..]);
    forall z | z in rest ensures InOrder(key(s[0]), key(z), desc) {
      assert z in multiset(rest);
      if z != x {
        assert z in multiset(s[1..]);
        var j :| 0 <= j < |s[1..]| && s[1..][j] == z;
        assert s[j + 1] == z;
      }
    }
    SortedCons(s[0], rest, key, desc);
  }

  /** The step of Insert that puts `x` in front of all of `s`. */
  lemma InsertInFront<T>(x: T, s: seq<T>, key: T -> int, desc: bool)
    requires s != [] && Sorted(s, key, desc) && !Precedes(key(s[0]), key(x), desc)
    ensures Sorted([x] + s, key, desc)
  {
    forall z | z in s ensures InOrder(key(x), key(z), desc) {
      var j :| 0 <= j < |s| && s[j] == z;
      if j > 0 {
        assert InOrder(key(s[0]), key(s[j]), desc);
      }
    }
    SortedCons(x, s, key, desc);
  }

  /** Place `x` after every element whose key strictly precedes it and
      before the rest, so it goes ahead of any equal keys. */
  function Insert<T>(x: T, s: seq<T>, key: T -> int, desc: bool): (r: seq<T>)
    requires Sorted(s, key, desc)
    ensures Sorted(r, key, desc)
    ensures multiset(r) == multiset(s) + multiset{x}
    ensures |r| == |s| + 1
  {
    if s == [] then [x]
    else if Precedes(key(s[0]), key(x), desc) then
      SortedTail(s, key, desc);
      var rest := Insert(x, s[1..], key, desc);
      InsertBehindHead(x, s, rest, key, desc);
      [s[0]] + rest
    else
      InsertInFront(x, s, key, desc);
      [x] + s
  }

  /** Python's `sorted(s, key=key, reverse=desc)`: a permutation of `s`
      ordered by `key`. */
  function SortBy<T>(s: seq<T>, key: T -> int, desc: bool): (r: seq<T>)
    ensures Sorted(r, key, desc)
    ensures multiset(r) == multiset(s)
    ensures |r| == |s|
  {
    if s == [] then []
    else
      assert s == [s[0]] + s[1..];
      Insert(s[0], SortBy(s[1..], key, desc), key, desc)
  }

  /** One step of InsertStable: when the head of `s` strictly precedes
      `x`, the head cannot share `x`'s key, so the two commute in the
      filtered list. */
  lemma InsertStableStep<T(!new)>(x: T, s: seq<T>, rest: seq<T>, p: T -> bool, key: T -> int, desc: bool, k: int)
    requires s != [] && Precedes(key(s[0]), key(x), desc)
    requires p == KeyIs(key, k)
    requires Filter(rest, p) == Filter([x], p) + Filter(s[1..], p)
    ensures Filter([s[0]] + rest, p) == Filter([x], p) + Filter(s, p)
  {
    var head := Filter([s[0]], p);
    var mine := Filter([x], p);
    SingletonsCommute(s[0], x, key, desc, k);
    assert Filter([s[0]] + rest, p) == head + (mine + Filter(s[1..], p)) by {
      FilterAppend([s[0]], rest, p);
    }
    assert Filter(s, p) == head + Filter(s[1..], p) by {
      assert s == [s[0]] + s[1..];
      FilterAppend([s[0]], s[1..], p);
    }
  }

  /** Two elements whose keys differ cannot both pass a key filter, so
      their filtered singletons commute. */
  lemma SingletonsCommute<T(!new)>(y: T, x: T, key: T -> int, desc: bool, k: int)
    requires Precedes(key(y), key(x), desc)
    ensures Filter([y], KeyIs(key, k)) + Filter([x], KeyIs(key, k)) ==
            Filter([x], KeyIs(key, k)) + Filter([y], KeyIs(key, k))
  {
    var p := KeyIs(key, k);
    FilterSingleton(y, p);
    FilterSingleton(x, p);
    assert !(p(y) && p(x));
  }

  /** Inserting `x` puts it ahead of every element that shares its key and
      leaves the relative order of all other keys alone. */
  lemma {:induction false} InsertStable<T(!new)>(x: T, s: seq<T>, key: T -> int, desc: bool, k: int)
    requires Sorted(s, key, desc)
    ensures Filter(Insert(x, s, key, desc), KeyIs(key, k))
         == Filter([x], KeyIs(key, k)) + Filter(s, KeyIs(key, k))
    decreases |s|
  {
    if s == [] {
      assert [x] + [] == [x];
    } else if Precedes(key(s[0]), key(x), desc) {
      SortedTail(s, key, desc);
      InsertStable(x, s[1..], key, desc, k);
      InsertStableStep(x, s, Insert(x, s[1..], key, desc), KeyIs(key, k), key, desc, k);
    } else {
      FilterAppend([x], s, KeyIs(key, k));
    }
  }

  /** Stability: for every key, the elements carrying it appear in the
      sorted list in exactly the order they had in the input. */
  lemma {:induction false} SortStable<T(!new)>(s: seq<T>, key: T -> int, desc: bool, k: int)
    ensures Filter(SortBy(s, key, desc), KeyIs(key, k)) == Filter(s, KeyIs(key, k))
    decreases |s|
  {
    if s != [] {
      SortStable(s[1..], key, desc, k);
      InsertStable(s[0], SortBy(s[1..], key, desc), key, desc, k);
      assert s == [s[0]] + s[1..];
      FilterAppend([s[0]], s[1..], KeyIs(key, k));
    }
  }

  /** An element that every element of `s` strictly precedes goes last. */
  lemma {:induction false} InsertLast<T>(x: T, s: seq<T>, key: T -> int, desc: bool)
    requires Sorted(s, key, desc)
    requires forall i :: 0 <= i < |s| ==> Precedes(key(s[i]), key(x), desc)
    ensures Insert(x, s, key, desc) == s + [x]
    decreases |s|
  {
    if s != [] {
      SortedTail(s, key, desc);
      InsertLast(x, s[1..], key, desc);
      assert s == [s[0]] + s[1..];
    }
  }

  /** Read back to front, the tail of a list whose head has the smallest
      key still has every key above the head's. */
  lemma HeadBelowTail<T>(s: seq<T>, key: T -> int)
    requires s != []
    requires forall j :: 0 < j < |s| ==> key(s[0]) < key(s[j])
    ensures forall i :: 0 <= i < |s| - 1 ==> Precedes(key(Reverse(s[1..])[i]), key(s[0]), true)
  {
    forall i | 0 <= i < |s| - 1 ensures Precedes(key(Reverse(s[1..])[i]), key(s[0]), true) {
      assert Reverse(s[1..])[i] == s[|s| - 1 - i];
    }
  }

  /** The step of SortIncreasingDescending: the head has the smallest key,
      so it is inserted behind the reversed tail. */
  lemma SortIncreasingStep<T>(s: seq<T>, key: T -> int)
    requires s != []
    requires forall j :: 0 < j < |s| ==> key(s[0]) < key(s[j])
    requires SortBy(s[1..], key, true) == Reverse(s[1..])
    ensures SortBy(s, key, true) == Reverse(s)
  {
    var r := Reverse(s[1..]);
    HeadBelowTail(s, key);
    InsertLast(s[0], r, key, true);
    ReverseFront(s);
  }

  /** Sorting a list whose keys strictly increase puts it in reverse
      order when descending. */
  lemma {:induction false} SortIncreasingDescending<T>(s: seq<T>, key: T -> int)
    requires forall i, j :: 0 <= i < j < |s| ==> key(s[i]) < key(s[j])
    ensures SortBy(s, key, true) == Reverse(s)
    decreases |s|
  {
    if s != [] {
      var t := s[1..];
      forall i, j | 0 <= i < j < |t| ensures key(t[i]) < key(t[j]) {
        assert t[i] == s[i + 1] && t[j] == s[j + 1];
      }
      SortIncreasingDescending(t, key);
      SortIncreasingStep(s, key);
    }
  }
}

=== FILE: text.dfy ===
/** The handful of Python string operations the analyser relies on:
    `str.strip()`, `str(n)`, `int(s)`, zero padding, thousands grouping,
    `str.split(":")`, `sep.join(parts)` and substring search. */
module Text {
  import opened Base

  // ---------------------------------------------------------------------------
  // Whitespace and strip()
  // ---------------------------------------------------------------------------

  /** The characters for which Python's `str.isspace()` holds; `str.strip()`
      with no argument removes exactly these from both ends. */
  predicate IsSpace(c: char) {
    var n := c as int;
    || n == 0x20
    || 0x09 <= n <= 0x0D
    || 0x1C <= n <= 0x1F
    || n == 0x85 || n == 0xA0 || n == 0x1680
    || 0x2000 <= n <= 0x200A
    || n == 0x2028 || n == 0x2029 || n == 0x202F || n == 0x205F || n == 0x3000
  }

  /** True when nothing but whitespace is left after stripping. */
  predicate IsBlank(s: string) {
    forall i :: 0 <= i < |s| ==> IsSpace(s[i])
  }

  function StripLeft(s: string): (r: string)
    ensures |r| <= |s| && r == s[|s| - |r|..]
    ensures IsBlank(s[..|s| - |r|])
    ensures r != [] ==> !IsSpace(r[0])
  {
    if s != [] && IsSpace(s[0]) then
      var r := StripLeft(s[1..]);
      assert s[..|s| - |r|] == [s[0]] + s[1..][..|s| - 1 - |r|];
      r
    else s
  }

  function StripRight(s: string): (r: string)
    ensures |r| <= |s| && r == s[..|r|]
    ensures IsBlank(s[|r|..])
    ensures r != [] ==> !IsSpace(r[|r| - 1])
  {
    if s != [] && IsSpace(s[|s| - 1]) then
      var r := StripRight(s[..|s| - 1]);
      assert s[|r|..] == s[..|s| - 1][|r|..] + [s[|s| - 1]];
      r
    else s
  }

  /** A string is blank exactly when its first character is a space and
      the rest is blank. */
  lemma BlankCons(s: string)
    requires s != []
    ensures IsBlank(s) <==> IsSpace(s[0]) && IsBlank(s[1..])
  {
    if IsSpace(s[0]) && IsBlank(s[1..]) {
      forall i | 0 <= i < |s| ensures IsSpace(s[i]) {
        if i > 0 {
          assert s[i] == s[1..][i - 1];
        }
      }
    }
  }

  /** A string is blank exactly when its last character is a space and
      the rest is blank. */
  lemma BlankSnoc(s: string)
    requires s != []
    ensures IsBlank(s) <==> IsSpace(s[|s| - 1]) && IsBlank(s[..|s| - 1])
  {
    if IsSpace(s[|s| - 1]) && IsBlank(s[..|s| - 1]) {
      forall i | 0 <= i < |s| ensures IsSpace(s[i]) {
        if i < |s| - 1 {
          assert s[i] == s[..|s| - 1][i];
        }
      }
    }
  }

  lemma {:induction false} StripLeftBlank(s: string)
    ensures StripLeft(s) == [] <==> IsBlank(s)
    decreases |s|
  {
    if s != [] {
      BlankCons(s);
      if IsSpace(s[0]) {
        StripLeftBlank(s[1..]);
      }
    }
  }

  lemma {:induction false} StripRightBlank(s: string)
    ensures StripRight(s) == [] <==> IsBlank(s)
    decreases |s|
  {
    if s != [] {
      BlankSnoc(s);
      if IsSpace(s[|s| - 1]) {
        StripRightBlank(s[..|s| - 1]);
      }
    }
  }

  /** Stripping the right end of the left-stripped string: the result is
      empty exactly when the whole string is blank, and otherwise starts
      with the first character the left strip kept. */
  lemma StripSides(s: string)
    ensures var l := StripLeft(s);
            var r := StripRight(l);
            && (r == [] <==> IsBlank(s))
            && (r != [] ==> r[0] == l[0])
  {
    var l := StripLeft(s);
    StripLeftBlank(s);
    StripRightBlank(l);
    if l != [] {
      assert !IsBlank(l) by {
        assert !IsSpace(l[0]);
      }
    }
  }

  /** Python's `s.strip()`: the string with leading and trailing whitespace
      removed. It is empty exactly when `s` is blank, and otherwise begins
      and ends with a non-space character. */
  function Strip(s: string): (r: string)
    ensures r == [] <==> IsBlank(s)
    ensures r != [] ==> !IsSpace(r[0]) && !IsSpace(r[|r| - 1])
    ensures |r| <= |s|
  {
    StripSides(s);
    StripRight(StripLeft(s))
  }

  lemma {:induction false} StripLeftKeeps(s: string, c: char)
    requires c in s && !IsSpace(c)
    ensures c in StripLeft(s)
    decreases |s|
  {
    if s != [] && IsSpace(s[0]) {
      assert s == [s[0]] + s[1..];
      StripLeftKeeps(s[1..], c);
    }
  }

  lemma {:induction false} StripRightKeeps(s: string, c: char)
    requires c in s && !IsSpace(c)
    ensures c in StripRight(s)
    decreases |s|
  {
    if s != [] && IsSpace(s[|s| - 1]) {
      assert s == s[..|s| - 1] + [s[|s| - 1]];
      StripRightKeeps(s[..|s| - 1], c);
    }
  }

  /** A character that is not whitespace survives stripping. */
  lemma NonSpaceSurvivesStrip(s: string, c: char)
    requires c in s && !IsSpace(c)
    ensures c in Strip(s)
  {
    StripLeftKeeps(s, c);
    StripRightKeeps(StripLeft(s), c);
  }

  /** Strip leaves a string that has no surrounding whitespace unchanged. */
  lemma StripUnpadded(s: string)
    requires s != [] ==> !IsSpace(s[0]) && !IsSpace(s[|s| - 1])
    ensures Strip(s) == s
  {
    assert StripLeft(s) == s;
    assert StripRight(s) == s;
  }

  /** Stripping twice is stripping once. */
  lemma StripIdempotent(s: string)
    ensures Strip(Strip(s)) == Strip(s)
  {
    var t := Strip(s);
    StripUnpadded(t);
  }

  // ---------------------------------------------------------------------------
  // Decimal digits: str(n) and int(s)
  // ---------------------------------------------------------------------------

  predicate IsDigit(c: char) {
    '0' <= c <= '9'
  }

  predicate AllDigits(s: string) {
    forall i :: 0 <= i < |s| ==> IsDigit(s[i])
  }

  function DigitChar(d: nat): (c: char)
    requires d < 10
    ensures IsDigit(c) && c as int - '0' as int == d
  {
    (d + '0' as int) as char
  }

  function Pow10(k: nat): (r: nat)
    ensures r >= 1
  {
    if k == 0 then 1 else 10 * Pow10(k - 1)
  }

  /** The number a string of ASCII digits denotes, most significant first. */
  function DigitsValue(s: string): nat
    requires AllDigits(s)
  {
    if s == [] then 0 else DigitsValue(s[..|s| - 1]) * 10 + (s[|s| - 1] as int - '0' as int)
  }

  /** Place value: the digits of `a` count `10^|b|` times their value in `a + b`. */
  lemma {:induction false} DigitsValueAppend(a: string, b: string)
    requires AllDigits(a) && AllDigits(b)
    ensures AllDigits(a + b)
    ensures DigitsValue(a + b) == DigitsValue(a) * Pow10(|b|) + DigitsValue(b)
    decreases |b|
  {
    AllDigitsAppend(a, b);
    if b != [] {
      var b' := b[..|b| - 1];
      var d := b[|b| - 1] as int - '0' as int;
      assert (a + b)[..|a + b| - 1] == a + b';
      assert (a + b)[|a + b| - 1] == b[|b| - 1];
      DigitsValueAppend(a, b');
      var va, vb' := DigitsValue(a), DigitsValue(b');
      var q := Pow10(|b'|);
      assert DigitsValue(a + b) == (va * q + vb') * 10 + d;
      assert DigitsValue(b) == vb' * 10 + d;
      assert Pow10(|b|) == q * 10;
      ShiftDigit(va, q, vb', d);
    } else {
      assert a + b == a;
    }
  }

  lemma ShiftDigit(v: int, q: int, w: int, d: int)
    ensures (v * q + w) * 10 + d == v * (q * 10) + (w * 10 + d)
  {
    assert (v * q + w) * 10 == v * q * 10 + w * 10;
  }

  lemma AllDigitsAppend(a: string, b: string)
    requires AllDigits(a) && AllDigits(b)
    ensures AllDigits(a + b)
  {
    forall i | 0 <= i < |a + b| ensures IsDigit((a + b)[i]) {
      if i < |a| { assert (a + b)[i] == a[i]; } else { assert (a + b)[i] == b[i - |a|]; }
    }
  }

  /** Python's `str(n)` for a non-negative integer: canonical decimal, no
      leading zero except for zero itself. */
  function NatToDecimal(n: nat): (r: string)
    ensures r != [] && AllDigits(r)
    ensures r[0] == '0' ==> n == 0 && r == "0"
    ensures n < 10 ==> |r| == 1
    ensures 10 <= n < 100 ==> |r| == 2
    ensures 100 <= n < 1000 ==> |r| == 3
  {
    if n < 10 then [DigitChar(n)] else NatToDecimal(n / 10) + [DigitChar(n % 10)]
  }

  /** Reading back the digits `str(n)` writes gives `n`. */
  lemma {:induction false} NatToDecimalValue(n: nat)
    ensures DigitsValue(NatToDecimal(n)) == n
    decreases n
  {
    var s := NatToDecimal(n);
    if n >= 10 {
      NatToDecimalValue(n / 10);
      assert s[..|s| - 1] == NatToDecimal(n / 10);
    } else {
      assert s[..|s| - 1] == [];
    }
  }

  /** Python's `str(n)` for any integer. */
  function IntToDecimal(n: int): string {
    if n < 0 then "-" + NatToDecimal(-n) else NatToDecimal(n)
  }

  /** What Python's `int(s)` accepts once `s` is stripped: an optional sign
      followed by at least one ASCII digit. */
  predicate IsIntLiteral(t: string) {
    || (t != [] && AllDigits(t))
    || (|t| >= 2 && (t[0] == '+' || t[0] == '-') && AllDigits(t[1..]))
  }

  /** Python's `int(s)`; `None` stands for the `ValueError` it raises. */
  function ParseInt(s: string): (r: Option<int>)
    ensures r.Some? <==> IsIntLiteral(Strip(s))
  {
    ParseLiteral(Strip(s))
  }

  /** The value of an already stripped literal; `None` when it is not one. */
  function ParseLiteral(t: string): (r: Option<int>)
    ensures r.Some? <==> IsIntLiteral(t)
  {
    if t == [] then None
    else if t[0] == '-' || t[0] == '+' then
      if |t| >= 2 && AllDigits(t[1..]) then
        Some(if t[0] == '-' then -(DigitsValue(t[1..]) as int) else DigitsValue(t[1..]))
      else None
    else if AllDigits(t) then Some(DigitsValue(t))
    else None
  }

  /** `int` strips its argument itself, so stripping first changes nothing. */
  lemma ParseStripped(s: string)
    ensures ParseInt(Strip(s)) == ParseInt(s)
  {
    var t := Strip(s);
    StripUnpadded(t);
    assert ParseInt(t) == ParseLiteral(Strip(t)) == ParseLiteral(t);
  }

  /** A string of digits parses as the number it denotes. */
  lemma ParseDigits(s: string)
    requires s != [] && AllDigits(s)
    ensures ParseInt(s) == Some(DigitsValue(s) as int)
  {
    StripUnpadded(s);
  }

  /** `int(str(n)) == n` for every integer. */
  lemma ParseIntToDecimal(n: int)
    ensures ParseInt(IntToDecimal(n)) == Some(n)
  {
    if n < 0 {
      var d := NatToDecimal(-n);
      NatToDecimalValue(-n);
      var s := "-" + d;
      assert s[0] == '-' && s[|s| - 1] == d[|d| - 1];
      assert IsDigit(d[|d| - 1]);
      StripUnpadded(s);
      assert s[1..] == d;
    } else {
      NatToDecimalValue(n);
      ParseDigits(NatToDecimal(n));
    }
  }

  // ---------------------------------------------------------------------------
  // Fixed-width and grouped renderings
  // ---------------------------------------------------------------------------

  /** Python's `f"{n:02d}"` for n >= 0: at least two digits, zero padded. */
  function Pad2(n: nat): (r: string)
    ensures AllDigits(r) && |r| >= 2
    ensures n < 100 ==> |r| == 2
  {
    if n < 10 then "0" + NatToDecimal(n) else NatToDecimal(n)
  }

  lemma Pad2Value(n: nat)
    ensures DigitsValue(Pad2(n)) == n
  {
    NatToDecimalValue(n);
    if n < 10 {
      DigitsValueAppend("0", NatToDecimal(n));
    }
  }

  /** Exactly three zero-padded digits, as a thousands group is written. */
  function Pad3(n: nat): (r: string)
    requires n < 1000
    ensures AllDigits(r) && |r| == 3
  {
    if n < 10 then "00" + NatToDecimal(n)
    else if n < 100 then "0" + NatToDecimal(n)
    else NatToDecimal(n)
  }

  lemma Pad3Value(n: nat)
    requires n < 1000
    ensures DigitsValue(Pad3(n)) == n
  {
    NatToDecimalValue(n);
    if n < 10 {
      DigitsValueAppend("00", NatToDecimal(n));
    } else if n < 100 {
      DigitsValueAppend("0", NatToDecimal(n));
    }
  }

  /** Python's `f"{n:,}"` for n >= 0: decimal digits with a comma between
      groups of three, counted from the right. */
  function GroupThousands(n: nat): (r: string)
    ensures r != [] && IsDigit(r[0]) && IsDigit(r[|r| - 1])
  {
    if n < 1000 then NatToDecimal(n) else GroupThousands(n / 1000) + "," + Pad3(n % 1000)
  }

  /** Python's `f"{n:,}"` for any integer. */
  function FormatGrouped(n: int): string {
    if n < 0 then "-" + GroupThousands(-n) else GroupThousands(n)
  }

  /** `s.replace(c, "")` for a single character `c`. */
  function RemoveChar(s: string, c: char): (r: string)
    ensures c !in r
    ensures |r| <= |s|
    ensures c !in s ==> r == s
  {
    if s == [] then []
    else (if s[0] == c then [] else [s[0]]) + RemoveChar(s[1..], c)
  }

  lemma {:induction false} RemoveCharAppend(a: string, b: string, c: char)
    ensures RemoveChar(a + b, c) == RemoveChar(a, c) + RemoveChar(b, c)
    decreases |a|
  {
    if a != [] {
      assert (a + b)[1..] == a[1..] + b;
      RemoveCharAppend(a[1..], b, c);
    } else {
      assert a + b == b;
    }
  }

  lemma DigitsHaveNoComma(s: string)
    requires AllDigits(s)
    ensures RemoveChar(s, ',') == s
  {
    forall i | 0 <= i < |s| ensures s[i] != ',' {
      assert IsDigit(s[i]);
    }
  }

  lemma UngroupStep(hi: string, lo: string)
    requires AllDigits(lo)
    ensures RemoveChar(hi + "," + lo, ',') == RemoveChar(hi, ',') + lo
  {
    var comma := [','];
    var a := hi + comma;
    RemoveCharAppend(a, lo, ',');
    RemoveCharAppend(hi, comma, ',');
    var rc := RemoveChar(comma, ',');
    assert rc == [] by {
      assert comma[1..] == [];
      assert RemoveChar(comma[1..], ',') == [];
    }
    var rh := RemoveChar(hi, ',');
    assert RemoveChar(a, ',') == rh + rc;
    assert rh + rc == rh;
    DigitsHaveNoComma(lo);
    assert hi + "," + lo == a + lo;
  }

  /** Dropping the commas of a grouped rendering leaves the plain digits of `n`. */
  lemma {:induction false} UngroupThousands(n: nat)
    ensures AllDigits(RemoveChar(GroupThousands(n), ','))
    ensures RemoveChar(GroupThousands(n), ',') != []
    ensures IsDigit(RemoveChar(GroupThousands(n), ',')[0])
    ensures DigitsValue(RemoveChar(GroupThousands(n), ',')) == n
    decreases n
  {
    if n < 1000 {
      NatToDecimalValue(n);
      DigitsHaveNoComma(NatToDecimal(n));
    } else {
      UngroupThousands(n / 1000);
      UngroupOneGroup(n);
    }
  }

  /** The step of UngroupThousands: once the digits of the leading groups
      read back, appending the last group of three reads back `n`. */
  lemma UngroupOneGroup(n: nat)
    requires n >= 1000
    requires AllDigits(RemoveChar(GroupThousands(n / 1000), ','))
    requires RemoveChar(GroupThousands(n / 1000), ',') != []
    requires IsDigit(RemoveChar(GroupThousands(n / 1000), ',')[0])
    requires DigitsValue(RemoveChar(GroupThousands(n / 1000), ',')) == n / 1000
    ensures AllDigits(RemoveChar(GroupThousands(n), ','))
    ensures RemoveChar(GroupThousands(n), ',') != []
    ensures IsDigit(RemoveChar(GroupThousands(n), ',')[0])
    ensures DigitsValue(RemoveChar(GroupThousands(n), ',')) == n
  {
    var hi := GroupThousands(n / 1000);
    var lo := Pad3(n % 1000);
    var h := RemoveChar(hi, ',');
    assert GroupThousands(n) == hi + "," + lo;
    UngroupStep(hi, lo);
    Pad3Value(n % 1000);
    AppendGroup(h, lo);
    var q, m := n / 1000, n % 1000;
    assert q * 1000 + m == n;
  }

  /** Appending three digits multiplies the value in front by 1000. */
  lemma AppendGroup(h: string, lo: string)
    requires AllDigits(h) && h != [] && AllDigits(lo) && |lo| == 3
    ensures AllDigits(h + lo) && (h + lo)[0] == h[0]
    ensures DigitsValue(h + lo) == DigitsValue(h) * 1000 + DigitsValue(lo)
  {
    DigitsValueAppend(h, lo);
    assert Pow10(3) == 1000;
  }

  // ---------------------------------------------------------------------------
  // split(sep) and join
  // ---------------------------------------------------------------------------

  function IndexOf(s: string, c: char): (i: nat)
    requires c in s
    ensures i < |s| && s[i] == c && c !in s[..i]
    ensures forall k :: 0 <= k < i ==> s[k] != c
  {
    if s[0] == c then 0
    else
      var j := IndexOf(s[1..], c);
      assert s[..j + 1] == [s[0]] + s[1..][..j];
      j + 1
  }

  /** `sep.join(parts)`. */
  function Join(parts: seq<string>, sep: string): string {
    if |parts| == 0 then ""
    else if |parts| == 1 then parts[0]
    else parts[0] + sep + Join(parts[1..], sep)
  }

  /** Python's `s.split(sep)` for a one-character separator: the pieces
      between separators, none containing it, which join back to `s`. */
  function Split(s: string, sep: char): (parts: seq<string>)
    ensures |parts| >= 1
    ensures forall i :: 0 <= i < |parts| ==> sep !in parts[i]
    ensures Join(parts, [sep]) == s
    decreases |s|
  {
    if sep in s then
      var i := IndexOf(s, sep);
      var rest := Split(s[i + 1..], sep);
      assert s == s[..i] + [sep] + s[i + 1..];
      [s[..i]] + rest
    else [s]
  }

  /** Splitting a join on a separator no part contains gives the parts back. */
  lemma {:induction false} SplitJoin(parts: seq<string>, sep: char)
    requires |parts| >= 1
    requires forall i :: 0 <= i < |parts| ==> sep !in parts[i]
    ensures Split(Join(parts, [sep]), sep) == parts
    decreases |parts|
  {
    if |parts| > 1 {
      var s := Join(parts, [sep]);
      var rest := Join(parts[1..], [sep]);
      assert s == parts[0] + [sep] + rest;
      assert s[|parts[0]|] == sep;
      assert s[..|parts[0]|] == parts[0];
      assert sep in s;
      var i := IndexOf(s, sep);
      assert forall k :: 0 <= k < |parts[0]| ==> s[k] == parts[0][k];
      assert i == |parts[0]|;
      assert s[i + 1..] == rest;
      SplitJoin(parts[1..], sep);
    } else {
      assert Join(parts, [sep]) == parts[0];
    }
  }

  // ---------------------------------------------------------------------------
  // Substring search
  // ---------------------------------------------------------------------------

  /** `needle` occurs in `s` as a contiguous block. */
  predicate Contains(s: string, needle: string)
    decreases |s|
  {
    needle <= s || (s != [] && Contains(s[1..], needle))
  }

  /** `needle` is the window of `s` that starts at `i`. */
  predicate OccursAt(s: string, needle: string, i: int) {
    0 <= i <= |s| - |needle| && s[i..i + |needle|] == needle
  }

  /** A window equal to `needle` makes `s` contain it. */
  lemma {:induction false} OccursContains(s: string, needle: string, i: int)
    requires OccursAt(s, needle, i)
    ensures Contains(s, needle)
    decreases i
  {
    if i == 0 {
      assert needle == s[..|needle|];
    } else {
      assert s[1..][i - 1..i - 1 + |needle|] == s[i..i + |needle|];
      OccursContains(s[1..], needle, i - 1);
    }
  }

  /** Containment is witnessed by a window. */
  lemma {:induction false} ContainsOccurs(s: string, needle: string)
    requires Contains(s, needle)
    ensures exists i :: OccursAt(s, needle, i)
    decreases |s|
  {
    if needle <= s {
      assert OccursAt(s, needle, 0);
    } else {
      ContainsOccurs(s[1..], needle);
      var j :| OccursAt(s[1..], needle, j);
      assert s[1..][j..j + |needle|] == s[j + 1..j + 1 + |needle|];
      assert OccursAt(s, needle, j + 1);
    }
  }

  /** Contains is exactly "some window of `s` equals `needle`". */
  lemma ContainsIff(s: string, needle: string)
    ensures Contains(s, needle) <==> exists i :: OccursAt(s, needle, i)
  {
    if Contains(s, needle) {
      ContainsOccurs(s, needle);
    }
    if exists i :: OccursAt(s, needle, i) {
      var i :| OccursAt(s, needle, i);
      OccursContains(s, needle, i);
    }
  }

  // ---------------------------------------------------------------------------
  // ASCII case folding
  // ---------------------------------------------------------------------------

  /** The lower-case form of an ASCII capital; every other character is
      left alone. */
  function AsciiLowerChar(ch: char): (r: char)
    ensures 'A' <= ch <= 'Z' ==> 'a' <= r <= 'z' && r as int == ch as int + 32
    ensures !('A' <= ch <= 'Z') ==> r == ch
  {
    if 'A' <= ch <= 'Z' then (ch as int + 32) as char else ch
  }

  /** Every ASCII capital of `s` lowered, nothing else changed. */
  function AsciiLower(s: string): (r: string)
    ensures |r| == |s|
    ensures forall i :: 0 <= i < |s| ==> r[i] == AsciiLowerChar(s[i])
  {
    seq(|s|, i requires 0 <= i < |s| => AsciiLowerChar(s[i]))
  }

  /** Folding twice is folding once. */
  lemma AsciiLowerIdempotent(s: string)
    ensures AsciiLower(AsciiLower(s)) == AsciiLower(s)
  {
    var once := AsciiLower(s);
    assert forall i :: 0 <= i < |s| ==> 'A' <= s[i] <= 'Z' ==> !('A' <= once[i] <= 'Z');
  }

  /** An exact occurrence stays an occurrence once both sides are folded. */
  lemma ContainsLowered(s: string, needle: string)
    requires Contains(s, needle)
    ensures Contains(AsciiLower(s), AsciiLower(needle))
  {
    ContainsIff(s, needle);
    var i :| OccursAt(s, needle, i);
    var ls, ln := AsciiLower(s), AsciiLower(needle);
    forall k | 0 <= k < |ln| ensures ls[i..i + |ln|][k] == ln[k] {
      assert s[i..i + |needle|][k] == needle[k];
    }
    assert OccursAt(ls, ln, i);
    ContainsIff(ls, ln);
  }
}

=== FILE: value_objects.dfy ===
/** Immutable value types that check their own invariant when built: a
    view-count range and the two YouTube identifiers.  Construction returns
    `Err` where the Python constructor raises `ValueError`. */
module ValueObjects {
  import opened Base

  // ---------------------------------------------------------------------------
  // View-count range
  // ---------------------------------------------------------------------------

  /** A view-count interval; a missing bound leaves that side open. */
  datatype ViewCountRange = ViewCountRange(minCount: Option<int>, maxCount: Option<int>)

  datatype RangeError = NegativeMin | NegativeMax | MinAboveMax

  /** The invariant every constructed range keeps. */
  predicate WellFormed(r: ViewCountRange) {
    && (r.minCount.Some? ==> r.minCount.value >= 0)
    && (r.maxCount.Some? ==> r.maxCount.value >= 0)
    && (r.minCount.Some? && r.maxCount.Some? ==> r.minCount.value <= r.maxCount.value)
  }

  /** `ViewCountRange(min, max)`: the checks run in the order negative
      minimum, negative maximum, minimum above maximum. */
  function MakeViewCountRange(minCount: Option<int>, maxCount: Option<int>): (r: Result<ViewCountRange, RangeError>)
    ensures r.Ok? <==> WellFormed(ViewCountRange(minCount, maxCount))
    ensures r.Ok? ==> r.value == ViewCountRange(minCount, maxCount)
    ensures r == Err(NegativeMin) <==> minCount.Some? && minCount.value < 0
    ensures r == Err(NegativeMax) <==>
              (minCount.Some? ==> minCount.value >= 0) && maxCount.Some? && maxCount.value < 0
  {
    if minCount.Some? && minCount.value < 0 then Err(NegativeMin)
    else if maxCount.Some? && maxCount.value < 0 then Err(NegativeMax)
    else if minCount.Some? && maxCount.Some? && minCount.value > maxCount.value then Err(MinAboveMax)
    else Ok(ViewCountRange(minCount, maxCount))
  }

  /** `contains`: below the minimum or above the maximum is outside;
      everything else, bounds included, is inside. */
  predicate RangeContains(r: ViewCountRange, v: int) {
    if r.minCount.Some? && v < r.minCount.value then false
    else if r.maxCount.Some? && v > r.maxCount.value then false
    else true
  }

  /** Both bounds are inclusive, and a missing bound does not constrain. */
  lemma ContainsMeansBetween(r: ViewCountRange, v: int)
    ensures RangeContains(r, v) <==>
              (r.minCount.None? || r.minCount.value <= v) && (r.maxCount.None? || v <= r.maxCount.value)
  {
  }

  /** A well-formed bounded range contains both of its ends. */
  lemma ContainsBounds(r: ViewCountRange)
    requires WellFormed(r) && r.minCount.Some? && r.maxCount.Some?
    ensures RangeContains(r, r.minCount.value) && RangeContains(r, r.maxCount.value)
  {
  }

  /** With neither bound, every count is contained. */
  lemma UnboundedContainsAll(v: int)
    ensures RangeContains(ViewCountRange(None, None), v)
  {
  }

  /** The range 1000..10000 holds 1000 and 10000 but not 500 or 15000. */
  lemma ContainsExamples()
    ensures MakeViewCountRange(Some(1000), Some(10000)).Ok?
    ensures RangeContains(ViewCountRange(Some(1000), Some(10000)), 1000)
    ensures RangeContains(ViewCountRange(Some(1000), Some(10000)), 10000)
    ensures !RangeContains(ViewCountRange(Some(1000), Some(10000)), 500)
    ensures !RangeContains(ViewCountRange(Some(1000), Some(10000)), 15000)
    ensures MakeViewCountRange(Some(10000), Some(1000)) == Err(MinAboveMax)
  {
  }

  // ---------------------------------------------------------------------------
  // Identifiers
  // ---------------------------------------------------------------------------

  const WatchUrlPrefix: string := "https://www.youtube.com/watch?v="
  const ChannelUrlPrefix: string := "https://www.youtube.com/channel/"

  datatype YouTubeVideoId = YouTubeVideoId(value: string)
  datatype ChannelId = ChannelId(value: string)

  datatype IdError = EmptyId | WrongLength | InvalidChar | BadFormat

  /** The characters a video id may use: ASCII letters, digits, `_` and `-`. */
  predicate IsIdChar(ch: char) {
    || ('a' <= ch <= 'z') || ('A' <= ch <= 'Z') || ('0' <= ch <= '9')
    || ch == '_' || ch == '-'
  }

  /** `YouTubeVideoId(value)`: emptiness is reported first, then a length
      other than 11, then a character outside the id alphabet. */
  function MakeVideoId(value: string): (r: Result<YouTubeVideoId, IdError>)
    ensures r.Ok? <==> |value| == 11 && forall i :: 0 <= i < |value| ==> IsIdChar(value[i])
    ensures r.Ok? ==> r.value.value == value
    ensures r == Err(EmptyId) <==> value == []
    ensures r == Err(WrongLength) <==> value != [] && |value| != 11
    ensures r == Err(InvalidChar) <==> |value| == 11 && exists i :: 0 <= i < |value| && !IsIdChar(value[i])
  {
    if value == [] then Err(EmptyId)
    else if |value| != 11 then Err(WrongLength)
    else if exists i :: 0 <= i < |value| && !IsIdChar(value[i]) then Err(InvalidChar)
    else Ok(YouTubeVideoId(value))
  }

  /** `ChannelId(value)`: empty, or not a 24-character string that starts
      with "UC", is rejected. */
  function MakeChannelId(value: string): (r: Result<ChannelId, IdError>)
    ensures r.Ok? <==> |value| == 24 && value[..2] == "UC"
    ensures r.Ok? ==> r.value.value == value
    ensures r == Err(EmptyId) <==> value == []
    ensures r == Err(BadFormat) <==> value != [] && !(|value| == 24 && value[..2] == "UC")
  {
    if value == [] then Err(EmptyId)
    else if !("UC" <= value) || |value| != 24 then Err(BadFormat)
    else Ok(ChannelId(value))
  }

  /** `to_url` of a video id: the watch page. */
  function VideoUrl(id: YouTubeVideoId): (r: string)
    ensures WatchUrlPrefix <= r && r[|WatchUrlPrefix|..] == id.value
  {
    WatchUrlPrefix + id.value
  }

  /** `to_url` of a channel id: the channel page. */
  function ChannelUrl(id: ChannelId): (r: string)
    ensures ChannelUrlPrefix <= r && r[|ChannelUrlPrefix|..] == id.value
  {
    ChannelUrlPrefix + id.value
  }

  /** Distinct ids give distinct URLs, so the URL identifies the video. */
  lemma VideoUrlInjective(a: YouTubeVideoId, b: YouTubeVideoId)
    ensures VideoUrl(a) == VideoUrl(b) ==> a == b
  {
    if VideoUrl(a) == VideoUrl(b) {
      assert a.value == VideoUrl(a)[|WatchUrlPrefix|..];
    }
  }
}

=== FILE: video_search_service.dfy ===
/** The application-level search service: validation in front of an
    injected client, the standalone view-count and shorts filters, the two
    stable sorts, and the history record built after a search. */
module VideoSearchService {
  import opened Base
  import opened Seqs
  import opened StableSort
  import opened Models
  import opened ValueObjects
  import opened YouTubeClient
  import HistoryService

  /** The injected client's search, as the service sees it. */
  type ClientSearch = SearchCriteria -> Result<seq<VideoInfo>, ClientError>

  /** `search`: validate first, raising without touching the client when
      the criteria are invalid; otherwise pass the client's answer (list or
      error) through unchanged.  `called` says whether the client ran. */
  function Search(client: ClientSearch, c: SearchCriteria): (out: (Result<seq<VideoInfo>, ClientError>, bool))
    ensures out.1 <==> IsValid(c)
    ensures !IsValid(c) ==> out.0.Err? && out.0.error.InvalidCriteria? && !Satisfies(c, out.0.error.error)
    ensures IsValid(c) ==> out.0 == client(c)
  {
    ValidateFirstBroken(c);
    match Validate(c)
    case Fail(e) => (Err(InvalidCriteria(e)), false)
    case Pass => (client(c), true)
  }

  // ---------------------------------------------------------------------------
  // Filters
  // ---------------------------------------------------------------------------

  /** The selector of `filter_by_view_count`. */
  function ViewsWithin(minCount: Option<int>, maxCount: Option<int>): VideoInfo -> bool {
    (v: VideoInfo) => InViewBounds(minCount, maxCount, v.viewCount)
  }

  /** `filter_by_view_count`: the videos whose count is within the given
      bounds, in input order. */
  method FilterByViewCount(videos: seq<VideoInfo>, minCount: Option<int>, maxCount: Option<int>)
    returns (r: seq<VideoInfo>)
    ensures r == Filter(videos, ViewsWithin(minCount, maxCount))
  {
    r := [];
    var i := 0;
    while i < |videos|
      invariant 0 <= i <= |videos|
      invariant r == Filter(videos[..i], ViewsWithin(minCount, maxCount))
    {
      var v := videos[i];
      assert videos[..i + 1][..i] == videos[..i];
      if minCount.Some? && v.viewCount < minCount.value {
      } else if maxCount.Some? && v.viewCount > maxCount.value {
      } else {
        r := r + [v];
      }
      i := i + 1;
    }
    assert videos[..i] == videos;
  }

  /** A video survives the view filter exactly when it was in the list and
      the range value object contains its count. */
  lemma FilterByViewCountMembers(videos: seq<VideoInfo>, minCount: Option<int>, maxCount: Option<int>, v: VideoInfo)
    ensures v in Filter(videos, ViewsWithin(minCount, maxCount)) <==>
              v in videos && RangeContains(ViewCountRange(minCount, maxCount), v.viewCount)
  {
    FilterMembers(videos, ViewsWithin(minCount, maxCount));
    InViewBoundsIsContains(minCount, maxCount, v.viewCount);
  }

  /** Filtering twice by the same bounds is filtering once. */
  lemma FilterByViewCountIdempotent(videos: seq<VideoInfo>, minCount: Option<int>, maxCount: Option<int>)
    ensures Filter(Filter(videos, ViewsWithin(minCount, maxCount)), ViewsWithin(minCount, maxCount))
         == Filter(videos, ViewsWithin(minCount, maxCount))
  {
    FilterIdempotent(videos, ViewsWithin(minCount, maxCount));
  }

  /** The selector of `filter_shorts`. */
  function IsShortIs(shortsOnly: bool): VideoInfo -> bool {
    (v: VideoInfo) => v.isShort == shortsOnly
  }

  /** `filter_shorts`: the videos whose short flag equals `shortsOnly`, in
      input order. */
  function FilterShorts(videos: seq<VideoInfo>, shortsOnly: bool): (r: seq<VideoInfo>)
    ensures |r| <= |videos|
    ensures forall i :: 0 <= i < |r| ==> r[i].isShort == shortsOnly
  {
    Filter(videos, IsShortIs(shortsOnly))
  }

  /** A video survives exactly when it was in the list with the requested flag. */
  lemma FilterShortsMembers(videos: seq<VideoInfo>, shortsOnly: bool, v: VideoInfo)
    ensures v in FilterShorts(videos, shortsOnly) <==> v in videos && v.isShort == shortsOnly
  {
    FilterMembers(videos, IsShortIs(shortsOnly));
  }

  /** The shorts and the non-shorts together are the input, each video
      counted once. */
  lemma FilterShortsPartition(videos: seq<VideoInfo>)
    ensures multiset(FilterShorts(videos, true)) + multiset(FilterShorts(videos, false)) == multiset(videos)
    ensures |FilterShorts(videos, true)| + |FilterShorts(videos, false)| == |videos|
  {
    FilterPartition(videos, IsShortIs(true), IsShortIs(false));
  }

  /** Filtering twice by the same flag is filtering once. */
  lemma FilterShortsIdempotent(videos: seq<VideoInfo>, shortsOnly: bool)
    ensures FilterShorts(FilterShorts(videos, shortsOnly), shortsOnly) == FilterShorts(videos, shortsOnly)
  {
    FilterIdempotent(videos, IsShortIs(shortsOnly));
  }

  // ---------------------------------------------------------------------------
  // Sorts
  // ---------------------------------------------------------------------------

  function ViewKey(v: VideoInfo): int {
    v.viewCount
  }

  function PublishedKey(v: VideoInfo): int {
    v.publishedAt
  }

  /** `sort_by_view_count`: a permutation of the input ordered by view
      count, descending unless asked otherwise. */
  function SortByViewCount(videos: seq<VideoInfo>, descending: bool): (r: seq<VideoInfo>)
    ensures Sorted(r, ViewKey, descending)
    ensures multiset(r) == multiset(videos)
  {
    SortBy(videos, ViewKey, descending)
  }

  /** Videos with the same view count keep their input order, in either
      direction. */
  lemma SortByViewCountStable(videos: seq<VideoInfo>, descending: bool, k: int)
    ensures Filter(SortByViewCount(videos, descending), KeyIs(ViewKey, k)) == Filter(videos, KeyIs(ViewKey, k))
  {
    SortStable(videos, ViewKey, descending, k);
  }

  /** `sort_by_published_date`: a permutation of the input ordered by
      publication time, newest first unless asked otherwise. */
  function SortByPublishedDate(videos: seq<VideoInfo>, descending: bool): (r: seq<VideoInfo>)
    ensures Sorted(r, PublishedKey, descending)
    ensures multiset(r) == multiset(videos)
  {
    SortBy(videos, PublishedKey, descending)
  }

  /** Videos published at the same moment keep their input order. */
  lemma SortByPublishedDateStable(videos: seq<VideoInfo>, descending: bool, k: int)
    ensures Filter(SortByPublishedDate(videos, descending), KeyIs(PublishedKey, k))
         == Filter(videos, KeyIs(PublishedKey, k))
  {
    SortStable(videos, PublishedKey, descending, k);
  }

  // ---------------------------------------------------------------------------
  // History record
  // ---------------------------------------------------------------------------

  /** `create_search_history`: an unsaved record (no id yet) of the
      criteria and the result count, stamped with the current time. */
  function CreateSearchHistory(c: SearchCriteria, resultCount: int, now: int): (h: SearchHistory)
    ensures h.criteria == c && h.resultCount == resultCount
    ensures h.historyId.None? && h.executedAt == Some(now)
  {
    SearchHistory(c, resultCount, None, Some(now))
  }

  /** A record made by `create_search_history` and then logged with
      `add_history` comes back with an id and the logging time.  Looking up
      that id gives the same record, with region and language at their
      defaults. */
  lemma CreatedHistoryReadsBack(h: HistoryService.HistoryStore, c: SearchCriteria, resultCount: int, now: int)
    requires HistoryService.Valid(h)
    ensures var made := CreateSearchHistory(c, resultCount, now);
            var added := HistoryService.AddHistory(h, made.criteria, made.resultCount);
            && added.1 == made.(historyId := Some(h.nextId), executedAt := Some(added.0.clock))
            && HistoryService.GetHistoryById(added.0, h.nextId)
               == Ok(Some(added.1.(criteria := c.(regionCode := DefaultRegion, language := DefaultLanguage))))
  {
    var added := HistoryService.AddHistory(h, c, resultCount);
    var h' := added.0;
    HistoryService.AddPreservesValid(h, c, resultCount);
    var logged := h'.rows[|h.rows|];
    assert h'.rows == h.rows + [logged];
    var r := HistoryService.GetHistoryById(h', h.nextId);
    assert logged in h'.rows && logged.id == h.nextId;
    var row :| row in h'.rows && HistoryService.RowToHistory(row) == Ok(r.value.value);
    assert row == logged;
  }
}

=== FILE: youtube_client.dfy ===
/** The YouTube Data API client: bounded pagination over the search
    endpoint, detail requests in batches of 50, normalisation of each raw
    item into a VideoInfo, and the view-range and video-type filter.  The
    remote service is a parameter (`Provider`) and so are the two foreign
    parsers (`Parsers`): the ISO 8601 duration parser and the timestamp
    parser. */
module YouTubeClient {
  import opened Base
  import opened Text
  import opened Seqs
  import opened Models
  import opened ValueObjects

  /** The search endpoint returns at most this many items per page. */
  const MaxPageSize: int := 50
  /** The loop guard against endless pagination. */
  const MaxSearchRequests: nat := 10
  /** The details endpoint accepts at most this many ids per request. */
  const DetailBatchSize: nat := 50
  /** A video this long or shorter counts as a short. */
  const ShortMaxSeconds: int := 60

  // ---------------------------------------------------------------------------
  // The provider's vocabulary
  // ---------------------------------------------------------------------------

  /** Why a provider call or the handling of its answer failed. */
  datatype Fault =
    | HttpError(status: int)
    /** a search item without an `id` object (a `KeyError`) */
    | MissingIdKey
    | OtherError

  /** What `search_videos` and `get_video_by_id` raise. */
  datatype ClientError =
    /** the criteria's own `ValueError`, raised before any request */
    | InvalidCriteria(error: ValidationError)
    /** any failure after validation, re-raised as `YouTubeAPIError` */
    | YouTubeApiError(cause: Fault)
    /** a failure `get_video_by_id` lets through unwrapped */
    | Unwrapped(cause: Fault)

  /** The parameters of one search request. */
  datatype SearchRequest = SearchRequest(
    query: string,
    maxResults: int,
    order: string,
    regionCode: string,
    relevanceLanguage: string,
    publishedAfter: Option<int>,
    publishedBefore: Option<int>,
    pageToken: Option<string>)

  /** One search result: either it has no `id` object at all, or it has
      one that may or may not carry a `videoId`. */
  datatype SearchItem = NoIdField | IdField(videoId: Option<string>)

  /** One page of search results; a missing `items` list is an empty one. */
  datatype SearchPage = SearchPage(items: seq<SearchItem>, nextPageToken: Option<string>)

  datatype Snippet = Snippet(
    publishedAt: Option<string>,
    title: Option<string>,
    channelTitle: Option<string>,
    channelId: Option<string>,
    description: Option<string>,
    tags: Option<seq<string>>,
    /** `thumbnails.high.url`, absent when any step of that path is */
    highThumbnailUrl: Option<string>)

  datatype Statistics = Statistics(
    viewCount: Option<string>,
    likeCount: Option<string>,
    commentCount: Option<string>)

  /** One raw item of the details endpoint; each part may be missing. */
  datatype RawVideo = RawVideo(
    id: Option<string>,
    snippet: Option<Snippet>,
    statistics: Option<Statistics>,
    duration: Option<string>)

  /** The remote service: one search page per request, and the raw items
      for a batch of ids. */
  datatype Provider = Provider(
    search: SearchRequest -> Result<SearchPage, Fault>,
    videos: seq<string> -> Result<seq<RawVideo>, Fault>)

  /** Foreign parsers: ISO 8601 duration to whole seconds (the truncated
      `total_seconds()`), and an ISO timestamp to the model's clock. `None`
      stands for the exception either raises. */
  datatype Parsers = Parsers(
    duration: string -> Option<int>,
    timestamp: string -> Option<int>)

  // ---------------------------------------------------------------------------
  // Search pagination
  // ---------------------------------------------------------------------------

  /** The request sent for one page; only the page token varies. */
  function RequestFor(c: SearchCriteria, token: Option<string>): (req: SearchRequest)
    ensures req.maxResults == Min(c.maxResults, MaxPageSize)
    ensures req.pageToken == token && req.query == c.keyword
  {
    SearchRequest(c.keyword, Min(c.maxResults, MaxPageSize), c.order, c.regionCode,
                  c.language, c.publishedAfter, c.publishedBefore, token)
  }

  /** A page announces a further page only with a non-empty token. */
  predicate HasNext(page: SearchPage) {
    page.nextPageToken.Some? && page.nextPageToken.value != ""
  }

  /** Every item of the page has its `id` object; otherwise reading the
      page raises `KeyError`, which aborts the whole search. */
  predicate PageOk(page: SearchPage) {
    forall i :: 0 <= i < |page.items| ==> page.items[i].IdField?
  }

  /** The non-empty `videoId`s of a list of items, in order. */
  function ItemIds(items: seq<SearchItem>): (r: seq<string>)
    ensures |r| <= |items|
    ensures forall j :: 0 <= j < |r| ==> r[j] != []
  {
    if items == [] then []
    else
      var last := items[|items| - 1];
      ItemIds(items[..|items| - 1])
        + (if last.IdField? && last.videoId.Some? && last.videoId.value != "" then [last.videoId.value] else [])
  }

  /** The ids of all pages, laid end to end. */
  function Collected(pages: seq<SearchPage>): seq<string> {
    if pages == [] then []
    else Collected(pages[..|pages| - 1]) + ItemIds(pages[|pages| - 1].items)
  }

  /** The ids collected once page `i` has been read. */
  function CollectedThrough(pages: seq<SearchPage>, i: int): seq<string>
    requires 0 <= i < |pages|
  {
    Collected(pages[..i + 1])
  }

  /** The token the request with index `i` carries: none for the first,
      the previous page's for every later one. */
  function TokenBefore(pages: seq<SearchPage>, i: int): Option<string>
    requires 0 <= i <= |pages|
  {
    if i == 0 then None else pages[i - 1].nextPageToken
  }

  /** The requests side of the protocol: request `i` carries the token of
      page `i - 1`, and every page followed by a request announced one. */
  predicate Asked(c: SearchCriteria, requests: seq<SearchRequest>, pages: seq<SearchPage>) {
    && |requests| - 1 <= |pages| <= |requests|
    && (forall i :: 0 <= i < |requests| ==> requests[i] == RequestFor(c, TokenBefore(pages, i)))
    && (forall j :: 0 <= j < |requests| - 1 ==> HasNext(pages[j]))
  }

  /** The answers side: every page is the provider's answer to the request
      with its index. */
  predicate Answers(p: Provider, requests: seq<SearchRequest>, pages: seq<SearchPage>)
    requires |pages| <= |requests|
  {
    forall i :: 0 <= i < |pages| ==> p.search(requests[i]) == Ok(pages[i])
  }

  /** The request/answer protocol of the pagination loop. */
  predicate Chained(p: Provider, c: SearchCriteria, requests: seq<SearchRequest>, pages: seq<SearchPage>) {
    Asked(c, requests, pages) && Answers(p, requests, pages)
  }

  /** The first `k` pages each told the loop to go on: every item had an
      id, a next token was given, and fewer than `max_results` ids were in
      hand after it. */
  predicate WentOn(c: SearchCriteria, pages: seq<SearchPage>, k: int)
    requires k <= |pages|
  {
    forall i :: 0 <= i < k ==>
      PageOk(pages[i]) && HasNext(pages[i]) && |CollectedThrough(pages, i)| < c.maxResults
  }

  /** Sending the next request extends the protocol. */
  lemma ChainedRequest(p: Provider, c: SearchCriteria, requests: seq<SearchRequest>, pages: seq<SearchPage>)
    requires Chained(p, c, requests, pages) && |pages| == |requests|
    requires pages != [] ==> HasNext(pages[|pages| - 1])
    ensures Chained(p, c, requests + [RequestFor(c, TokenBefore(pages, |pages|))], pages)
  {
    var req := RequestFor(c, TokenBefore(pages, |pages|));
    AskedNext(c, requests, pages, req);
    AnswersExtend(p, requests, pages, req);
  }

  /** The next request, carrying the last page's token, keeps the
      requests side of the protocol. */
  lemma AskedNext(c: SearchCriteria, requests: seq<SearchRequest>, pages: seq<SearchPage>, req: SearchRequest)
    requires Asked(c, requests, pages) && |pages| == |requests|
    requires pages != [] ==> HasNext(pages[|pages| - 1])
    requires req == RequestFor(c, TokenBefore(pages, |pages|))
    ensures Asked(c, requests + [req], pages)
  {
    var ext := requests + [req];
    forall i | 0 <= i < |ext| ensures ext[i] == RequestFor(c, TokenBefore(pages, i)) {
      if i < |requests| {
        assert ext[i] == requests[i];
      }
    }
  }

  /** A request not yet answered leaves the earlier answers in place. */
  lemma AnswersExtend(p: Provider, requests: seq<SearchRequest>, pages: seq<SearchPage>, req: SearchRequest)
    requires |pages| <= |requests| && Answers(p, requests, pages)
    ensures Answers(p, requests + [req], pages)
  {
    var ext := requests + [req];
    forall i | 0 <= i < |pages| ensures p.search(ext[i]) == Ok(pages[i]) {
      assert ext[i] == requests[i];
    }
  }

  /** Receiving the answer to the last request extends the protocol. */
  lemma ChainedPage(p: Provider, c: SearchCriteria, requests: seq<SearchRequest>, pages: seq<SearchPage>, page: SearchPage)
    requires Chained(p, c, requests, pages) && |pages| == |requests| - 1
    requires p.search(requests[|pages|]) == Ok(page)
    ensures Chained(p, c, requests, pages + [page])
  {
    var ext := pages + [page];
    forall i | 0 <= i < |ext| ensures p.search(requests[i]) == Ok(ext[i]) {
      if i < |pages| {
        assert ext[i] == pages[i];
      }
    }
    forall i | 0 <= i < |requests| ensures requests[i] == RequestFor(c, TokenBefore(ext, i)) {
      if i > 0 {
        assert ext[i - 1] == pages[i - 1];
      }
    }
    forall j | 0 <= j < |requests| - 1 ensures HasNext(ext[j]) {
      assert ext[j] == pages[j];
    }
  }

  /** Reading one more page does not change what the earlier pages said. */
  lemma WentOnSnoc(c: SearchCriteria, pages: seq<SearchPage>, page: SearchPage)
    requires WentOn(c, pages, |pages|)
    ensures WentOn(c, pages + [page], |pages|)
    ensures PageOk(page) && HasNext(page) && |Collected(pages + [page])| < c.maxResults ==>
              WentOn(c, pages + [page], |pages| + 1)
  {
    var ext := pages + [page];
    forall i | 0 <= i < |pages|
      ensures PageOk(ext[i]) && HasNext(ext[i]) && |CollectedThrough(ext, i)| < c.maxResults
    {
      assert ext[..i + 1] == pages[..i + 1];
    }
    assert ext[..|pages| + 1] == ext;
  }

  /** One page more: the protocol still holds, the earlier pages still
      said to go on, and the new page's ids come last. */
  lemma Advance(p: Provider, c: SearchCriteria, requests: seq<SearchRequest>, pages: seq<SearchPage>, page: SearchPage)
    requires Chained(p, c, requests, pages) && |pages| == |requests| - 1
    requires p.search(requests[|pages|]) == Ok(page)
    requires WentOn(c, pages, |pages|)
    ensures Chained(p, c, requests, pages + [page])
    ensures WentOn(c, pages + [page], |pages|)
    ensures Collected(pages + [page]) == Collected(pages) + ItemIds(page.items)
    ensures PageOk(page) && HasNext(page) && |Collected(pages + [page])| < c.maxResults ==>
              WentOn(c, pages + [page], |pages| + 1)
  {
    ChainedPage(p, c, requests, pages, page);
    WentOnSnoc(c, pages, page);
    assert (pages + [page])[..|pages|] == pages;
  }

  /** `_search_video_ids`: ask for pages of `min(max_results, 50)` until a
      page has no next token, enough ids are in hand, or ten requests have
      gone out; then cut the ids to `max_results`.  Every request, and every
      page received, is returned alongside the result. */
  method SearchVideoIds(p: Provider, c: SearchCriteria)
    returns (r: Result<seq<string>, Fault>, requests: seq<SearchRequest>, pages: seq<SearchPage>)
    requires 1 <= c.maxResults
    ensures 1 <= |requests| <= MaxSearchRequests
    ensures Chained(p, c, requests, pages)
    ensures WentOn(c, pages, |requests| - 1)
    ensures |pages| < |requests| ==> p.search(requests[|pages|]).Err? && r == Err(p.search(requests[|pages|]).error)
    ensures |pages| == |requests| && r.Err? ==> r == Err(MissingIdKey) && !PageOk(pages[|pages| - 1])
    ensures r.Ok? ==> |pages| == |requests| && PageOk(pages[|pages| - 1])
    ensures r.Ok? ==> r.value == Take(Collected(pages), c.maxResults)
    ensures r.Ok? ==>
              || |requests| == MaxSearchRequests
              || !HasNext(pages[|pages| - 1])
              || |Collected(pages)| >= c.maxResults
  {
    var token: Option<string> := None;
    var ids: seq<string> := [];
    requests := [];
    pages := [];
    while true
      invariant |requests| == |pages| < MaxSearchRequests
      invariant Chained(p, c, requests, pages)
      invariant WentOn(c, pages, |pages|)
      invariant ids == Collected(pages)
      invariant token == if pages == [] then None else pages[|pages| - 1].nextPageToken
      decreases MaxSearchRequests - |requests|
    {
      var req := RequestFor(c, token);
      assert token == TokenBefore(pages, |pages|);
      ChainedRequest(p, c, requests, pages);
      requests := requests + [req];
      var answer := p.search(req);
      if answer.Err? {
        r := Err(answer.error);
        return;
      }
      var page := answer.value;
      Advance(p, c, requests, pages, page);
      pages := pages + [page];
      if !PageOk(page) {
        r := Err(MissingIdKey);
        return;
      }
      ids := ids + ItemIds(page.items);
      token := page.nextPageToken;
      if !HasNext(page) || |ids| >= c.maxResults || |requests| == MaxSearchRequests {
        r := Ok(Take(ids, c.maxResults));
        return;
      }
    }
  }

  // ---------------------------------------------------------------------------
  // Item normalisation
  // ---------------------------------------------------------------------------

  /** `int(statistics.get(field, 0))`: a missing count is 0, a present one
      must parse as an integer. */
  function CountField(f: Option<string>): (r: Option<int>)
    ensures f.None? ==> r == Some(0)
    ensures f.Some? ==> r == ParseInt(f.value)
  {
    match f
    case None => Some(0)
    case Some(s) => ParseInt(s)
  }

  /** The item has every part `_parse_video_item` reads unconditionally,
      and every foreign parse and count conversion succeeds. */
  predicate Parsable(ps: Parsers, item: RawVideo) {
    && item.id.Some? && item.snippet.Some? && item.statistics.Some? && item.duration.Some?
    && ps.duration(item.duration.value).Some?
    && item.snippet.value.publishedAt.Some?
    && ps.timestamp(item.snippet.value.publishedAt.value).Some?
    && item.snippet.value.title.Some?
    && item.snippet.value.channelTitle.Some?
    && item.snippet.value.channelId.Some?
    && CountField(item.statistics.value.viewCount).Some?
    && CountField(item.statistics.value.likeCount).Some?
    && CountField(item.statistics.value.commentCount).Some?
  }

  /** `_parse_video_item`: a VideoInfo for a well-formed item, `None` when
      any step raises (the item is then dropped). */
  function ParseVideoItem(ps: Parsers, item: RawVideo): (r: Option<VideoInfo>)
    ensures r.Some? <==> Parsable(ps, item)
    ensures r.Some? ==> r.value.videoId == item.id.value
    ensures r.Some? ==> (r.value.isShort <==> r.value.durationSeconds <= ShortMaxSeconds)
    ensures r.Some? ==> r.value.url == WatchUrlPrefix + r.value.videoId
    ensures r.Some? && item.statistics.value.viewCount.None? ==> r.value.viewCount == 0
    ensures r.Some? && item.statistics.value.likeCount.None? ==> r.value.likeCount == 0
    ensures r.Some? && item.statistics.value.commentCount.None? ==> r.value.commentCount == 0
    ensures r.Some? && item.snippet.value.highThumbnailUrl.None? ==> r.value.thumbnailUrl == ""
    ensures r.Some? && item.snippet.value.tags.None? ==> r.value.tags == []
    ensures r.Some? && item.snippet.value.description.None? ==> r.value.description == ""
    ensures r.Some? ==> r.value.durationSeconds == ps.duration(item.duration.value).value
    ensures r.Some? ==> r.value.publishedAt == ps.timestamp(item.snippet.value.publishedAt.value).value
    ensures r.Some? ==> r.value.viewCount == CountField(item.statistics.value.viewCount).value
    ensures r.Some? ==> r.value.likeCount == CountField(item.statistics.value.likeCount).value
    ensures r.Some? ==> r.value.commentCount == CountField(item.statistics.value.commentCount).value
    ensures r.Some? ==> r.value.title == item.snippet.value.title.value
    ensures r.Some? ==> r.value.channelName == item.snippet.value.channelTitle.value
    ensures r.Some? ==> r.value.channelId == item.snippet.value.channelId.value
    ensures r.Some? && item.snippet.value.description.Some? ==> r.value.description == item.snippet.value.description.value
    ensures r.Some? && item.snippet.value.tags.Some? ==> r.value.tags == item.snippet.value.tags.value
    ensures r.Some? && item.snippet.value.highThumbnailUrl.Some? ==> r.value.thumbnailUrl == item.snippet.value.highThumbnailUrl.value
  {
    if !(item.id.Some? && item.snippet.Some? && item.statistics.Some? && item.duration.Some?) then None
    else
      var id := item.id.value;
      var sn := item.snippet.value;
      var st := item.statistics.value;
      var d := ps.duration(item.duration.value);
      if d.None? || sn.publishedAt.None? then None
      else
        var published := ps.timestamp(sn.publishedAt.value);
        if published.None? || sn.title.None? || sn.channelTitle.None? || sn.channelId.None? then None
        else
          var views := CountField(st.viewCount);
          var likes := CountField(st.likeCount);
          var comments := CountField(st.commentCount);
          if views.None? || likes.None? || comments.None? then None
          else
            Some(VideoInfo(
              videoId := id,
              title := sn.title.value,
              url := WatchUrlPrefix + id,
              channelName := sn.channelTitle.value,
              channelId := sn.channelId.value,
              viewCount := views.value,
              likeCount := likes.value,
              commentCount := comments.value,
              publishedAt := published.value,
              durationSeconds := d.value,
              isShort := d.value <= ShortMaxSeconds,
              description := sn.description.GetOr(""),
              tags := sn.tags.GetOr([]),
              thumbnailUrl := sn.highThumbnailUrl.GetOr("")))
  }

  /** For an id that is a valid `YouTubeVideoId`, the parsed item's URL is
      that id's `to_url`. */
  lemma ParsedUrlIsVideoUrl(ps: Parsers, item: RawVideo)
    requires ParseVideoItem(ps, item).Some?
    requires MakeVideoId(item.id.value).Ok?
    ensures ParseVideoItem(ps, item).value.url == VideoUrl(MakeVideoId(item.id.value).value)
  {
  }

  /** The parsable items of one response, parsed, in order. */
  function ParseItems(ps: Parsers, items: seq<RawVideo>): (r: seq<VideoInfo>)
    ensures |r| <= |items|
  {
    if items == [] then []
    else
      var last := ParseVideoItem(ps, items[|items| - 1]);
      ParseItems(ps, items[..|items| - 1]) + (if last.Some? then [last.value] else [])
  }

  /** Every parsed video comes from some item of the response. */
  lemma {:induction false} ParseItemsFromItems(ps: Parsers, items: seq<RawVideo>, v: VideoInfo)
    requires v in ParseItems(ps, items)
    ensures exists i :: 0 <= i < |items| && ParseVideoItem(ps, items[i]) == Some(v)
    decreases |items|
  {
    var init := items[..|items| - 1];
    var last := ParseVideoItem(ps, items[|items| - 1]);
    if v in ParseItems(ps, init) {
      ParseItemsFromItems(ps, init, v);
      var i :| 0 <= i < |init| && ParseVideoItem(ps, init[i]) == Some(v);
      assert items[i] == init[i];
    } else {
      assert last == Some(v);
    }
  }

  /** An item that parses is kept. */
  lemma {:induction false} ParseItemsKeeps(ps: Parsers, items: seq<RawVideo>, i: int)
    requires 0 <= i < |items| && Parsable(ps, items[i])
    ensures ParseVideoItem(ps, items[i]).value in ParseItems(ps, items)
    decreases |items|
  {
    if i < |items| - 1 {
      ParseItemsKeeps(ps, items[..|items| - 1], i);
    }
  }

  // ---------------------------------------------------------------------------
  // Detail batches
  // ---------------------------------------------------------------------------

  /** The i-th slice of 50 ids; only the last slice may be shorter. */
  function BatchAt(ids: seq<string>, i: nat): (b: seq<string>)
    requires DetailBatchSize * i < |ids|
    ensures 1 <= |b| <= DetailBatchSize
  {
    ids[DetailBatchSize * i .. Min(DetailBatchSize * i + DetailBatchSize, |ids|)]
  }

  /** `batches` are the first slices of `ids`, in order. */
  predicate Sliced(ids: seq<string>, batches: seq<seq<string>>) {
    forall i :: 0 <= i < |batches| ==> DetailBatchSize * i < |ids| && batches[i] == BatchAt(ids, i)
  }

  /** Every batch request was answered. */
  predicate Answered(p: Provider, batches: seq<seq<string>>) {
    forall i :: 0 <= i < |batches| ==> p.videos(batches[i]).Ok?
  }

  /** The videos all the answered batches yield, in batch order. */
  function BatchVideos(p: Provider, ps: Parsers, batches: seq<seq<string>>): seq<VideoInfo>
    requires Answered(p, batches)
  {
    if batches == [] then []
    else
      BatchVideos(p, ps, batches[..|batches| - 1])
        + ParseItems(ps, p.videos(batches[|batches| - 1]).value)
  }

  /** Taking the next slice keeps the batches consecutive. */
  lemma SlicedSnoc(ids: seq<string>, batches: seq<seq<string>>)
    requires Sliced(ids, batches) && DetailBatchSize * |batches| < |ids|
    ensures Sliced(ids, batches + [BatchAt(ids, |batches|)])
  {
    var ext := batches + [BatchAt(ids, |batches|)];
    forall i | 0 <= i < |ext| ensures DetailBatchSize * i < |ids| && ext[i] == BatchAt(ids, i) {
      if i < |batches| {
        assert ext[i] == batches[i];
      }
    }
  }

  /** The concatenation of the batches grows by exactly the next slice. */
  lemma FlattenSlicedSnoc(ids: seq<string>, batches: seq<seq<string>>, start: nat)
    requires start == DetailBatchSize * |batches| < |ids|
    requires Flatten(batches) == ids[..start]
    ensures Flatten(batches + [BatchAt(ids, |batches|)]) == ids[..Min(start + DetailBatchSize, |ids|)]
  {
    var batch := BatchAt(ids, |batches|);
    FlattenSnoc(batches, batch);
    assert ids[..Min(start + DetailBatchSize, |ids|)] == ids[..start] + batch;
  }

  /** One more answered batch adds its parsed items at the end. */
  lemma BatchVideosSnoc(p: Provider, ps: Parsers, batches: seq<seq<string>>, batch: seq<string>)
    requires Answered(p, batches) && p.videos(batch).Ok?
    ensures Answered(p, batches + [batch])
    ensures BatchVideos(p, ps, batches + [batch])
         == BatchVideos(p, ps, batches) + ParseItems(ps, p.videos(batch).value)
  {
    var ext := batches + [batch];
    assert forall i :: 0 <= i < |batches| ==> ext[i] == batches[i];
    assert ext[..|batches|] == batches;
  }

  /** `_get_video_details`: request the details of consecutive slices of at
      most 50 ids, in order, and keep the items that parse.  The first
      failed request ends the method with its fault. */
  method GetVideoDetails(p: Provider, ps: Parsers, ids: seq<string>)
    returns (r: Result<seq<VideoInfo>, Fault>, batches: seq<seq<string>>)
    ensures Sliced(ids, batches)
    ensures r.Ok? ==> Flatten(batches) == ids
    ensures r.Ok? ==> Answered(p, batches) && r.value == BatchVideos(p, ps, batches)
    ensures r.Err? ==> batches != [] && p.videos(batches[|batches| - 1]) == Err(r.error)
    ensures r.Err? ==> Answered(p, batches[..|batches| - 1])
  {
    batches := [];
    var videos: seq<VideoInfo> := [];
    var start := 0;
    while start < |ids|
      invariant start == DetailBatchSize * |batches|
      invariant Sliced(ids, batches)
      invariant Flatten(batches) == ids[..Min(start, |ids|)]
      invariant Answered(p, batches)
      invariant videos == BatchVideos(p, ps, batches)
      decreases |ids| - start
    {
      var batch := BatchAt(ids, |batches|);
      SlicedSnoc(ids, batches);
      FlattenSlicedSnoc(ids, batches, start);
      var answer := p.videos(batch);
      if answer.Err? {
        var before := batches;
        batches := batches + [batch];
        assert batches[..|batches| - 1] == before;
        r := Err(answer.error);
        return;
      }
      BatchVideosSnoc(p, ps, batches, batch);
      videos := videos + ParseItems(ps, answer.value);
      batches := batches + [batch];
      start := start + DetailBatchSize;
    }
    assert ids[..Min(start, |ids|)] == ids;
    r := Ok(videos);
  }

  // ---------------------------------------------------------------------------
  // Filtering and the whole search
  // ---------------------------------------------------------------------------

  /** The view-count test both the client and the search service apply:
      a video is dropped when below a set minimum or above a set maximum. */
  predicate InViewBounds(minCount: Option<int>, maxCount: Option<int>, views: int) {
    !(minCount.Some? && views < minCount.value) && !(maxCount.Some? && views > maxCount.value)
  }

  /** The view-count test is the value object's `contains`. */
  lemma InViewBoundsIsContains(minCount: Option<int>, maxCount: Option<int>, views: int)
    ensures InViewBounds(minCount, maxCount, views) <==> RangeContains(ViewCountRange(minCount, maxCount), views)
  {
  }

  /** The video-type test: SHORT keeps shorts, NORMAL keeps the others, ALL
      keeps everything. */
  predicate TypeMatches(t: VideoType, isShort: bool) {
    !(t == Short && !isShort) && !(t == Normal && isShort)
  }

  /** The test `_filter_videos` applies to each video. */
  function Keep(c: SearchCriteria): VideoInfo -> bool {
    (v: VideoInfo) => InViewBounds(c.minViewCount, c.maxViewCount, v.viewCount) && TypeMatches(c.videoType, v.isShort)
  }

  /** A video survives `_filter_videos` exactly when its count lies in the
      criteria's range and its type is the requested one. */
  lemma KeepMeans(c: SearchCriteria, v: VideoInfo)
    ensures Keep(c)(v) <==>
              && RangeContains(ViewCountRange(c.minViewCount, c.maxViewCount), v.viewCount)
              && (c.videoType == Short ==> v.isShort)
              && (c.videoType == Normal ==> !v.isShort)
  {
  }

  /** `_filter_videos`: the videos passing the view and type tests, in
      their original order. */
  method FilterVideos(videos: seq<VideoInfo>, c: SearchCriteria) returns (r: seq<VideoInfo>)
    ensures r == Filter(videos, Keep(c))
  {
    r := [];
    var i := 0;
    while i < |videos|
      invariant 0 <= i <= |videos|
      invariant r == Filter(videos[..i], Keep(c))
    {
      var v := videos[i];
      assert videos[..i + 1][..i] == videos[..i];
      var skip := false;
      if c.minViewCount.Some? && v.viewCount < c.minViewCount.value {
        skip := true;
      } else if c.maxViewCount.Some? && v.viewCount > c.maxViewCount.value {
        skip := true;
      } else if c.videoType == Short && !v.isShort {
        skip := true;
      } else if c.videoType == Normal && v.isShort {
        skip := true;
      }
      if !skip {
        r := r + [v];
      }
      i := i + 1;
    }
    assert videos[..i] == videos;
  }

  /** The id search ended without a fault: every request was answered and
      the last page had every item's `id` object. */
  predicate SearchSucceeded(requests: seq<SearchRequest>, pages: seq<SearchPage>) {
    |pages| == |requests| && pages != [] && PageOk(pages[|pages| - 1])
  }

  /** `search_videos`: validate (outside the error wrapper), collect ids,
      fetch details unless there are none, filter, and cut to
      `max_results`.  Any fault after validation becomes `YouTubeAPIError`.
      The search requests and pages, the ids and the detail batches are
      returned alongside the result. */
  method SearchVideos(p: Provider, ps: Parsers, c: SearchCriteria)
    returns (r: Result<seq<VideoInfo>, ClientError>, requests: seq<SearchRequest>,
             pages: seq<SearchPage>, ids: seq<string>, batches: seq<seq<string>>)
    ensures Validate(c).Fail? ==>
              r == Err(InvalidCriteria(Validate(c).error)) && requests == [] && batches == []
    ensures Validate(c).Pass? ==> 1 <= |requests| <= MaxSearchRequests
    ensures Validate(c).Pass? ==> Chained(p, c, requests, pages) && WentOn(c, pages, |requests| - 1)
    ensures forall i :: 0 <= i < |requests| ==> requests[i].maxResults == Min(c.maxResults, MaxPageSize)
    ensures Validate(c).Pass? && |pages| < |requests| ==>
              p.search(requests[|pages|]).Err? &&
              r == Err(YouTubeApiError(p.search(requests[|pages|]).error)) && batches == []
    ensures Validate(c).Pass? && |pages| == |requests| && !PageOk(pages[|pages| - 1]) ==>
              r == Err(YouTubeApiError(MissingIdKey)) && batches == []
    ensures SearchSucceeded(requests, pages) ==> ids == Take(Collected(pages), c.maxResults)
    ensures SearchSucceeded(requests, pages) ==>
              || |requests| == MaxSearchRequests
              || !HasNext(pages[|pages| - 1])
              || |Collected(pages)| >= c.maxResults
    ensures SearchSucceeded(requests, pages) && ids == [] ==> r == Ok([])
    ensures SearchSucceeded(requests, pages) && Answered(p, batches) ==> r.Ok?
    ensures SearchSucceeded(requests, pages) && r.Err? ==>
              batches != [] && p.videos(batches[|batches| - 1]).Err? &&
              r == Err(YouTubeApiError(p.videos(batches[|batches| - 1]).error))
    ensures SearchSucceeded(requests, pages) && r.Err? ==>
              batches != [] && Answered(p, batches[..|batches| - 1])
    ensures Validate(c).Pass? && r.Err? ==> r.error.YouTubeApiError?
    ensures Validate(c).Pass? ==> |ids| <= c.maxResults
    ensures ids == [] ==> batches == []
    ensures Sliced(ids, batches)
    ensures r.Ok? ==> Validate(c).Pass? && SearchSucceeded(requests, pages) && Flatten(batches) == ids
    ensures r.Ok? ==> Answered(p, batches)
    ensures r.Ok? ==> r.value == Take(Filter(BatchVideos(p, ps, batches), Keep(c)), c.maxResults)
    ensures r.Ok? ==> |r.value| <= c.maxResults
  {
    requests := [];
    pages := [];
    ids := [];
    batches := [];
    var check := Validate(c);
    if check.Fail? {
      r := Err(InvalidCriteria(check.error));
      return;
    }
    PassedCountInRange(c);
    r, requests, pages, ids, batches := SearchValidated(p, ps, c);
  }

  /** `search_videos` once the criteria have passed: collect ids, fetch
      details unless there are none, filter, cut to `max_results`. */
  method SearchValidated(p: Provider, ps: Parsers, c: SearchCriteria)
    returns (r: Result<seq<VideoInfo>, ClientError>, requests: seq<SearchRequest>,
             pages: seq<SearchPage>, ids: seq<string>, batches: seq<seq<string>>)
    requires 1 <= c.maxResults
    ensures 1 <= |requests| <= MaxSearchRequests
    ensures Chained(p, c, requests, pages) && WentOn(c, pages, |requests| - 1)
    ensures forall i :: 0 <= i < |requests| ==> requests[i].maxResults == Min(c.maxResults, MaxPageSize)
    ensures |pages| < |requests| ==>
              p.search(requests[|pages|]).Err? &&
              r == Err(YouTubeApiError(p.search(requests[|pages|]).error)) && batches == []
    ensures |pages| == |requests| && !PageOk(pages[|pages| - 1]) ==>
              r == Err(YouTubeApiError(MissingIdKey)) && batches == []
    ensures SearchSucceeded(requests, pages) ==> ids == Take(Collected(pages), c.maxResults)
    ensures SearchSucceeded(requests, pages) ==>
              || |requests| == MaxSearchRequests
              || !HasNext(pages[|pages| - 1])
              || |Collected(pages)| >= c.maxResults
    ensures SearchSucceeded(requests, pages) && ids == [] ==> r == Ok([])
    ensures SearchSucceeded(requests, pages) && Answered(p, batches) ==> r.Ok?
    ensures SearchSucceeded(requests, pages) && r.Err? ==>
              batches != [] && p.videos(batches[|batches| - 1]).Err? &&
              r == Err(YouTubeApiError(p.videos(batches[|batches| - 1]).error))
    ensures SearchSucceeded(requests, pages) && r.Err? ==>
              batches != [] && Answered(p, batches[..|batches| - 1])
    ensures r.Err? ==> r.error.YouTubeApiError?
    ensures |ids| <= c.maxResults
    ensures ids == [] ==> batches == []
    ensures Sliced(ids, batches)
    ensures r.Ok? ==> SearchSucceeded(requests, pages) && Flatten(batches) == ids
    ensures r.Ok? ==> Answered(p, batches)
    ensures r.Ok? ==> r.value == Take(Filter(BatchVideos(p, ps, batches), Keep(c)), c.maxResults)
    ensures r.Ok? ==> |r.value| <= c.maxResults
  {
    ids := [];
    batches := [];
    var found;
    found, requests, pages := SearchVideoIds(p, c);
    RequestsSized(p, c, requests, pages);
    if found.Err? {
      r := Err(YouTubeApiError(found.error));
      return;
    }
    ids := found.value;
    if ids == [] {
      r := Ok([]);
      return;
    }
    r, batches := FetchAndFilter(p, ps, c, ids);
  }

  /** Every request of the id search asks for `min(max_results, 50)` items. */
  lemma RequestsSized(p: Provider, c: SearchCriteria, requests: seq<SearchRequest>, pages: seq<SearchPage>)
    requires Chained(p, c, requests, pages)
    ensures forall i :: 0 <= i < |requests| ==> requests[i].maxResults == Min(c.maxResults, MaxPageSize)
  {
    forall i | 0 <= i < |requests| ensures requests[i].maxResults == Min(c.maxResults, MaxPageSize) {
      assert requests[i] == RequestFor(c, TokenBefore(pages, i));
    }
  }

  /** The part of `search_videos` after a non-empty id list: fetch the
      details, filter, cut to `max_results`; a failed batch request becomes
      `YouTubeAPIError`. */
  method FetchAndFilter(p: Provider, ps: Parsers, c: SearchCriteria, ids: seq<string>)
    returns (r: Result<seq<VideoInfo>, ClientError>, batches: seq<seq<string>>)
    requires ids != [] && 1 <= c.maxResults
    ensures Sliced(ids, batches)
    ensures Answered(p, batches) ==> r.Ok?
    ensures r.Err? ==> batches != [] && p.videos(batches[|batches| - 1]).Err? &&
                       r == Err(YouTubeApiError(p.videos(batches[|batches| - 1]).error))
    ensures r.Err? ==> batches != [] && Answered(p, batches[..|batches| - 1])
    ensures r.Ok? ==> Answered(p, batches) && Flatten(batches) == ids
    ensures r.Ok? ==> r.value == Take(Filter(BatchVideos(p, ps, batches), Keep(c)), c.maxResults)
    ensures r.Ok? ==> |r.value| <= c.maxResults
  {
    var details;
    details, batches := GetVideoDetails(p, ps, ids);
    if details.Err? {
      assert !p.videos(batches[|batches| - 1]).Ok?;
      r := Err(YouTubeApiError(details.error));
      return;
    }
    var kept := FilterVideos(details.value, c);
    r := Ok(Take(kept, c.maxResults));
  }

  /** Every video the answered batches yield was parsed from an item of one
      of their responses. */
  lemma {:induction false} BatchVideosFromItems(p: Provider, ps: Parsers, batches: seq<seq<string>>, v: VideoInfo)
    requires Answered(p, batches) && v in BatchVideos(p, ps, batches)
    ensures exists i, k :: 0 <= i < |batches| && 0 <= k < |p.videos(batches[i]).value| &&
                           ParseVideoItem(ps, p.videos(batches[i]).value[k]) == Some(v)
    decreases |batches|
  {
    var init := batches[..|batches| - 1];
    assert forall i :: 0 <= i < |init| ==> init[i] == batches[i];
    if v in BatchVideos(p, ps, init) {
      BatchVideosFromItems(p, ps, init, v);
      var i, k :| 0 <= i < |init| && 0 <= k < |p.videos(init[i]).value| &&
                  ParseVideoItem(ps, p.videos(init[i]).value[k]) == Some(v);
      assert init[i] == batches[i];
    } else {
      var last := |batches| - 1;
      ParseItemsFromItems(ps, p.videos(batches[last]).value, v);
    }
  }

  /** What a successful search returns: each video passes the view and
      type filter and is the parse of an item the details endpoint sent for
      one of the batches of the searched ids. */
  lemma SearchResultMeans(p: Provider, ps: Parsers, c: SearchCriteria, batches: seq<seq<string>>, n: nat, v: VideoInfo)
    requires Answered(p, batches)
    requires v in Take(Filter(BatchVideos(p, ps, batches), Keep(c)), n)
    ensures RangeContains(ViewCountRange(c.minViewCount, c.maxViewCount), v.viewCount)
    ensures c.videoType == Short ==> v.isShort && v.durationSeconds <= ShortMaxSeconds
    ensures c.videoType == Normal ==> !v.isShort && v.durationSeconds > ShortMaxSeconds
    ensures exists i, k :: 0 <= i < |batches| && 0 <= k < |p.videos(batches[i]).value| &&
                           ParseVideoItem(ps, p.videos(batches[i]).value[k]) == Some(v)
  {
    var all := BatchVideos(p, ps, batches);
    FilterMembers(all, Keep(c));
    assert v in Filter(all, Keep(c));
    KeepMeans(c, v);
    BatchVideosFromItems(p, ps, batches, v);
  }

  /** `get_video_by_id`: one details request for one id.  No items means
      no video; an HTTP failure is wrapped, any other is not. */
  function GetVideoById(p: Provider, ps: Parsers, id: string): (r: Result<Option<VideoInfo>, ClientError>)
    ensures p.videos([id]) == Ok([]) ==> r == Ok(None)
    ensures p.videos([id]).Ok? <==> r.Ok?
    ensures r.Err? ==> (r.error.YouTubeApiError? <==> p.videos([id]).error.HttpError?)
    ensures p.videos([id]).Ok? && p.videos([id]).value != [] ==> r == Ok(ParseVideoItem(ps, p.videos([id]).value[0]))
    ensures p.videos([id]).Err? && p.videos([id]).error.HttpError? ==> r == Err(YouTubeApiError(p.videos([id]).error))
    ensures p.videos([id]).Err? && !p.videos([id]).error.HttpError? ==> r == Err(Unwrapped(p.videos([id]).error))
  {
    match p.videos([id])
    case Err(HttpError(status)) => Err(YouTubeApiError(HttpError(status)))
    case Err(f) => Err(Unwrapped(f))
    case Ok(items) => if items == [] then Ok(None) else Ok(ParseVideoItem(ps, items[0]))
  }

  /** What a lookup by id means: a video is found exactly when the details
      endpoint answered with a first item that parses, and the video is
      that item's, with its id and watch URL; no video means the answer was
      empty or its first item did not parse. */
  lemma GetVideoByIdMeans(p: Provider, ps: Parsers, id: string)
    ensures GetVideoById(p, ps, id).Ok? && GetVideoById(p, ps, id).value.Some? <==>
              p.videos([id]).Ok? && p.videos([id]).value != [] && Parsable(ps, p.videos([id]).value[0])
    ensures GetVideoById(p, ps, id) == Ok(None) <==>
              p.videos([id]).Ok? && (p.videos([id]).value == [] || !Parsable(ps, p.videos([id]).value[0]))
    ensures GetVideoById(p, ps, id).Ok? && GetVideoById(p, ps, id).value.Some? ==>
              var v := GetVideoById(p, ps, id).value.value;
              && v.videoId == p.videos([id]).value[0].id.value
              && v.url == WatchUrlPrefix + v.videoId
              && (v.isShort <==> v.durationSeconds <= ShortMaxSeconds)
  {
  }
}
